=== FILE: README.md ===
# ReidConnect core, modelled in Dafny

ReidConnect is a university club and events platform. Its Spring backend
stores clubs, events, posts, comments, subscriptions, venue bookings and
student accounts. Its React front ends validate sign-up and profile forms
and drive a few union and academic dashboards.

This project models that core as pure functions over immutable database
snapshots and screen states, and proves what the services and handlers
promise.

**Backend services.** Each `*ServiceImpl` method becomes a function from a
database snapshot to `Result<…>`, either the new snapshot or the error the
method throws. `Err(NotFound(...))` stands for an `orElseThrow`, and the
other error constructors stand for the `RuntimeException` messages. The
following are parameters:

- identities that the database assigns on `save` (`id`, with
  `requires id !in table`);
- the clock (`now`, `today`);
- the random draw behind a verification code;
- the authentication manager's verdict.

Join tables (event–slot, post–media, booking–slot, subscriptions) are
ordered lists of `Link(owner, target)` rows. The Spring Data derived
queries are modelled on them in module `Repository`:

- `findAllById` returns the stored ids among those requested, each once, and
  drops unknown and repeated ids (the order is a modelling choice, see
  "Left out");
- `countByIdIn` counts distinct stored ids;
- `deleteBy…` is a no-op when nothing matches.

**Front ends.** The form validators are modelled on a small engine for
anchored JavaScript regular expressions (module `RegExp`). The engine
supports literals, bounded character-class repetitions and `(?=.*[…])`
lookaheads. Each pattern is proved equal to a plain-language predicate.
Component state is a datatype and each handler is a function on it; a
`useEffect` runs when one of its dependencies changes.

Modules, in the order of the program's layers:

- `Wrappers`, `Strings`, `Seqs`: `Option`/`Result`, JavaScript string
  operations, and list filtering.
- `Entities`, `Repository`: shared rows and ids, and Spring Data queries.
- `EventMapper`, `EventService`, `SlotInitializer`, `VenueBookingService`:
  events, slots and bookings.
- `Authentication`: sign-up, login, verification codes.
- `PostService`, `CommentService`, `SubscriptionService`,
  `StudentService`: the social side.
- `RegExp`, `SignupForm`, `UserProfile`: the form validators.
- `LecturerManagement`, `EventSchedule`, `ClubDetail`, `ClubGallery`: the
  dashboard components.

## Model

Source paths are relative to the repository root.

| member | source | states |
|---|---|---|
| Repository.FindAllById | backend/src/main/java/reidConnect/backend/service/impl/EventServiceImpl.java:76 | the slots loaded for a request are exactly the stored ids the request names, each once, never more than were asked for |
| Repository.CountByIdInFull | backend/src/main/java/reidConnect/backend/repository/SlotRepository.java:10 | the count of stored ids in a list equals the list's length exactly when every id is stored and none repeats |
| Repository.Targets | backend/src/main/java/reidConnect/backend/repository/EventSlotRepository.java:10 | an owner's targets are exactly those of its rows, in row order |
| Repository.DropOwner | backend/src/main/java/reidConnect/backend/repository/EventSlotRepository.java:11 | deleting by owner removes exactly that owner's rows and keeps every other row |
| Repository.TargetsOfDrop | backend/src/main/java/reidConnect/backend/repository/EventSlotRepository.java:11 | after deleting an owner's rows it has no targets and every other owner's targets are unchanged |
| Repository.ReplaceTargets | backend/src/main/java/reidConnect/backend/service/impl/EventServiceImpl.java:128-133 | delete-then-save of an owner's links makes its targets exactly the new list and leaves other owners alone |
| Repository.AddTargets | backend/src/main/java/reidConnect/backend/service/impl/EventServiceImpl.java:76-81 | saving links for an owner without rows makes its targets exactly the new list and leaves other owners alone |
| Repository.TargetsOfLinks | backend/src/main/java/reidConnect/backend/service/impl/PostServiceImpl.java:35-37 | freshly built links read back as their targets in order for their owner and as nothing for any other |
| EventMapper.UpdateEntity | backend/src/main/java/reidConnect/backend/mapper/EventMapper.java:33-49 | an update overwrites name, description and date; a resolved venue wins and clears the venue name; the image is kept when none is sent; club, stamp and audiences are untouched |
| EventMapper.ToResponseDto | backend/src/main/java/reidConnect/backend/mapper/EventMapper.java:52-72 | the response carries the event's id, club, venue, audiences in order, and the caller's slot ids |
| EventMapper.ToEntityEchoesRequest | backend/src/main/java/reidConnect/backend/mapper/EventMapper.java:16-31 | a mapped request read back shows the request's fields, the resolved venue, empty audiences and no stamp |
| EventMapper.UpdateEntityIdempotent | backend/src/main/java/reidConnect/backend/mapper/EventMapper.java:33-49 | applying the same update twice equals applying it once |
| EventMapper.UpdateEntityLastWins | backend/src/main/java/reidConnect/backend/mapper/EventMapper.java:33-49 | a later update that carries an image leaves no trace of an earlier update |
| EventService.FindRecord | backend/src/main/java/reidConnect/backend/service/impl/EventServiceImpl.java:221 | the lookup finds a status exactly when the pair has a record, and that record has the status |
| EventService.SetStatus | backend/src/main/java/reidConnect/backend/service/impl/EventServiceImpl.java:240-244 | the pair's record gets the new status and every other row is kept in place |
| EventService.DeleteRecord | backend/src/main/java/reidConnect/backend/service/impl/EventServiceImpl.java:254 | the pair has no record afterwards, and exactly the other rows remain |
| EventService.MarkAttendance | backend/src/main/java/reidConnect/backend/service/impl/EventServiceImpl.java:213-231 | event, then user, must exist and the pair must have no record; success appends exactly that record |
| EventService.UpdateAttendanceStatus | backend/src/main/java/reidConnect/backend/service/impl/EventServiceImpl.java:233-245 | event, then user, then the record must exist; success changes only that record's status |
| EventService.RemoveAttendance | backend/src/main/java/reidConnect/backend/service/impl/EventServiceImpl.java:247-255 | succeeds for any stored event and user, even without a record, and leaves the pair without one |
| EventService.CountAttendance | backend/src/main/java/reidConnect/backend/service/impl/EventServiceImpl.java:256-268 | counting fails exactly for an unknown event |
| EventService.GetEventAttendanceCounts | backend/src/main/java/reidConnect/backend/service/impl/EventServiceImpl.java:296-307 | the two counts agree with the per-status count operations, and fail only for an unknown event |
| EventService.GetUserEventAttendanceStatus | backend/src/main/java/reidConnect/backend/service/impl/EventServiceImpl.java:309-329 | "attending" holds exactly when the pair has a record, and the status is shown exactly then and is that record's |
| EventService.DoAllSlotsExist | backend/src/main/java/reidConnect/backend/service/impl/EventServiceImpl.java:188-192 | the check passes exactly when every listed slot is stored and none is listed twice |
| EventService.ResolveVenue | backend/src/main/java/reidConnect/backend/service/impl/EventServiceImpl.java:68-70 | a venue id resolves exactly when it names a stored venue; otherwise the event gets no venue |
| EventService.CreateEvent | backend/src/main/java/reidConnect/backend/service/impl/EventServiceImpl.java:63-101 | creation fails exactly when the club is unknown; success stores one new event with the request's name, description, date, image, venue name and audiences, the resolved venue and the creation stamp, leaves every other event and table unchanged, and answers with that event and the requested slot ids |
| EventService.UpdateEvent | backend/src/main/java/reidConnect/backend/service/impl/EventServiceImpl.java:103-139 | update fails exactly for an unknown event; success keeps club and stamp, takes the request's name, description, date and audiences, the resolved venue (clearing the venue name when one resolves), the new image only when one is given, and leaves every other event and table unchanged |
| EventService.DeleteEvent | backend/src/main/java/reidConnect/backend/service/impl/EventServiceImpl.java:142-151 | deletion fails exactly for an unknown event; success removes it and exactly its slot links, adds no link, and leaves clubs, venues, users, slots, attendance and featured entries unchanged |
| EventService.AnyIn | backend/src/main/java/reidConnect/backend/service/impl/EventServiceImpl.java:199-200 | `anyMatch(contains)` holds exactly when some element is among the wanted ones |
| EventService.GetEventsByFacultiesAndYears | backend/src/main/java/reidConnect/backend/service/impl/EventServiceImpl.java:194-211 | an event is returned exactly when one of its faculties and one of its years are asked for, with its linked slot ids |
| EventService.GetEventById | backend/src/main/java/reidConnect/backend/service/impl/EventServiceImpl.java:153-164 | fails exactly for an unknown event; otherwise shows its club and its linked slot ids in link order |
| EventService.GetAllEvents | backend/src/main/java/reidConnect/backend/service/impl/EventServiceImpl.java:175-186 | lists every stored event, each as the single-event read shows it |
| EventService.FeatureEvent | backend/src/main/java/reidConnect/backend/service/impl/EventServiceImpl.java:332-347 | fails for an unknown or already featured event; success records only the feature time |
| EventService.UnfeatureEvent | backend/src/main/java/reidConnect/backend/service/impl/EventServiceImpl.java:349-355 | fails exactly when the event is not featured; success removes only its feature entry |
| EventService.CountStatusIsAttendees | backend/src/main/java/reidConnect/backend/service/impl/EventServiceImpl.java:256-268 | with one record per (event, user) pair, the status count is the number of distinct users holding that status for the event |
| EventService.CountAttendanceIsAttendees | backend/src/main/java/reidConnect/backend/service/impl/EventServiceImpl.java:256-268 | in a consistent database the going and interested counts of a stored event are those numbers of distinct users |
| EventService.MarkAttendanceCounts | backend/src/main/java/reidConnect/backend/service/impl/EventServiceImpl.java:213-231 | a mark raises its own event-and-status count by one and no other count |
| EventService.MarkTwiceFails | backend/src/main/java/reidConnect/backend/service/impl/EventServiceImpl.java:221-223 | a second mark of the same pair is refused as existing |
| EventService.RemoveAttendanceIdempotent | backend/src/main/java/reidConnect/backend/service/impl/EventServiceImpl.java:247-255 | removing twice equals removing once |
| EventService.MarkThenRemoveRestores | backend/src/main/java/reidConnect/backend/service/impl/EventServiceImpl.java:213-255 | mark followed by remove gives back the original database |
| EventService.UpdateAfterRemoveFails | backend/src/main/java/reidConnect/backend/service/impl/EventServiceImpl.java:240-242 | after a removal, an update of the pair fails as not found |
| EventService.SetStatusCounts | backend/src/main/java/reidConnect/backend/service/impl/EventServiceImpl.java:240-244 | with unique pairs, a status change moves exactly one record from the old status's count to the new one's |
| EventService.UpdateAttendanceCounts | backend/src/main/java/reidConnect/backend/service/impl/EventServiceImpl.java:233-245 | a successful update moves the pair's one record between its old and new status counts |
| EventService.AttendancePreservesConsistent | backend/src/main/java/reidConnect/backend/service/impl/EventServiceImpl.java:213-255 | mark, update and remove keep at most one record per (event, user) pair |
| EventService.DeleteKeepsUnique | backend/src/main/java/reidConnect/backend/service/impl/EventServiceImpl.java:254 | deleting a pair's rows keeps the pairs unique |
| EventService.UpdateEventReplacesAssociations | backend/src/main/java/reidConnect/backend/service/impl/EventServiceImpl.java:116-133 | update sets audiences to the request's and slots to the stored ones requested, and leaves other events and their links unchanged |
| EventService.CreateEventAssociations | backend/src/main/java/reidConnect/backend/service/impl/EventServiceImpl.java:71-95 | a created event has the request's audiences, the creation stamp, and links to exactly the stored slots requested, and other events' links are unchanged |
| EventService.EventWritesPreserveConsistent | backend/src/main/java/reidConnect/backend/service/impl/EventServiceImpl.java:63-151 | create, update and delete keep slot links between stored events and stored slots |
| EventService.RepeatedSlotRejected | backend/src/main/java/reidConnect/backend/service/impl/EventServiceImpl.java:188-192 | a list naming a slot twice fails the check even when that slot exists |
| EventService.AudienceQueryRestrictsAll | backend/src/main/java/reidConnect/backend/service/impl/EventServiceImpl.java:175-211 | the audience query equals the full listing restricted to the overlapping events |
| EventService.CreateThenGet | backend/src/main/java/reidConnect/backend/service/impl/EventServiceImpl.java:63-164 | a created event reads back with the stored slots requested, while creation echoes the request's ids |
| EventService.UnknownVenueDropped | backend/src/main/java/reidConnect/backend/service/impl/EventServiceImpl.java:68-70 | an unknown venue id leaves a created or updated event without a venue and with the request's venue name |
| EventService.EmptyQueryMatchesNothing | backend/src/main/java/reidConnect/backend/service/impl/EventServiceImpl.java:194-211 | an empty faculty or year list returns no events |
| EventService.FeatureRoundTrip | backend/src/main/java/reidConnect/backend/service/impl/EventServiceImpl.java:332-355 | feature then unfeature restores the database, and featuring twice fails |
| SlotInitializer.StandardSlots | backend/src/main/java/reidConnect/backend/config/SlotInitializer.java:17-27 | the candidates are the 22 back-to-back half-hour slots from 08:00 to 19:00 |
| SlotInitializer.AddMissing | backend/src/main/java/reidConnect/backend/config/SlotInitializer.java:20-27 | the run only appends, so the table as stored stays a prefix |
| SlotInitializer.AddMissingContents | backend/src/main/java/reidConnect/backend/config/SlotInitializer.java:20-27 | after the run the table holds exactly what was stored plus every candidate |
| SlotInitializer.LoadSlots | backend/src/main/java/reidConnect/backend/config/SlotInitializer.java:15-29 | the loop's table equals the reference run: every standard slot is present, stored rows keep their place, nothing else is added |
| SlotInitializer.AddMissingSnoc | backend/src/main/java/reidConnect/backend/config/SlotInitializer.java:22-25 | one more candidate is saved exactly when no equal slot exists yet |
| SlotInitializer.RunCoversStandard | backend/src/main/java/reidConnect/backend/config/SlotInitializer.java:20-27 | after the run every standard slot exists and nothing but them was added |
| SlotInitializer.AddMissingPresent | backend/src/main/java/reidConnect/backend/config/SlotInitializer.java:22-23 | candidates that all exist add nothing |
| SlotInitializer.LoadSlotsIdempotent | backend/src/main/java/reidConnect/backend/config/SlotInitializer.java:15-29 | a second start-up saves nothing |
| SlotInitializer.AddMissingKeepsUnique | backend/src/main/java/reidConnect/backend/config/SlotInitializer.java:22-25 | a table without repeated slots stays without them |
| SlotInitializer.AddMissingDistinct | backend/src/main/java/reidConnect/backend/config/SlotInitializer.java:20-27 | distinct candidates none of which exists are all appended in order |
| SlotInitializer.FreshTableGetsStandardSlots | backend/src/main/java/reidConnect/backend/config/SlotInitializer.java:15-29 | on an empty table the run saves exactly the standard slots, in order |
| VenueBookingService.FormatTime | backend/src/main/java/reidConnect/backend/service/impl/VenueBookingServiceImpl.java:68-70 | a time prints as five characters `HH:mm` |
| VenueBookingService.SlotLabel | backend/src/main/java/reidConnect/backend/service/impl/VenueBookingServiceImpl.java:68-70 | a slot prints as start, " - ", end |
| VenueBookingService.FormatTimeRoundTrip | backend/src/main/java/reidConnect/backend/service/impl/VenueBookingServiceImpl.java:68-70 | every time of day reads back from its printed form |
| VenueBookingService.SlotLabelRoundTrip | backend/src/main/java/reidConnect/backend/service/impl/VenueBookingServiceImpl.java:68-70 | every slot reads back from its label |
| VenueBookingService.SlotLabelInjective | backend/src/main/java/reidConnect/backend/service/impl/VenueBookingServiceImpl.java:68-70 | two slots have the same label exactly when they are the same slot |
| VenueBookingService.CreateVenueBooking | backend/src/main/java/reidConnect/backend/service/impl/VenueBookingServiceImpl.java:27-53 | club, then venue, must exist; success adds only a pending booking with the request's fields, signed at the given time |
| VenueBookingService.GetAllBookings | backend/src/main/java/reidConnect/backend/service/impl/VenueBookingServiceImpl.java:57-74 | each booking shows its club's and venue's names, its status, its requested date, reason and three applicant fields, and one label per linked slot that reads back as that slot |
| VenueBookingService.CreateBookingSlots | backend/src/main/java/reidConnect/backend/service/impl/VenueBookingServiceImpl.java:27-53 | a new booking links exactly the stored slots requested, once each, and is listed as pending |
| Authentication.DecimalRoundTrip | backend/src/main/java/reidConnect/backend/service/AuthenticationService.java:163 | `String.valueOf` of a number reads back as that number |
| Authentication.GenerateCode | backend/src/main/java/reidConnect/backend/service/AuthenticationService.java:160-164 | a code is six digits without a leading zero whose value is the draw plus 100000 |
| Authentication.GenerateCodeInjective | backend/src/main/java/reidConnect/backend/service/AuthenticationService.java:160-164 | different draws give different codes |
| Authentication.Signup | backend/src/main/java/reidConnect/backend/service/AuthenticationService.java:50-94 | a new address gets a disabled user holding the code, valid 15 minutes, plus its student row; a taken address is refused |
| Authentication.Authenticate | backend/src/main/java/reidConnect/backend/service/AuthenticationService.java:96-110 | login fails for an unknown or unverified account before credentials are looked at, and otherwise succeeds exactly when they are right |
| Authentication.Verify | backend/src/main/java/reidConnect/backend/service/AuthenticationService.java:112-130 | verification succeeds exactly for the stored code on or before its expiry, then enables the account and clears code and expiry |
| Authentication.Resend | backend/src/main/java/reidConnect/backend/service/AuthenticationService.java:132-146 | an unverified account gets the new code valid one hour; a verified one is refused |
| Authentication.WritesPreserveWellFormed | backend/src/main/java/reidConnect/backend/service/AuthenticationService.java:50-146 | every account stays pending-with-code, verified-without-code, or a club account without a code |
| Authentication.SignupThenVerify | backend/src/main/java/reidConnect/backend/service/AuthenticationService.java:50-130 | the sign-up code verifies within its 15 minutes, and only after that can the account log in |
| Authentication.SignupCodeExpires | backend/src/main/java/reidConnect/backend/service/AuthenticationService.java:114-118 | after 15 minutes even the right code is refused as expired |
| Authentication.VerifyOnce | backend/src/main/java/reidConnect/backend/service/AuthenticationService.java:112-146 | a verified account cannot be verified again or sent another code |
| Authentication.VerifyWrongCode | backend/src/main/java/reidConnect/backend/service/AuthenticationService.java:119-126 | a wrong code on an unexpired account is refused as invalid |
| Authentication.ResendThenVerify | backend/src/main/java/reidConnect/backend/service/AuthenticationService.java:132-146 | after a re-send, exactly the new code verifies within the hour |
| PostService.CreatePost | backend/src/main/java/reidConnect/backend/service/impl/PostServiceImpl.java:27-38 | fails exactly for an unknown club; success adds the post and only appends media |
| PostService.LikePost | backend/src/main/java/reidConnect/backend/service/impl/PostServiceImpl.java:76-92 | post, then user, must exist and the pair must not have liked; success adds exactly that like |
| PostService.UnlikePost | backend/src/main/java/reidConnect/backend/service/impl/PostServiceImpl.java:94-105 | post, then user, then the like must exist; success removes exactly that like |
| PostService.LikeCount | backend/src/main/java/reidConnect/backend/service/impl/PostServiceImpl.java:107-112 | the count is the number of likes on the post, and fails for an unknown post |
| PostService.GetPostById | backend/src/main/java/reidConnect/backend/service/impl/PostServiceImpl.java:115-124 | fails exactly for an unknown post; otherwise shows its fields and exactly its media paths |
| PostService.GetAllPosts | backend/src/main/java/reidConnect/backend/service/impl/PostServiceImpl.java:40-49 | lists every post, each as the single-post read shows it |
| PostService.GetPostsByClubId | backend/src/main/java/reidConnect/backend/service/impl/PostServiceImpl.java:51-62 | lists exactly the club's posts, each as the single-post read shows it |
| PostService.UpdatePost | backend/src/main/java/reidConnect/backend/service/impl/PostServiceImpl.java:126-141 | fails exactly for an unknown post; success changes only its description and media |
| PostService.DeletePost | backend/src/main/java/reidConnect/backend/service/impl/PostServiceImpl.java:143-151 | the post and exactly its media rows are gone; likes are untouched |
| PostService.CreatePostMedia | backend/src/main/java/reidConnect/backend/service/impl/PostServiceImpl.java:27-38 | a created post reads back with exactly the given paths in order, and other posts' media is unchanged |
| PostService.UpdatePostMedia | backend/src/main/java/reidConnect/backend/service/impl/PostServiceImpl.java:126-141 | an updated post reads back with exactly the new paths, and other posts' media is unchanged |
| PostService.DeletePostMedia | backend/src/main/java/reidConnect/backend/service/impl/PostServiceImpl.java:143-151 | a deleted post has no media and cannot be read, and other posts' media is unchanged |
| PostService.LikeCounts | backend/src/main/java/reidConnect/backend/service/impl/PostServiceImpl.java:76-112 | a like adds one to its post's count only; unlike undoes it; liking again fails |
| PostService.UnlikeCounts | backend/src/main/java/reidConnect/backend/service/impl/PostServiceImpl.java:94-112 | an unlike takes one off the count, and unliking again fails |
| PostService.WritesPreserveConsistent | backend/src/main/java/reidConnect/backend/service/impl/PostServiceImpl.java:27-151 | the writes keep media and likes attached to stored rows; deletion does so for an unliked post |
| PostService.CreatedPostListed | backend/src/main/java/reidConnect/backend/service/impl/PostServiceImpl.java:27-62 | a created post appears in its club's listing with its paths, and each club listing is part of the full listing |
| CommentService.InsertTree | backend/src/main/java/reidConnect/backend/service/impl/CommentServiceImpl.java:38-42 | a reply is attached exactly when its parent exists in the tree, adding exactly its ids and its count |
| CommentService.InsertForestRows | backend/src/main/java/reidConnect/backend/service/impl/CommentServiceImpl.java:38-42 | attaching a reply adds exactly the reply's rows to the comment table and removes none |
| CommentService.AddComment | backend/src/main/java/reidConnect/backend/service/impl/CommentServiceImpl.java:26-45 | post, then user, then any parent must exist; success adds exactly one row to the comment table, counted for its post only |
| CommentService.TopLevel | backend/src/main/java/reidConnect/backend/service/impl/CommentServiceImpl.java:52 | the post's parentless comments, never more than all its comments |
| CommentService.MapToDto | backend/src/main/java/reidConnect/backend/service/impl/CommentServiceImpl.java:61-72 | the response mirrors the comment and, recursively, its replies in order |
| CommentService.GetCommentsForPost | backend/src/main/java/reidConnect/backend/service/impl/CommentServiceImpl.java:48-54 | fails exactly for an unknown post; otherwise mirrors each top-level comment in order |
| CommentService.CountCommentsForPost | backend/src/main/java/reidConnect/backend/service/impl/CommentServiceImpl.java:57-59 | the count is the number of comment rows on the post at any depth, at least the top-level comments |
| CommentService.CountCoversTopLevel | backend/src/main/java/reidConnect/backend/service/impl/CommentServiceImpl.java:48-59 | the count is never below the number of comments the list returns |
| CommentService.ReplyCountedBeyondTopLevel | backend/src/main/java/reidConnect/backend/service/impl/CommentServiceImpl.java:48-59 | a reply on the post makes the count exceed the top-level list's length |
| CommentService.AddCommentEffect | backend/src/main/java/reidConnect/backend/service/impl/CommentServiceImpl.java:26-59 | adding raises the post's count by one; a top-level comment joins the end of the list as the model orders it (see Left out); a reply leaves the list's length |
| CommentService.CountForestRows | backend/src/main/java/reidConnect/backend/service/impl/CommentServiceImpl.java:57-59 | the recursive count over the reply trees equals the row count of the comment table, and the ids are the table's ids |
| CommentService.UnknownPostCountsZero | backend/src/main/java/reidConnect/backend/service/impl/CommentServiceImpl.java:57-59 | in a consistent database a post that is not stored has no comments |
| CommentService.AddCommentPreservesConsistent | backend/src/main/java/reidConnect/backend/service/impl/CommentServiceImpl.java:26-45 | adding keeps every comment on a stored post by a stored user and keeps ids unique |
| SubscriptionService.DeletePair | backend/src/main/java/reidConnect/backend/service/impl/SubscriptionServiceImpl.java:50 | exactly the pair's rows go |
| SubscriptionService.Subscribe | backend/src/main/java/reidConnect/backend/service/impl/SubscriptionServiceImpl.java:26-40 | user, then club, must exist; afterwards the pair is subscribed, nothing else changes, and an existing pair is left alone |
| SubscriptionService.Unsubscribe | backend/src/main/java/reidConnect/backend/service/impl/SubscriptionServiceImpl.java:43-51 | user, then club, must exist; afterwards exactly the pair's rows are gone, and an absent pair is no error |
| SubscriptionService.GetSubscribedClubs | backend/src/main/java/reidConnect/backend/service/impl/SubscriptionServiceImpl.java:54-63 | fails exactly for an unknown user; otherwise lists exactly the user's clubs (`StudentServiceImpl.getSubscribedClubs` is the same query and shares this definition) |
| SubscriptionService.CountSubscriptionsForClub | backend/src/main/java/reidConnect/backend/service/impl/SubscriptionServiceImpl.java:66-71 | fails exactly for an unknown club |
| SubscriptionService.CountIsSubscribers | backend/src/main/java/reidConnect/backend/service/impl/SubscriptionServiceImpl.java:70 | with one row per pair, the row count is the number of distinct subscribers |
| SubscriptionService.DeletePairKeepsUnique | backend/src/main/java/reidConnect/backend/service/impl/SubscriptionServiceImpl.java:50 | deleting a pair keeps the rows unique |
| SubscriptionService.CountDistinctSubscribers | backend/src/main/java/reidConnect/backend/service/impl/SubscriptionServiceImpl.java:66-71 | on a consistent table the club's count is its number of distinct subscribers |
| SubscriptionService.WritesPreserveConsistent | backend/src/main/java/reidConnect/backend/service/impl/SubscriptionServiceImpl.java:26-51 | subscribe and unsubscribe keep one row per pair |
| SubscriptionService.SubscribeIdempotent | backend/src/main/java/reidConnect/backend/service/impl/SubscriptionServiceImpl.java:33-39 | subscribing twice equals subscribing once |
| SubscriptionService.SubscribeCount | backend/src/main/java/reidConnect/backend/service/impl/SubscriptionServiceImpl.java:26-40 | the club gains one subscriber exactly when the pair was new, and no other club changes |
| SubscriptionService.UnsubscribeRemoves | backend/src/main/java/reidConnect/backend/service/impl/SubscriptionServiceImpl.java:43-63 | afterwards the club is not among the user's clubs and loses exactly that subscriber |
| SubscriptionService.SubscribeThenUnsubscribe | backend/src/main/java/reidConnect/backend/service/impl/SubscriptionServiceImpl.java:26-51 | subscribing to a new club and unsubscribing restores the table |
| SubscriptionService.DeletePairAbsent | backend/src/main/java/reidConnect/backend/service/impl/SubscriptionServiceImpl.java:50 | deleting an absent pair changes nothing |
| StudentService.ParseStatus | backend/src/main/java/reidConnect/backend/service/impl/StudentServiceImpl.java:89 | only the exact names GOING and INTERESTED parse; anything else is an error |
| StudentService.ParseStatusName | backend/src/main/java/reidConnect/backend/service/impl/StudentServiceImpl.java:89 | every status parses back from its name |
| StudentService.GetStudentById | backend/src/main/java/reidConnect/backend/service/impl/StudentServiceImpl.java:42-47 | fails exactly when no row has the id; otherwise returns a stored student with that id |
| StudentService.GetStudentByUserId | backend/src/main/java/reidConnect/backend/service/impl/StudentServiceImpl.java:49-54 | fails exactly when no row has the user; otherwise returns a stored student of that user |
| StudentService.GetAllStudents | backend/src/main/java/reidConnect/backend/service/impl/StudentServiceImpl.java:56-59 | one response per student row, in the order read, carrying its id, user, name, academic year, contact number and picture |
| StudentService.LookupsInListing | backend/src/main/java/reidConnect/backend/service/impl/StudentServiceImpl.java:42-59 | whatever either lookup returns appears in the full listing |
| StudentService.GetUpcomingEvents | backend/src/main/java/reidConnect/backend/service/impl/StudentServiceImpl.java:87-98 | unknown user, then bad status, fail; otherwise exactly the events of the user's rows with that status dated today or later, one per such row |
| StudentService.GetPastEvents | backend/src/main/java/reidConnect/backend/service/impl/StudentServiceImpl.java:101-109 | exactly the events of the user's rows dated before today, any status |
| StudentService.CountPastEvents | backend/src/main/java/reidConnect/backend/service/impl/StudentServiceImpl.java:112-120 | fails exactly for a bad status; otherwise the number of the user's rows with that status dated before today |
| StudentService.CountSubscribedClubs | backend/src/main/java/reidConnect/backend/service/impl/StudentServiceImpl.java:123-126 | fails exactly for an unknown user |
| StudentService.UpcomingIncludesToday | backend/src/main/java/reidConnect/backend/service/impl/StudentServiceImpl.java:94 | "after yesterday" means "today or later" |
| StudentService.UpcomingPastPartition | backend/src/main/java/reidConnect/backend/service/impl/StudentServiceImpl.java:87-120 | for a stored user and a valid status, the upcoming list's length plus the past count is the number of the user's rows with that status |
| StudentService.CountMatchesList | backend/src/main/java/reidConnect/backend/service/impl/StudentServiceImpl.java:123-134 | the subscribed-club count is the length of the subscribed-club list |
| SignupForm.NamePatternMeaning | frontend/app/Signup.tsx:51 | the name pattern accepts exactly 2 to 30 ASCII letters and spaces |
| SignupForm.EmailPatternMeaning | frontend/app/Signup.tsx:56 | the address pattern accepts exactly four digits, two lower-case letters, three digits, then the student domain |
| SignupForm.PasswordPatternMeaning | frontend/app/Signup.tsx:57 | the password pattern accepts exactly eight or more characters (not UTF-16 code units, see Left out) without line terminators, with a lower-case letter, an upper-case letter, a digit and a special character |
| SignupForm.ContactPatternMeaning | frontend/app/Signup.tsx:66 | the contact pattern accepts exactly ten ASCII digits |
| SignupForm.ValidateStep1 | frontend/app/Signup.tsx:50-53 | step one errs exactly for an invalid name |
| SignupForm.ValidateStep2 | frontend/app/Signup.tsx:55-63 | step two passes exactly with a valid address, a strong password and a matching confirmation |
| SignupForm.ValidateStep3 | frontend/app/Signup.tsx:65-68 | step three errs exactly for an invalid contact number |
| SignupForm.EmailExamples | frontend/app/Signup.tsx:56 | example: an index-number address passes; the staff domain and upper-case letters do not |
| SignupForm.PasswordExamples | frontend/app/Signup.tsx:57 | example: an underscore counts as special; letters and digits alone never pass |
| UserProfile.DomainPatternMeaning | frontend-web/src/components/academic/UserProfile.jsx:47 | the part after `@` matches exactly when it has no space or `@` and a dot with text on both sides |
| UserProfile.AddressPatternMeaning | frontend-web/src/components/academic/UserProfile.jsx:47 | the address pattern accepts exactly `local@domain.tld` without spaces or extra `@` |
| UserProfile.ValidateEditForm | frontend-web/src/components/academic/UserProfile.jsx:38-57 | a blank name or phone is an error; an address errs as missing when blank and as invalid when misshapen; nothing else is checked |
| UserProfile.ValidatePasswordForm | frontend-web/src/components/academic/UserProfile.jsx:59-80 | each empty field is missing; a new password of fewer than 8 UTF-16 code units is too short; a differing confirmation is a mismatch |
| UserProfile.HandleEditSubmit | frontend-web/src/components/academic/UserProfile.jsx:82-89 | a valid form merges the edits into the user and closes with no errors; otherwise only the errors change |
| UserProfile.HandlePasswordSubmit | frontend-web/src/components/academic/UserProfile.jsx:91-99 | a valid form closes and clears the fields and errors; otherwise only the errors change |
| UserProfile.AddressNotBlank | frontend-web/src/components/academic/UserProfile.jsx:45-48 | an address of the right shape is never blank |
| UserProfile.EditFormValidIff | frontend-web/src/components/academic/UserProfile.jsx:38-57 | the edit form passes exactly with a non-blank name and phone and a well-shaped address |
| UserProfile.PasswordFormValidIff | frontend-web/src/components/academic/UserProfile.jsx:59-80 | the password form passes exactly with a current password, a new one of 8 or more UTF-16 code units, and a matching confirmation |
| UserProfile.AstralCharacterCountsTwice | frontend-web/src/components/academic/UserProfile.jsx:69-71 | seven characters including an emoji are eight code units and pass the length rule |
| Strings.Utf16Length | frontend-web/src/components/academic/UserProfile.jsx:68 | `length` counts one or two UTF-16 code units per character, so between the number of characters and twice that |
| Strings.Utf16LengthBmp | frontend-web/src/components/academic/UserProfile.jsx:68 | `length` equals the number of characters exactly when no character lies outside the Basic Multilingual Plane |
| UserProfile.EditSubmitIdempotent | frontend-web/src/components/academic/UserProfile.jsx:82-89 | resubmitting valid edits changes the user no further |
| UserProfile.PasswordSubmitClears | frontend-web/src/components/academic/UserProfile.jsx:91-99 | after a change the cleared form is refused with all three "required" errors |
| UserProfile.PaddedAddressRefused | frontend-web/src/components/academic/UserProfile.jsx:45-48 | an address with leading white space is refused as invalid, not as missing |
| LecturerManagement.DisplayEmail | frontend-web/src/components/academic/LecturerManagement.jsx:170 | the field shows the stored address without its first copy of the domain |
| LecturerManagement.ChangeEmail | frontend-web/src/components/academic/LecturerManagement.jsx:171-174 | typing changes only the address, which ends with the domain and starts with the typed text minus its first copy of it |
| LecturerManagement.FirstSuffixAfter | frontend-web/src/components/academic/LecturerManagement.jsx:170-173 | in `u + domain + w`, with no domain inside `u`, the first copy starts right after `u` |
| LecturerManagement.RetypingDisplayKeepsEmail | frontend-web/src/components/academic/LecturerManagement.jsx:170-174 | re-entering the shown text keeps a stored address whose user part has no domain |
| LecturerManagement.EditIsStable | frontend-web/src/components/academic/LecturerManagement.jsx:170-174 | after an edit keeping one copy of the domain, the field shows the typed text and retyping it changes nothing |
| LecturerManagement.DoubleSuffixDrifts | frontend-web/src/components/academic/LecturerManagement.jsx:170-174 | typing the domain twice stores it twice, and retyping the shown text drops one copy |
| LecturerManagement.FilteredLecturers | frontend-web/src/components/academic/LecturerManagement.jsx:86-91 | shows exactly the lecturers whose name, address, code or degree contains the query, ignoring case |
| LecturerManagement.EmptyQueryListsAll | frontend-web/src/components/academic/LecturerManagement.jsx:86-91 | an empty query lists every lecturer in order |
| LecturerManagement.SearchIgnoresCase | frontend-web/src/components/academic/LecturerManagement.jsx:86-91 | lower-casing the query does not change the list |
| LecturerManagement.HandleAddLecturer | frontend-web/src/components/academic/LecturerManagement.jsx:44-57 | opens a blank UCSC lecturer form with no id remembered |
| LecturerManagement.HandleEditLecturer | frontend-web/src/components/academic/LecturerManagement.jsx:58-62 | opens the form on the lecturer and remembers its id |
| LecturerManagement.HandleSubmit | frontend-web/src/components/academic/LecturerManagement.jsx:69-79 | sends the form as an update to the remembered id when it is truthy, otherwise as a create; the form closes and forgets the id only when the request succeeds, and a rejected request leaves the screen unchanged |
| LecturerManagement.RejectedSubmitRetries | frontend-web/src/components/academic/LecturerManagement.jsx:69-79 | after a rejection, resubmitting sends the same request, and a success then closes the form as a first success would |
| LecturerManagement.HandleCancel | frontend-web/src/components/academic/LecturerManagement.jsx:81-84 | closes the form and forgets the id |
| LecturerManagement.EditThenSubmitUpdates | frontend-web/src/components/academic/LecturerManagement.jsx:58-79 | editing a lecturer with id n > 0 and submitting updates n with that lecturer |
| LecturerManagement.AddThenSubmitCreates | frontend-web/src/components/academic/LecturerManagement.jsx:44-79 | after "add", submitting creates a blank lecturer, whatever was being edited |
| LecturerManagement.BlankFormUsername | frontend-web/src/components/academic/LecturerManagement.jsx:170-174 | typing a username into the blank form gives the staff address, and the field shows the username |
| EventSchedule.PrevMonth | frontend-web/src/components/academic/EventSchedule.jsx:35-42 | "previous" moves exactly one month back, across years |
| EventSchedule.NextMonth | frontend-web/src/components/academic/EventSchedule.jsx:44-51 | "next" moves exactly one month forward, across years |
| EventSchedule.NavigationRoundTrip | frontend-web/src/components/academic/EventSchedule.jsx:35-51 | next undoes previous and previous undoes next |
| EventSchedule.LabelsNameTargets | frontend-web/src/components/academic/EventSchedule.jsx:95-99 | each button is labelled with the month it moves to |
| EventSchedule.DaysInMonth | frontend-web/src/components/academic/EventSchedule.jsx:54 | a month has 28 to 31 days |
| EventSchedule.Blanks | frontend-web/src/components/academic/EventSchedule.jsx:55-56 | the blank cells are the first's weekday counted from Monday |
| EventSchedule.GenerateCalendarDays | frontend-web/src/components/academic/EventSchedule.jsx:53-60 | the grid is the blank cells followed by the days 1 to the month's length |
| EventSchedule.YearLength | frontend-web/src/components/academic/EventSchedule.jsx:54 | a year has 365 days, or 366 in a leap year |
| EventSchedule.GridsContinue | frontend-web/src/components/academic/EventSchedule.jsx:53-60 | the next month's blanks continue the week where this month ended |
| EventSchedule.OpeningMonth | frontend-web/src/components/academic/EventSchedule.jsx:8-9 | example: the page opens on July 2025: one blank, then 31 days |
| ClubDetail.SearchEffect | frontend-web/src/components/union/ClubDetail.jsx:71-99 | the active tab lists exactly its matches for the lowered query, or everything for a blank query, and returns to page one; the other tab is untouched |
| ClubDetail.ChangeQuery | frontend-web/src/components/union/ClubDetail.jsx:140-142 | the search runs exactly when the query changed |
| ClubDetail.ChangeTab | frontend-web/src/components/union/ClubDetail.jsx:135-138 | switching tab clears the query, and the search runs when tab or query changed |
| ClubDetail.CurrentItems | frontend-web/src/components/union/ClubDetail.jsx:103-113 | a page shows at most six items, those at the page's positions |
| ClubDetail.TotalPages | frontend-web/src/components/union/ClubDetail.jsx:115-121 | the page count is the least that holds every item |
| ClubDetail.RenderPagination | frontend-web/src/components/union/ClubDetail.jsx:144-195 | no controls for one page; otherwise up to five consecutive numbers including the current page, with previous and next exactly when they lead somewhere |
| ClubDetail.ItemOnItsPage | frontend-web/src/components/union/ClubDetail.jsx:103-121 | every item is on the page its index gives, at the position its index gives |
| ClubDetail.PageSizes | frontend-web/src/components/union/ClubDetail.jsx:103-121 | pages before the last are full and those after it are empty |
| ClubDetail.WindowFull | frontend-web/src/components/union/ClubDetail.jsx:150-153 | away from the last two pages, five numbers are shown |
| ClubDetail.ChangesResetPage | frontend-web/src/components/union/ClubDetail.jsx:71-138 | changing query or tab puts the active tab on page one and keeps the other tab's page |
| ClubDetail.BlankQueryRestores | frontend-web/src/components/union/ClubDetail.jsx:75-76 | a query of spaces lists everything, like an empty one |
| ClubGallery.HandleSelectClub | frontend-web/src/components/union/ClubGallery.jsx:38-47 | toggles exactly that club, and the flag is set when as many are selected as there are clubs |
| ClubGallery.HandleSelectAll | frontend-web/src/components/union/ClubGallery.jsx:29-36 | flips the flag and clears the selection or selects every club |
| ClubGallery.ToggleTwice | frontend-web/src/components/union/ClubGallery.jsx:38-47 | toggling a club twice restores the selection |
| ClubGallery.FlagMeansAllSelected | frontend-web/src/components/union/ClubGallery.jsx:46 | for distinct clubs, the size test means every club is selected |
| ClubGallery.HandlersPreserveConsistent | frontend-web/src/components/union/ClubGallery.jsx:29-47 | with at least one club, both handlers keep the flag meaning "all selected" |

## Followed the code

Where the project's own description and the code disagree, the model
follows the code:

- `createEvent` and `updateEvent` turn an unknown venue id into no venue
  instead of failing at the service level. What the database then does
  with an event that has no venue is under "Left out".
- `createEvent` does not check that the slot ids exist. Unknown ids are
  dropped by `findAllById`, while the response echoes the request.
- A sign-up code expires after 15 minutes; a re-sent one after an hour.
- `findAllById` returns each stored row once, so a repeated slot id is
  linked once.
- The profile form tests the address pattern on the untrimmed text
  (`UserProfile.PaddedAddressRefused`).
- The lecturer form treats a remembered id of 0 as no id, since
  JavaScript's truth test is false for 0.
- The lecturer e-mail field removes only the first copy of the domain
  (`LecturerManagement.DoubleSuffixDrifts`).

## Left out

- Controllers, HTTP status mapping, request binding and file uploads:
  they only route to the services modelled here.
- Password hashing, JWT, Spring Security and sending mail: sending a
  verification mail is left out, and a credential check is an opaque boolean.
- Wall-clock windows: `countEventsInLast28Days`,
  `countRecentEventsByClubId` and `getFeaturedEventsWithinOneMonth`
  (`EventServiceImpl.java` lines 275-291 and 357-372) need a calendar on
  timestamps that the model does not carry.
- `countAllEvents`, `countAllEventsByClubId` and `getEventsByClubId`: the
  last calls a mapper method that the mapper file does not define, and
  sorts by creation time.
- The event lists of `getUpcomingEventsByAttendanceStatus` and
  `getPastEventsByAttendanceStatus` call `EventMapper.mapToEventResponseDto`,
  which the mapper file does not define either
  (`StudentServiceImpl.java` lines 96 and 107). The model returns the
  events' ids.
- `getLatestThreePostsByClubId`, and the newest-first order of
  `getPostsByClubId`: creation stamps are not carried by the post model.
- The order of `getAllEvents`, `getAllPosts`, `getAllBookings` and the
  audience query:
  these are modelled as maps keyed by id.
- The order of `findAllById`: it is an `IN` query, whose rows come back in
  the database's unspecified order. `Repository.FindAllById` returns them
  in the order of first mention in the request, so the slot lists that
  `CreateEventAssociations`, `UpdateEventReplacesAssociations`,
  `CreateThenGet` and `VenueBookingService.CreateBookingSlots` state are
  one admissible order, not the only one.
- The order of every other list read from the database. None of these
  queries has an `ORDER BY` or `@OrderBy`, so the database may return
  them in any order: `findByEventId` (event slots), `findAllByPost_Id`
  (post media), `findByPostAndParentIsNull` (top-level comments),
  `getReplies`, `getBookingSlots`, the event's target years and
  faculties, and `studentRepository.findAll`. The model reads each one
  in insertion order, which is one admissible order. So the positions
  stated by `CommentService.AddCommentEffect` (a new top-level comment
  comes last), `PostService.CreatePostMedia`, `PostService.UpdatePostMedia`,
  `EventService.GetEventById`, `EventService.CreateThenGet`,
  `CommentService.MapToDto`, `CommentService.GetCommentsForPost`,
  `VenueBookingService.GetAllBookings` (label i for link i) and
  `StudentService.GetAllStudents` hold for that order. The contents they
  state hold for any order.
- PasswordPatternMeaning (`SignupForm`) and `SignupForm.ValidateStep2`:
  the regular-expression engine reads characters, where JavaScript reads
  UTF-16 code units. A character outside the Basic Multilingual Plane
  counts once here and twice in JavaScript's `.{8,}`, so a seven-character
  password with one emoji is refused here and accepted by the screen. For
  the other patterns the two readings agree: none of their bounded classes
  admits such a character, and the unbounded ones only ask for one.
- `getCurrentStudentProfile` is `getStudentByUserId` under another name,
  so `StudentService.GetStudentByUserId` models both.
- Likes and comments are keyed by user, as `PostServiceImpl` and
  `CommentServiceImpl` key them (`findByPostAndUser`, `setUser`,
  `getUserId`). The entities disagree: `PostLike.java` and `Comment.java`
  join to a student (`student_id`), and `PostLikeRepository.java` declares
  only `findByPostAndStudent` and `deleteByPostAndStudent`. Likewise
  `PostServiceImpl.java` line 32 calls `PostMapper.mapToPost` with two
  arguments, where the mapper takes three, and the model follows the
  service.
- Column lengths and nullability are not modelled. So writes that the
  database refuses are accepted here: comment content over 500
  characters or null (`Comment.java` lines 28-29), a booking reason over
  1000 characters (`VenueBooking.java` line 38), and a post without a
  title (`Post.java` line 26).
- Foreign-key violations on delete: deleting a post with likes, or an
  event with attendance or a featured entry, fails in the database.
  - `PostService.WritesPreserveConsistent` claims consistency after a
    delete only for an unliked post.
  - `EventService.DeleteEvent` does not model the database refusal.
- EventService.CreateEvent and EventService.UpdateEvent: `Event.java`
  line 40 declares the venue `optional = false`, so saving an event
  without a registered venue fails in the database. That covers an
  unknown venue id and every event that gives only a venue name. The
  model follows the service and the mapper, which build such an event,
  and returns it as stored (`EventService.UnknownVenueDropped`).
- The student response's user name, e-mail and role live in the user
  table, which is not part of this model.
- The post's category field, its link to an event, and creation stamps
  other than the event's.
- `Authentication.Signup`: a duplicate address is refused as the unique
  key of the user table refuses it. `User.java` is not part of this model.
- `Authentication.Verify`: a club account saved without a code or expiry
  makes `verifyUser` dereference null. The model reports that as an
  error, not as an exception.
- `VenueBookingService.GetAllBookings` requires the foreign keys the
  database enforces (`Consistent`), since the source joins through them.
- `ClubGallery.HandlersPreserveConsistent`: with no clubs the select-all
  flag flips while the selection stays empty, so that case is excluded.
- `EventSchedule`: `Date` uses the local time zone, which is left out.
  Only the proleptic Gregorian arithmetic is modelled.
- `Strings.ToLower`: only ASCII letters are lowered. Other characters are
  left unchanged.
- `LecturerManagement.HandleSubmit` takes the outcome of the awaited
  request as a boolean. The request itself, and any error shown for a
  rejection, are not modelled.
- `handleDeleteLecturer`, the `fetch` calls and every effect that loads
  data are I/O and are left out; their results are the lists given to the
  handlers.
- Rendering, styling, routing and the approval chain of bookings: they
  are not logic the services or handlers decide.

=== FILE: authentication.dfy ===
/** `AuthenticationService`: sign-up, login gate, e-mail verification and
    code re-sending over the user table, keyed by e-mail address. Clocks and
    the random draw behind a verification code are parameters; the password
    check and the e-mail send are collaborators outside the model. */
module Authentication {
  import opened Wrappers
  import opened Entities
  import opened Strings

  /** A `users` row: the fields these flows read and write. */
  datatype User = User(
    username: string,
    enabled: bool,
    code: Option<string>,
    expiration: Option<Instant>)

  type Users = map<string, User>

  /** `RegisterUserDto`; the stored profile-picture URL (written by an upload
      the model leaves out) arrives already computed. */
  datatype Registration = Registration(
    username: string,
    email: string,
    contactNumber: string,
    academicYear: Year,
    pictureUrl: Option<string>)

  /** The `student` row that sign-up creates next to the user. */
  datatype NewStudent = NewStudent(
    name: string,
    contactNumber: string,
    academicYear: Year,
    pictureUrl: Option<string>,
    userEmail: string)

  /** Minutes a code stays valid after sign-up and after a re-send. */
  const SignupValidity: nat := 15
  const ResendValidity: nat := 60

  /** `random.nextInt(900000) + 100000`: the draw is below the bound and the
      code is the draw shifted by the base. */
  const CodeBound: nat := 900000
  const CodeBase: nat := 100000

  // ---------------------------------------------------------------------
  // Decimal rendering, `String.valueOf(int)` on a non-negative value

  function DecimalString(n: nat): (r: string)
    ensures |r| >= 1 && AllDigits(r)
    ensures r[0] == '0' <==> n == 0
  {
    if n < 10 then [DigitChar(n)]
    else DecimalString(n / 10) + [DigitChar(n % 10)]
  }

  /** Reading a string of decimal digits back as a number. */
  function DecimalValue(s: string): nat
    requires AllDigits(s)
  {
    if s == [] then 0
    else DecimalValue(s[..|s| - 1]) * 10 + (s[|s| - 1] as int - '0' as int)
  }

  function Pow10(k: nat): (r: nat)
    ensures r >= 1
  {
    if k == 0 then 1 else 10 * Pow10(k - 1)
  }

  /** Rendering then reading a number gives the number back. */
  lemma {:induction false} DecimalRoundTrip(n: nat)
    ensures DecimalValue(DecimalString(n)) == n
  {
    if n >= 10 {
      var s := DecimalString(n);
      assert s[..|s| - 1] == DecimalString(n / 10);
      DecimalRoundTrip(n / 10);
    }
  }

  /** A number with exactly `k` decimal digits renders as `k` characters. */
  lemma {:induction false} DecimalLength(n: nat, k: nat)
    requires 1 <= k && Pow10(k - 1) <= n < Pow10(k)
    ensures |DecimalString(n)| == k
  {
    if k > 1 {
      var p := Pow10(k - 2);
      assert Pow10(k - 1) == 10 * p && Pow10(k) == 100 * p;
      assert n == 10 * (n / 10) + n % 10;
      assert p <= n / 10 < 10 * p;
      DecimalLength(n / 10, k - 1);
    }
  }

  /** `generateVerificationCode`: six decimal digits with no leading zero,
      whose value is the draw shifted into [100000, 999999]. */
  function GenerateCode(draw: nat): (r: string)
    requires draw < CodeBound
    ensures |r| == 6 && AllDigits(r) && r[0] != '0'
    ensures DecimalValue(r) == CodeBase + draw
    ensures 100000 <= DecimalValue(r) <= 999999
  {
    assert Pow10(2) == 100 && Pow10(4) == 10000 && Pow10(5) == 100000 && Pow10(6) == 1000000;
    DecimalLength(CodeBase + draw, 6);
    DecimalRoundTrip(CodeBase + draw);
    DecimalString(CodeBase + draw)
  }

  /** Different draws give different codes. */
  lemma GenerateCodeInjective(d1: nat, d2: nat)
    requires d1 < CodeBound && d2 < CodeBound
    ensures GenerateCode(d1) == GenerateCode(d2) <==> d1 == d2
  {
  }

  // ---------------------------------------------------------------------
  // The flows

  /** A stored account is either waiting for a code (disabled, with a code
      and an expiry), verified (enabled, with neither), or a club account
      registered without a code (disabled, with neither). */
  predicate WellFormed(u: User) {
    (u.code.Some? <==> u.expiration.Some?) && (u.enabled ==> u.code.None?)
  }

  predicate AllWellFormed(users: Users) {
    forall e :: e in users ==> WellFormed(users[e])
  }

  /** `signup`: a disabled user holding the code for `draw` that expires
      `SignupValidity` minutes after `now`, and the student row that points at
      it. An address already taken is refused by the table's unique key. */
  function Signup(users: Users, input: Registration, draw: nat, now: Instant): (r: Result<(Users, NewStudent)>)
    requires draw < CodeBound
    ensures input.email in users <==> r == Err(DuplicateEmail)
    ensures r.Ok? ==>
      var (users', student) := r.value;
      && users'.Keys == users.Keys + {input.email}
      && (forall e :: e in users && e != input.email ==> users'[e] == users[e])
      && users'[input.email] == User(input.username, false, Some(GenerateCode(draw)), Some(now + SignupValidity))
      && student == NewStudent(input.username, input.contactNumber, input.academicYear,
                               input.pictureUrl, input.email)
  {
    if input.email in users then Err(DuplicateEmail)
    else
      var user := User(input.username, false, Some(GenerateCode(draw)), Some(now + SignupValidity));
      Ok((users[input.email := user],
          NewStudent(input.username, input.contactNumber, input.academicYear, input.pictureUrl, input.email)))
  }

  /** `authenticate`: the account must exist and be enabled before the
      credential check (`credentialsOk`, the authentication manager's verdict)
      is consulted at all. */
  function Authenticate(users: Users, email: string, credentialsOk: bool): (r: Result<User>)
    ensures email !in users <==> r == Err(NotFound(UserEntity))
    ensures email in users && !users[email].enabled <==> r == Err(NotVerified)
    ensures r.Ok? <==> email in users && users[email].enabled && credentialsOk
    ensures r.Ok? ==> r.value == users[email]
  {
    if email !in users then Err(NotFound(UserEntity))
    else if !users[email].enabled then Err(NotVerified)
    else if !credentialsOk then Err(BadCredentials)
    else Ok(users[email])
  }

  /** `verifyUser`: checks the expiry (strictly before `now` is expired) and
      then the code; a match enables the account and clears both columns.
      A missing expiry or code is the null dereference of the source. */
  function Verify(users: Users, email: string, code: Option<string>, now: Instant): (r: Result<Users>)
    ensures email !in users ==> r == Err(NotFound(UserEntity))
    ensures r.Ok? <==>
      (&& email in users && users[email].expiration.Some? && now <= users[email].expiration.value
       && users[email].code.Some? && code == users[email].code)
    ensures email in users && users[email].expiration.Some? && users[email].expiration.value < now ==>
      r == Err(CodeExpired)
    ensures r.Ok? ==>
      && r.value.Keys == users.Keys
      && (forall e :: e in users && e != email ==> r.value[e] == users[e])
      && r.value[email].username == users[email].username
      && r.value[email].enabled && r.value[email].code.None? && r.value[email].expiration.None?
  {
    if email !in users then Err(NotFound(UserEntity))
    else
      var u := users[email];
      if u.expiration.None? then Err(NullReference)
      else if u.expiration.value < now then Err(CodeExpired)
      else if u.code.None? then Err(NullReference)
      else if code == u.code then Ok(users[email := u.(enabled := true, code := None, expiration := None)])
      else Err(InvalidCode)
  }

  /** `resendVerificationCode`: a disabled account gets the code for `draw`
      and a fresh expiry `ResendValidity` minutes after `now`. */
  function Resend(users: Users, email: string, draw: nat, now: Instant): (r: Result<Users>)
    requires draw < CodeBound
    ensures email !in users <==> r == Err(NotFound(UserEntity))
    ensures email in users && users[email].enabled <==> r == Err(AlreadyVerified)
    ensures r.Ok? ==>
      && r.value.Keys == users.Keys
      && (forall e :: e in users && e != email ==> r.value[e] == users[e])
      && r.value[email] == users[email].(code := Some(GenerateCode(draw)), expiration := Some(now + ResendValidity))
      && !r.value[email].enabled
  {
    if email !in users then Err(NotFound(UserEntity))
    else if users[email].enabled then Err(AlreadyVerified)
    else Ok(users[email := users[email].(code := Some(GenerateCode(draw)), expiration := Some(now + ResendValidity))])
  }

  // ---------------------------------------------------------------------
  // Properties

  /** The three writes keep every account in one of its three shapes. */
  lemma WritesPreserveWellFormed(users: Users, input: Registration, email: string, code: Option<string>,
                                 draw: nat, now: Instant)
    requires AllWellFormed(users)
    requires draw < CodeBound
    ensures Signup(users, input, draw, now).Ok? ==> AllWellFormed(Signup(users, input, draw, now).value.0)
    ensures Verify(users, email, code, now).Ok? ==> AllWellFormed(Verify(users, email, code, now).value)
    ensures Resend(users, email, draw, now).Ok? ==> AllWellFormed(Resend(users, email, draw, now).value)
  {
  }

  /** The code sent at sign-up verifies the account up to and including the
      last minute of its validity, and the account can then log in. */
  lemma SignupThenVerify(users: Users, input: Registration, draw: nat, now: Instant, later: Instant,
                         credentialsOk: bool)
    requires draw < CodeBound
    requires input.email !in users
    requires later <= now + SignupValidity
    ensures var users1 := Signup(users, input, draw, now).value.0;
      && Authenticate(users1, input.email, credentialsOk) == Err(NotVerified)
      && Verify(users1, input.email, Some(GenerateCode(draw)), later).Ok?
      && var users2 := Verify(users1, input.email, Some(GenerateCode(draw)), later).value;
         Authenticate(users2, input.email, credentialsOk).Ok? <==> credentialsOk
  {
  }

  /** After the validity window the sign-up code is refused as expired, even
      though it matches. */
  lemma SignupCodeExpires(users: Users, input: Registration, draw: nat, now: Instant, later: Instant)
    requires draw < CodeBound
    requires input.email !in users
    requires later > now + SignupValidity
    ensures Verify(Signup(users, input, draw, now).value.0, input.email, Some(GenerateCode(draw)), later)
      == Err(CodeExpired)
  {
  }

  /** A verified account cannot be verified again, nor sent a new code. */
  lemma VerifyOnce(users: Users, email: string, code: Option<string>, now: Instant, code2: Option<string>,
                   later: Instant, draw: nat)
    requires draw < CodeBound
    requires Verify(users, email, code, now).Ok?
    ensures var users1 := Verify(users, email, code, now).value;
      && Verify(users1, email, code2, later).Err?
      && Resend(users1, email, draw, later) == Err(AlreadyVerified)
  {
  }

  /** A wrong code on a live, unexpired account is refused; an error carries
      no new state, so the stored user stays as it was. */
  lemma VerifyWrongCode(users: Users, email: string, code: Option<string>, now: Instant)
    requires email in users && users[email].code.Some? && users[email].expiration.Some?
    requires now <= users[email].expiration.value && code != users[email].code
    ensures Verify(users, email, code, now) == Err(InvalidCode)
  {
  }

  /** After a re-send only the new code verifies, for `ResendValidity`
      minutes. */
  lemma ResendThenVerify(users: Users, email: string, draw: nat, now: Instant, later: Instant, code: Option<string>)
    requires draw < CodeBound
    requires Resend(users, email, draw, now).Ok?
    requires later <= now + ResendValidity
    ensures Verify(Resend(users, email, draw, now).value, email, code, later).Ok? <==> code == Some(GenerateCode(draw))
  {
  }
}

=== FILE: club_detail.dfy ===
/** A club's page in the union dashboard: posts and events under two tabs,
    a search box that filters the active tab, and six items per page with a
    window of numbered page buttons. */
module ClubDetail {
  import opened Wrappers
  import opened Strings
  import opened Seqs

  const PerPage := 6
  /** `maxVisiblePages`. */
  const MaxVisible := 5

  /** The fields the search reads; each may be missing from the server's
      JSON (`?.` then yields `undefined`, which is falsy). */
  datatype Post = Post(title: Option<string>, content: Option<string>, author: Option<string>)
  datatype Event = Event(title: Option<string>, description: Option<string>, location: Option<string>)

  /** `activeTab`: `'posts'`, or anything else, which shows the events. */
  datatype Tab = PostsTab | EventsTab

  datatype Page = Page(
    posts: seq<Post>,
    events: seq<Event>,
    filteredPosts: seq<Post>,
    filteredEvents: seq<Event>,
    activeTab: Tab,
    query: string,
    postsPage: int,
    eventsPage: int)

  // ---------------------------------------------------------------------
  // Searching

  /** `field?.toLowerCase().includes(query)`. */
  predicate FieldHas(field: Option<string>, query: string) {
    field.Some? && Includes(ToLower(field.value), query)
  }

  predicate PostMatches(p: Post, query: string) {
    FieldHas(p.title, query) || FieldHas(p.content, query) || FieldHas(p.author, query)
  }

  predicate EventMatches(e: Event, query: string) {
    FieldHas(e.title, query) || FieldHas(e.description, query) || FieldHas(e.location, query)
  }

  /** The search effect: the active tab's list becomes the matches of the
      lower-cased query, or the whole list when the query is blank, and the
      tab goes back to its first page. */
  function SearchEffect(pg: Page): (r: Page)
    ensures r.posts == pg.posts && r.events == pg.events
    ensures r.activeTab == pg.activeTab && r.query == pg.query
    ensures pg.activeTab == PostsTab ==>
      && r.postsPage == 1 && r.eventsPage == pg.eventsPage && r.filteredEvents == pg.filteredEvents
      && (forall p :: p in r.filteredPosts <==>
            p in pg.posts && (Trim(ToLower(pg.query)) == [] || PostMatches(p, ToLower(pg.query))))
    ensures pg.activeTab == EventsTab ==>
      && r.eventsPage == 1 && r.postsPage == pg.postsPage && r.filteredPosts == pg.filteredPosts
      && (forall e :: e in r.filteredEvents <==>
            e in pg.events && (Trim(ToLower(pg.query)) == [] || EventMatches(e, ToLower(pg.query))))
    ensures Trim(ToLower(pg.query)) == [] ==>
      if pg.activeTab == PostsTab then r.filteredPosts == pg.posts else r.filteredEvents == pg.events
  {
    var q := ToLower(pg.query);
    if pg.activeTab == PostsTab then
      var kept := if Trim(q) == [] then pg.posts else Filter(pg.posts, (p: Post) => PostMatches(p, q));
      pg.(filteredPosts := kept, postsPage := 1)
    else
      var kept := if Trim(q) == [] then pg.events else Filter(pg.events, (e: Event) => EventMatches(e, q));
      pg.(filteredEvents := kept, eventsPage := 1)
  }

  /** `handleSearchChange`; the effect runs only when the query differs from
      the one it last saw. */
  function ChangeQuery(pg: Page, query: string): (r: Page)
    ensures query != pg.query ==> r == SearchEffect(pg.(query := query))
    ensures query == pg.query ==> r == pg
  {
    if query == pg.query then pg else SearchEffect(pg.(query := query))
  }

  /** `handleTabChange`: switch tab and clear the query; the effect runs
      when either changed. */
  function ChangeTab(pg: Page, tab: Tab): (r: Page)
    ensures r.activeTab == tab && r.query == []
    ensures tab != pg.activeTab || pg.query != [] ==> r == SearchEffect(pg.(activeTab := tab, query := []))
    ensures tab == pg.activeTab && pg.query == [] ==> r == pg
  {
    var next := pg.(activeTab := tab, query := []);
    if next == pg then pg else SearchEffect(next)
  }

  // ---------------------------------------------------------------------
  // Paging

  /** `Array.prototype.slice(start, end)`: negative bounds count from the
      end, and bounds are clamped to the list. */
  function Slice<T>(s: seq<T>, start: int, end: int): (r: seq<T>)
    ensures 0 <= start <= end <= |s| ==> r == s[start..end]
    ensures 0 <= start && |s| <= start ==> r == []
  {
    var a := if start < 0 then (if |s| + start < 0 then 0 else |s| + start) else (if start < |s| then start else |s|);
    var b := if end < 0 then (if |s| + end < 0 then 0 else |s| + end) else (if end < |s| then end else |s|);
    if b <= a then [] else s[a..b]
  }

  /** `getCurrentItems`: the slice `[(page - 1) * 6, page * 6)`. */
  function CurrentItems<T>(list: seq<T>, page: int): (r: seq<T>)
    ensures page >= 1 ==> |r| <= PerPage
    ensures page >= 1 ==> forall i :: 0 <= i < |r| ==> (page - 1) * PerPage + i < |list| && r[i] == list[(page - 1) * PerPage + i]
  {
    Slice(list, page * PerPage - PerPage, page * PerPage)
  }

  /** `Math.ceil(n / 6)`. */
  function TotalPages(n: nat): (r: nat)
    ensures r * PerPage >= n && (r == 0 || (r - 1) * PerPage < n)
  {
    (n + PerPage - 1) / PerPage
  }

  /** What `renderPagination` draws. */
  datatype Controls = Controls(prev: bool, numbers: seq<int>, next: bool)

  /** `renderPagination`: nothing for at most one page; otherwise a
      previous button, the numbers from `max(1, p - 2)` to
      `min(total, start + 4)`, and a next button. */
  function RenderPagination(total: int, current: int): (r: Option<Controls>)
    ensures r.None? <==> total <= 1
    ensures r.Some? ==> (r.value.prev <==> current > 1) && (r.value.next <==> current < total)
    ensures r.Some? ==> |r.value.numbers| <= MaxVisible
    ensures r.Some? ==> forall i :: 0 <= i < |r.value.numbers| ==> 1 <= r.value.numbers[i] <= total
    ensures r.Some? ==> forall i :: 0 < i < |r.value.numbers| ==> r.value.numbers[i] == r.value.numbers[i - 1] + 1
    ensures r.Some? && 1 <= current <= total ==> current in r.value.numbers
  {
    if total <= 1 then None
    else
      var start := if current - MaxVisible / 2 > 1 then current - MaxVisible / 2 else 1;
      var end := if start + MaxVisible - 1 < total then start + MaxVisible - 1 else total;
      var numbers := if end < start then [] else seq(end - start + 1, i requires 0 <= i < end - start + 1 => start + i);
      assert 1 <= current <= total ==> numbers[current - start] == current;
      Some(Controls(current > 1, numbers, current < total))
  }

  // ---------------------------------------------------------------------
  // Properties

  /** Every item is on exactly the page its index says, at the position its
      index says, and that page exists. */
  lemma ItemOnItsPage<T>(list: seq<T>, i: nat)
    requires i < |list|
    ensures var p := i / PerPage + 1;
      && 1 <= p <= TotalPages(|list|)
      && i % PerPage < |CurrentItems(list, p)|
      && CurrentItems(list, p)[i % PerPage] == list[i]
  {
    var p := i / PerPage + 1;
    assert (p - 1) * PerPage == i - i % PerPage;
  }

  /** The pages before the last are full and those after it are empty. */
  lemma PageSizes<T>(list: seq<T>, page: int)
    requires page >= 1
    ensures page < TotalPages(|list|) ==> |CurrentItems(list, page)| == PerPage
    ensures page > TotalPages(|list|) ==> CurrentItems(list, page) == []
  {
  }

  /** Away from the last two pages of at least five, the window shows five
      numbers. */
  lemma WindowFull(total: int, current: int)
    requires total >= MaxVisible && 1 <= current <= total - 2
    ensures |RenderPagination(total, current).value.numbers| == MaxVisible
  {
  }

  /** Changing the query or the tab puts the tab that is then active back on
      its first page, and the other tab keeps its list and page. */
  lemma ChangesResetPage(pg: Page, query: string, tab: Tab)
    ensures query != pg.query ==>
      var r := ChangeQuery(pg, query);
      if pg.activeTab == PostsTab then r.postsPage == 1 && r.eventsPage == pg.eventsPage
      else r.eventsPage == 1 && r.postsPage == pg.postsPage
    ensures tab != pg.activeTab ==>
      var r := ChangeTab(pg, tab);
      && (if tab == PostsTab then r.postsPage == 1 && r.filteredPosts == pg.posts
          else r.eventsPage == 1 && r.filteredEvents == pg.events)
  {
    assert Trim(ToLower([])) == [];
  }

  /** A query of spaces lists everything, as an empty one does. */
  lemma BlankQueryRestores(pg: Page, query: string)
    requires forall i :: 0 <= i < |query| ==> query[i] == ' '
    requires query != pg.query
    ensures pg.activeTab == PostsTab ==> ChangeQuery(pg, query).filteredPosts == pg.posts
    ensures pg.activeTab == EventsTab ==> ChangeQuery(pg, query).filteredEvents == pg.events
  {
    var q := ToLower(query);
    TrimEmptyIffAllSpace(q);
  }
}

=== FILE: club_gallery.dfy ===
/** The union's club gallery: a set of selected club ids and a "select
    all" flag kept next to it. */
module ClubGallery {
  import opened Entities
  import opened Repository

  /** `clubs` (by id, in the order the server sent them), `selectedClubs`
      and `selectAll`. */
  datatype Gallery = Gallery(clubs: seq<Id>, selected: set<Id>, selectAll: bool)

  /** `handleSelectClub`: toggle that one id, then set the flag when as many
      ids are selected as there are clubs. */
  function HandleSelectClub(g: Gallery, id: Id): (r: Gallery)
    ensures r.clubs == g.clubs
    ensures id in r.selected <==> id !in g.selected
    ensures forall x :: x != id ==> (x in r.selected <==> x in g.selected)
    ensures r.selectAll <==> |r.selected| == |g.clubs|
  {
    var selected := if id in g.selected then g.selected - {id} else g.selected + {id};
    g.(selected := selected, selectAll := |selected| == |g.clubs|)
  }

  /** `handleSelectAll`: clear the selection if the flag was set, select
      every club otherwise, and flip the flag. */
  function HandleSelectAll(g: Gallery): (r: Gallery)
    ensures r.clubs == g.clubs && r.selectAll == !g.selectAll
    ensures g.selectAll ==> r.selected == {}
    ensures !g.selectAll ==> forall x :: x in r.selected <==> x in g.clubs
  {
    if g.selectAll then g.(selected := {}, selectAll := false)
    else g.(selected := ToSet(g.clubs), selectAll := true)
  }

  /** What the two handlers keep, for a list of distinct clubs: only clubs
      are selected, and the flag is set exactly when all of them are. */
  predicate Consistent(g: Gallery) {
    && NoDuplicates(g.clubs)
    && g.selected <= ToSet(g.clubs)
    && (g.selectAll <==> g.selected == ToSet(g.clubs))
  }

  // ---------------------------------------------------------------------
  // Properties

  /** Toggling the same club twice restores the selection. */
  lemma ToggleTwice(g: Gallery, id: Id)
    ensures HandleSelectClub(HandleSelectClub(g, id), id).selected == g.selected
  {
  }

  /** A subset as large as its superset is all of it. */
  lemma SubsetSameSize(a: set<Id>, b: set<Id>)
    requires a <= b && |a| == |b|
    ensures a == b
  {
    if a != b {
      assert !(b <= a);
      var x :| x in b && x !in a;
      assert a <= b - {x};
      assert |b - {x}| == |b| - 1;
      SubsetSmaller(a, b - {x});
    }
  }

  lemma SubsetSmaller(a: set<Id>, b: set<Id>)
    requires a <= b
    ensures |a| <= |b|
  {
    assert b == a + (b - a);
  }

  /** With distinct clubs and only clubs selected, the size test that sets
      the flag is the same as "every club is selected". */
  lemma FlagMeansAllSelected(g: Gallery, id: Id)
    requires Consistent(g) && id in g.clubs
    ensures HandleSelectClub(g, id).selectAll <==> HandleSelectClub(g, id).selected == ToSet(g.clubs)
    ensures HandleSelectClub(g, id).selected <= ToSet(g.clubs)
  {
    var r := HandleSelectClub(g, id);
    DistinctCount(g.clubs);
    assert r.selected <= ToSet(g.clubs);
    if |r.selected| == |g.clubs| {
      SubsetSameSize(r.selected, ToSet(g.clubs));
    }
  }

  /** Both handlers keep a gallery with at least one club consistent. With
      no clubs the flag flips while the selection stays empty, so the flag
      alone says nothing there. */
  lemma HandlersPreserveConsistent(g: Gallery, id: Id)
    requires Consistent(g) && |g.clubs| > 0
    ensures id in g.clubs ==> Consistent(HandleSelectClub(g, id))
    ensures Consistent(HandleSelectAll(g))
  {
    if id in g.clubs {
      FlagMeansAllSelected(g, id);
    }
    assert g.clubs[0] in ToSet(g.clubs);
  }
}

=== FILE: comment_service.dfy ===
/** `CommentServiceImpl`: comments on posts with nested replies. The
    parent/replies association is held as a forest: a top-level comment is a
    root, and each node's `replies` are the comments whose parent it is, in
    the association's order. */
module CommentService {
  import opened Wrappers
  import opened Entities

  /** A `comment` row together with its replies. Each node carries its own
      post, as the table does: nothing ties a reply's post to its parent's. */
  datatype Comment = Comment(
    id: Id,
    post: Id,
    user: Id,
    content: string,
    createdAt: Instant,
    replies: seq<Comment>)

  /** `CommentResponseDto`. */
  datatype CommentResponse = CommentResponse(
    id: Id,
    content: string,
    userName: string,
    createdAt: Instant,
    replies: seq<CommentResponse>)

  datatype CommentDb = CommentDb(
    posts: set<Id>,
    users: set<Id>,
    roots: seq<Comment>)

  /** `addComment`'s input; `parentCommentId` is nullable. */
  datatype CommentRequest = CommentRequest(post: Id, user: Id, content: string, parent: Option<Id>)

  // ---------------------------------------------------------------------
  // Measures over the forest

  function TreeIds(t: Comment): set<Id>
    decreases t
  {
    {t.id} + ForestIds(t.replies)
  }

  function ForestIds(cs: seq<Comment>): set<Id>
    decreases cs
  {
    if cs == [] then {} else TreeIds(cs[0]) + ForestIds(cs[1..])
  }

  /** The comments of `post` in the tree, at any depth (`countByPostId`). */
  function CountTree(t: Comment, post: Id): nat
    decreases t
  {
    (if t.post == post then 1 else 0) + CountForest(t.replies, post)
  }

  function CountForest(cs: seq<Comment>, post: Id): nat
    decreases cs
  {
    if cs == [] then 0 else CountTree(cs[0], post) + CountForest(cs[1..], post)
  }

  lemma {:induction false} ForestAppend(a: seq<Comment>, b: seq<Comment>, post: Id)
    ensures CountForest(a + b, post) == CountForest(a, post) + CountForest(b, post)
    ensures ForestIds(a + b) == ForestIds(a) + ForestIds(b)
  {
    if a == [] {
      assert a + b == b;
    } else {
      assert (a + b)[0] == a[0] && (a + b)[1..] == a[1..] + b;
      ForestAppend(a[1..], b, post);
    }
  }

  // ---------------------------------------------------------------------
  // The table the forest stands for

  /** A `comment` row as the table stores it, without the replies. */
  datatype CommentRow = CommentRow(id: Id, post: Id, user: Id, content: string, createdAt: Instant)

  function RowOf(c: Comment): CommentRow {
    CommentRow(c.id, c.post, c.user, c.content, c.createdAt)
  }

  /** Every comment of the tree at any depth, in pre-order. */
  function TreeRows(t: Comment): seq<CommentRow>
    decreases t
  {
    [RowOf(t)] + Rows(t.replies)
  }

  function Rows(cs: seq<Comment>): seq<CommentRow>
    decreases cs
  {
    if cs == [] then [] else TreeRows(cs[0]) + Rows(cs[1..])
  }

  /** `select count(*) from comment where post_id = post`. */
  function RowsOfPost(rows: seq<CommentRow>, post: Id): nat {
    if rows == [] then 0
    else RowsOfPost(rows[..|rows| - 1], post) + (if rows[|rows| - 1].post == post then 1 else 0)
  }

  /** Every stored comment is on a stored post by a stored user, and no two
      rows share an id. */
  predicate Consistent(db: CommentDb) {
    RowsConsistent(Rows(db.roots), db.posts, db.users)
  }

  predicate RowsConsistent(rows: seq<CommentRow>, posts: set<Id>, users: set<Id>) {
    && (forall x :: x in rows ==> x.post in posts && x.user in users)
    && (forall x, y :: x in rows && y in rows && x.id == y.id ==> x == y)
    && (forall x :: x in rows ==> multiset(rows)[x] == 1)
  }

  lemma {:induction false} RowsAppend(a: seq<Comment>, b: seq<Comment>)
    ensures Rows(a + b) == Rows(a) + Rows(b)
  {
    if a == [] {
      assert a + b == b;
    } else {
      assert (a + b)[0] == a[0] && (a + b)[1..] == a[1..] + b;
      RowsAppend(a[1..], b);
    }
  }

  lemma SingletonRows(c: Comment)
    ensures Rows([c]) == TreeRows(c)
  {
    assert [c][1..] == [];
  }

  lemma {:induction false} RowsOfPostAppend(a: seq<CommentRow>, b: seq<CommentRow>, post: Id)
    ensures RowsOfPost(a + b, post) == RowsOfPost(a, post) + RowsOfPost(b, post)
  {
    if b == [] {
      assert a + b == a;
    } else {
      var init := b[..|b| - 1];
      assert (a + b)[..|a + b| - 1] == a + init;
      RowsOfPostAppend(a, init, post);
    }
  }

  /** A table without rows of the post counts zero for it. */
  lemma {:induction false} RowsOfPostNone(rows: seq<CommentRow>, post: Id)
    requires forall x :: x in rows ==> x.post != post
    ensures RowsOfPost(rows, post) == 0
  {
    if rows != [] {
      assert rows[|rows| - 1] in rows;
      RowsOfPostNone(rows[..|rows| - 1], post);
    }
  }

  /** The tree's count is the number of its rows on the post. */
  lemma {:induction false} CountTreeRows(t: Comment, post: Id)
    ensures CountTree(t, post) == RowsOfPost(TreeRows(t), post)
    ensures TreeIds(t) == set x | x in TreeRows(t) :: x.id
    decreases t
  {
    CountForestRows(t.replies, post);
    RowsOfPostAppend([RowOf(t)], Rows(t.replies), post);
    assert [RowOf(t)][..0] == [];
  }

  lemma {:induction false} CountForestRows(cs: seq<Comment>, post: Id)
    ensures CountForest(cs, post) == RowsOfPost(Rows(cs), post)
    ensures ForestIds(cs) == set x | x in Rows(cs) :: x.id
    decreases cs
  {
    if cs != [] {
      CountTreeRows(cs[0], post);
      CountForestRows(cs[1..], post);
      RowsOfPostAppend(TreeRows(cs[0]), Rows(cs[1..]), post);
    }
  }

  // ---------------------------------------------------------------------
  // Inserting a reply

  /** Attaches `c` as the last reply of the first node, in pre-order, whose
      id is `parent`; `None` when no node has that id. */
  function InsertTree(t: Comment, parent: Id, c: Comment): (r: Option<Comment>)
    ensures r.None? <==> parent !in TreeIds(t)
    ensures r.Some? ==> r.value.id == t.id && r.value.post == t.post
    ensures r.Some? ==> TreeIds(r.value) == TreeIds(t) + TreeIds(c)
    ensures r.Some? ==> forall p :: CountTree(r.value, p) == CountTree(t, p) + CountTree(c, p)
    decreases t
  {
    if t.id == parent then
      ForestAppendAll(t.replies, [c]);
      SingletonForest(c);
      Some(t.(replies := t.replies + [c]))
    else
      match InsertForest(t.replies, parent, c)
      case None => None
      case Some(rs) => Some(t.(replies := rs))
  }

  function InsertForest(cs: seq<Comment>, parent: Id, c: Comment): (r: Option<seq<Comment>>)
    ensures r.None? <==> parent !in ForestIds(cs)
    ensures r.Some? ==> |r.value| == |cs|
    ensures r.Some? ==> forall i :: 0 <= i < |cs| ==> r.value[i].id == cs[i].id && r.value[i].post == cs[i].post
    ensures r.Some? ==> ForestIds(r.value) == ForestIds(cs) + TreeIds(c)
    ensures r.Some? ==> forall p :: CountForest(r.value, p) == CountForest(cs, p) + CountTree(c, p)
    decreases cs
  {
    if cs == [] then None
    else
      match InsertTree(cs[0], parent, c)
      case Some(t) =>
        assert ([t] + cs[1..])[0] == t && ([t] + cs[1..])[1..] == cs[1..];
        Some([t] + cs[1..])
      case None =>
        match InsertForest(cs[1..], parent, c)
        case None => None
        case Some(rest) =>
          assert ([cs[0]] + rest)[0] == cs[0] && ([cs[0]] + rest)[1..] == rest;
          Some([cs[0]] + rest)
  }

  /** Inserting a reply adds exactly the reply's rows to the table. */
  lemma {:induction false} InsertTreeRows(t: Comment, parent: Id, c: Comment)
    requires InsertTree(t, parent, c).Some?
    ensures multiset(TreeRows(InsertTree(t, parent, c).value)) == multiset(TreeRows(t)) + multiset(TreeRows(c))
    decreases t
  {
    if t.id == parent {
      RowsAppend(t.replies, [c]);
      SingletonRows(c);
    } else {
      InsertForestRows(t.replies, parent, c);
    }
  }

  lemma {:induction false} InsertForestRows(cs: seq<Comment>, parent: Id, c: Comment)
    requires InsertForest(cs, parent, c).Some?
    ensures multiset(Rows(InsertForest(cs, parent, c).value)) == multiset(Rows(cs)) + multiset(TreeRows(c))
    decreases cs
  {
    match InsertTree(cs[0], parent, c)
    case Some(t) =>
      InsertTreeRows(cs[0], parent, c);
      ReplaceHeadRows(cs, t, c);
    case None =>
      var rest := InsertForest(cs[1..], parent, c).value;
      InsertForestRows(cs[1..], parent, c);
      ReplaceTailRows(cs, rest, c);
  }

  lemma ReplaceHeadRows(cs: seq<Comment>, t: Comment, c: Comment)
    requires cs != [] && multiset(TreeRows(t)) == multiset(TreeRows(cs[0])) + multiset(TreeRows(c))
    ensures multiset(Rows([t] + cs[1..])) == multiset(Rows(cs)) + multiset(TreeRows(c))
  {
    var r := [t] + cs[1..];
    assert r[0] == t && r[1..] == cs[1..];
  }

  lemma ReplaceTailRows(cs: seq<Comment>, rest: seq<Comment>, c: Comment)
    requires cs != [] && multiset(Rows(rest)) == multiset(Rows(cs[1..])) + multiset(TreeRows(c))
    ensures multiset(Rows([cs[0]] + rest)) == multiset(Rows(cs)) + multiset(TreeRows(c))
  {
    var r := [cs[0]] + rest;
    assert r[0] == cs[0] && r[1..] == rest;
  }

  lemma ForestAppendAll(a: seq<Comment>, b: seq<Comment>)
    ensures forall p :: CountForest(a + b, p) == CountForest(a, p) + CountForest(b, p)
    ensures ForestIds(a + b) == ForestIds(a) + ForestIds(b)
  {
    forall p
      ensures CountForest(a + b, p) == CountForest(a, p) + CountForest(b, p)
    {
      ForestAppend(a, b, p);
    }
    ForestAppend(a, b, 0);
  }

  lemma SingletonForest(c: Comment)
    ensures forall p :: CountForest([c], p) == CountTree(c, p)
    ensures ForestIds([c]) == TreeIds(c)
  {
    assert [c][1..] == [];
  }

  // ---------------------------------------------------------------------
  // The service

  /** `addComment`: post, then user, must exist; with a parent id the parent
      must exist anywhere and the comment becomes its reply, otherwise it is
      a new top-level comment. `id` and `now` are the database's identity and
      clock. */
  function AddComment(db: CommentDb, req: CommentRequest, id: Id, now: Instant): (r: Result<CommentDb>)
    requires id !in ForestIds(db.roots)
    ensures req.post !in db.posts ==> r == Err(NotFound(PostEntity))
    ensures req.post in db.posts && req.user !in db.users ==> r == Err(NotFound(UserEntity))
    ensures r.Ok? <==>
      (req.post in db.posts && req.user in db.users
       && (req.parent.Some? ==> req.parent.value in ForestIds(db.roots)))
    ensures r.Err? && req.post in db.posts && req.user in db.users ==> r.error == NotFound(ParentCommentEntity)
    ensures r.Ok? ==> ForestIds(r.value.roots) == ForestIds(db.roots) + {id}
    ensures r.Ok? ==>
      forall p :: CountForest(r.value.roots, p) == CountForest(db.roots, p) + (if p == req.post then 1 else 0)
    ensures r.Ok? ==> r.value.posts == db.posts && r.value.users == db.users
    ensures r.Ok? ==>
      multiset(Rows(r.value.roots)) == multiset(Rows(db.roots)) + multiset{CommentRow(id, req.post, req.user, req.content, now)}
  {
    if req.post !in db.posts then Err(NotFound(PostEntity))
    else if req.user !in db.users then Err(NotFound(UserEntity))
    else
      var c := Comment(id, req.post, req.user, req.content, now, []);
      assert ForestIds(c.replies) == {} && forall p :: CountForest(c.replies, p) == 0;
      assert forall p :: CountTree(c, p) == if p == req.post then 1 else 0;
      assert TreeRows(c) == [RowOf(c)];
      match req.parent
      case None =>
        ForestAppendAll(db.roots, [c]);
        SingletonForest(c);
        RowsAppend(db.roots, [c]);
        SingletonRows(c);
        Ok(db.(roots := db.roots + [c]))
      case Some(parent) =>
        match InsertForest(db.roots, parent, c)
        case None => Err(NotFound(ParentCommentEntity))
        case Some(roots) =>
          InsertForestRows(db.roots, parent, c);
          Ok(db.(roots := roots))
  }

  /** `findByPostAndParentIsNull`: the post's top-level comments in order. */
  function TopLevel(roots: seq<Comment>, post: Id): (r: seq<Comment>)
    ensures forall c :: c in r <==> c in roots && c.post == post
    ensures |r| <= CountForest(roots, post)
  {
    if roots == [] then []
    else
      var rest := TopLevel(roots[1..], post);
      assert roots == [roots[0]] + roots[1..];
      if roots[0].post == post then [roots[0]] + rest else rest
  }

  /** The response mirrors the comment: same id, content and stamp, the
      author's name, and replies mirrored pairwise in the same order. */
  predicate Mirrors(c: Comment, d: CommentResponse, nameOf: Id -> string)
    decreases c
  {
    && d.id == c.id && d.content == c.content && d.createdAt == c.createdAt
    && d.userName == nameOf(c.user)
    && |d.replies| == |c.replies|
    && forall i :: 0 <= i < |c.replies| ==> Mirrors(c.replies[i], d.replies[i], nameOf)
  }

  /** `mapToDto`; `nameOf` reads the author's name from the user table. */
  function MapToDto(c: Comment, nameOf: Id -> string): (r: CommentResponse)
    ensures Mirrors(c, r, nameOf)
    decreases c
  {
    CommentResponse(c.id, c.content, nameOf(c.user), c.createdAt,
                    seq(|c.replies|, i requires 0 <= i < |c.replies| => MapToDto(c.replies[i], nameOf)))
  }

  /** `getCommentsForPost`: the post must exist; its top-level comments,
      each with its whole reply tree. */
  function GetCommentsForPost(db: CommentDb, post: Id, nameOf: Id -> string): (r: Result<seq<CommentResponse>>)
    ensures r.Ok? <==> post in db.posts
    ensures r.Err? ==> r.error == NotFound(PostEntity)
    ensures r.Ok? ==> |r.value| == |TopLevel(db.roots, post)|
    ensures r.Ok? ==> forall i :: 0 <= i < |r.value| ==> Mirrors(TopLevel(db.roots, post)[i], r.value[i], nameOf)
  {
    if post !in db.posts then Err(NotFound(PostEntity))
    else
      var top := TopLevel(db.roots, post);
      Ok(seq(|top|, i requires 0 <= i < |top| => MapToDto(top[i], nameOf)))
  }

  /** `countCommentsForPost`: every comment of the post at any depth. The
      post is not looked up. */
  function CountCommentsForPost(db: CommentDb, post: Id): (r: nat)
    ensures r == RowsOfPost(Rows(db.roots), post)
    ensures r >= |TopLevel(db.roots, post)|
  {
    CountForestRows(db.roots, post);
    CountForest(db.roots, post)
  }

  // ---------------------------------------------------------------------
  // Properties

  /** The count is never below the number of top-level comments returned,
      and a reply on the same post makes it strictly larger. */
  lemma CountCoversTopLevel(db: CommentDb, post: Id, nameOf: Id -> string)
    requires post in db.posts
    ensures |GetCommentsForPost(db, post, nameOf).value| <= CountCommentsForPost(db, post)
  {
  }

  /** A top-level comment of the post with a reply on the same post makes the
      count exceed the number of top-level comments. */
  lemma {:induction false} ReplyCountedBeyondTopLevel(roots: seq<Comment>, post: Id, k: nat)
    requires k < |roots| && roots[k].post == post
    requires exists j :: 0 <= j < |roots[k].replies| && roots[k].replies[j].post == post
    ensures |TopLevel(roots, post)| < CountForest(roots, post)
    decreases |roots|
  {
    assert roots == [roots[0]] + roots[1..];
    if k == 0 {
      var j :| 0 <= j < |roots[0].replies| && roots[0].replies[j].post == post;
      TreeCountsReply(roots[0].replies, j, post);
      assert |TopLevel(roots[1..], post)| <= CountForest(roots[1..], post);
    } else {
      ReplyCountedBeyondTopLevel(roots[1..], post, k - 1);
      assert CountTree(roots[0], post) >= (if roots[0].post == post then 1 else 0);
    }
  }

  /** A comment of the post anywhere in a forest counts at least one. */
  lemma {:induction false} TreeCountsReply(cs: seq<Comment>, j: nat, post: Id)
    requires j < |cs| && cs[j].post == post
    ensures CountForest(cs, post) >= 1
    decreases |cs|
  {
    if j > 0 {
      TreeCountsReply(cs[1..], j - 1, post);
    }
  }

  /** Adding a comment raises its post's count by one and leaves every other
      post's count alone; a top-level comment also joins the end of the post's
      top-level list, while a reply leaves the top-level list's length as it
      was. */
  lemma AddCommentEffect(db: CommentDb, req: CommentRequest, id: Id, now: Instant)
    requires id !in ForestIds(db.roots)
    requires AddComment(db, req, id, now).Ok?
    ensures var roots' := AddComment(db, req, id, now).value.roots;
      && CountForest(roots', req.post) == CountForest(db.roots, req.post) + 1
      && (req.parent.None? ==>
            TopLevel(roots', req.post) == TopLevel(db.roots, req.post) + [Comment(id, req.post, req.user, req.content, now, [])])
      && (req.parent.Some? ==> |TopLevel(roots', req.post)| == |TopLevel(db.roots, req.post)|)
  {
    var c := Comment(id, req.post, req.user, req.content, now, []);
    if req.parent.None? {
      TopLevelAppend(db.roots, [c], req.post);
    } else {
      var roots' := AddComment(db, req, id, now).value.roots;
      TopLevelSameRoots(db.roots, roots', req.post);
    }
  }

  lemma {:induction false} TopLevelAppend(a: seq<Comment>, b: seq<Comment>, post: Id)
    ensures TopLevel(a + b, post) == TopLevel(a, post) + TopLevel(b, post)
  {
    if a == [] {
      assert a + b == b;
    } else {
      assert (a + b)[0] == a[0] && (a + b)[1..] == a[1..] + b;
      TopLevelAppend(a[1..], b, post);
    }
  }

  /** Forests whose roots agree position by position on post have top-level
      lists of the same length. */
  lemma {:induction false} TopLevelSameRoots(a: seq<Comment>, b: seq<Comment>, post: Id)
    requires |a| == |b| && forall i :: 0 <= i < |a| ==> a[i].post == b[i].post
    ensures |TopLevel(a, post)| == |TopLevel(b, post)|
  {
    if a != [] {
      TopLevelSameRoots(a[1..], b[1..], post);
    }
  }

  /** In a consistent database a post that is not stored has no comments,
      so its count is zero. */
  lemma UnknownPostCountsZero(db: CommentDb, post: Id)
    requires Consistent(db)
    requires post !in db.posts
    ensures CountCommentsForPost(db, post) == 0
  {
    RowsOfPostNone(Rows(db.roots), post);
  }

  /** Adding a comment keeps every row on a stored post by a stored user and
      keeps the ids unique. */
  lemma AddCommentPreservesConsistent(db: CommentDb, req: CommentRequest, id: Id, now: Instant)
    requires Consistent(db)
    requires id !in ForestIds(db.roots)
    requires AddComment(db, req, id, now).Ok?
    ensures Consistent(AddComment(db, req, id, now).value)
  {
    var db' := AddComment(db, req, id, now).value;
    CountForestRows(db.roots, req.post);
    AddRowKeepsConsistent(Rows(db.roots), Rows(db'.roots), CommentRow(id, req.post, req.user, req.content, now),
                          db.posts, db.users);
  }

  /** A table that gains one row on a stored post by a stored user, with an
      id no row had, stays consistent. */
  lemma AddRowKeepsConsistent(rows: seq<CommentRow>, rows': seq<CommentRow>, row: CommentRow, posts: set<Id>, users: set<Id>)
    requires RowsConsistent(rows, posts, users)
    requires multiset(rows') == multiset(rows) + multiset{row}
    requires row.post in posts && row.user in users
    requires forall x :: x in rows ==> x.id != row.id
    ensures RowsConsistent(rows', posts, users)
  {
    forall x
      ensures x in rows' <==> x in rows || x == row
    {
      assert x in rows' <==> x in multiset(rows');
      assert x in rows <==> x in multiset(rows);
    }
    assert row !in rows;
    forall x | x in rows'
      ensures multiset(rows')[x] == 1
    {
      if x == row {
        assert multiset(rows)[x] == 0;
      } else {
        assert multiset(rows')[x] == multiset(rows)[x];
      }
    }
  }
}

=== FILE: entities.dfy ===
/** The persisted entities the modelled services share, as immutable records.
    A repository table becomes a `map` from id to record (or a `seq` of rows
    where the row order is observable); an id column is a `nat`. */
module Entities {
  import opened Wrappers

  type Id = nat

  /** A `LocalDate` as a day number: consecutive days differ by one. */
  type Date = int

  /** A `LocalDateTime` as a number of minutes on one global clock. */
  type Instant = nat

  /** The `Years` and `Faculties` enum constants, by ordinal. */
  type Year = nat
  type Faculty = nat

  /** `EventAttendanceStatus`. */
  datatype AttendanceStatus = Going | Interested

  /** One `event_attendance` row: a user's status for one event. */
  datatype Attendance = Attendance(event: Id, user: Id, status: AttendanceStatus)

  /** A `LocalTime` to the minute: minutes since midnight. */
  type TimeOfDay = m: int | 0 <= m < 1440

  /** A `time_slot` row. */
  datatype Slot = Slot(start: TimeOfDay, end: TimeOfDay)

  /** An `event` row together with its target-year and target-faculty
      join rows, in list order. `venue` and `venueName` are the two nullable
      columns that name the venue; `createdAt` is stamped on first save. */
  datatype Event = Event(
    club: Id,
    name: string,
    description: string,
    venue: Option<Id>,
    venueName: Option<string>,
    date: Date,
    imagePath: Option<string>,
    targetYears: seq<Year>,
    targetFaculties: seq<Faculty>,
    createdAt: Option<Instant>)

  /** `EventRequestDto` (the category field is not carried). */
  datatype EventRequest = EventRequest(
    clubId: Id,
    name: string,
    description: string,
    venueId: Option<Id>,
    venueName: Option<string>,
    date: Date,
    imagePath: Option<string>,
    slotIds: seq<Id>,
    targetYears: seq<Year>,
    targetFaculties: seq<Faculty>)

  /** `EventUpdateDto`. */
  datatype EventUpdate = EventUpdate(
    name: string,
    description: string,
    venueId: Option<Id>,
    venueName: Option<string>,
    date: Date,
    imagePath: Option<string>,
    slotIds: seq<Id>,
    targetYears: seq<Year>,
    targetFaculties: seq<Faculty>)

  /** `EventResponseDto` as `toResponseDto` fills it. */
  datatype EventResponse = EventResponse(
    id: Id,
    clubId: Id,
    name: string,
    description: string,
    venueId: Option<Id>,
    venueName: Option<string>,
    date: Date,
    imagePath: Option<string>,
    slotIds: seq<Id>,
    createdAt: Option<Instant>,
    targetYears: seq<Year>,
    targetFaculties: seq<Faculty>)
}

=== FILE: event_mapper.dfy ===
/** `EventMapper`: the pure translations between event requests, the stored
    event and its response. */
module EventMapper {
  import opened Wrappers
  import opened Entities

  /** At most one of the two venue columns is set. */
  predicate VenueExclusive(e: Event) {
    !(e.venue.Some? && e.venueName.Some?)
  }

  /** `toEntity`: a new, unsaved event for `club` at the resolved `venue`,
      with no target years or faculties yet and no creation stamp. */
  function ToEntity(dto: EventRequest, club: Id, venue: Option<Id>): Event {
    Event(club, dto.name, dto.description, venue, dto.venueName, dto.date,
          dto.imagePath, [], [], None)
  }

  /** `updateEntity`: overwrite name, description and date; the resolved
      venue wins over the free-text venue name; the image path is kept when
      the request carries none. */
  function UpdateEntity(e: Event, dto: EventUpdate, venue: Option<Id>): (r: Event)
    ensures r.club == e.club && r.createdAt == e.createdAt
    ensures r.targetYears == e.targetYears && r.targetFaculties == e.targetFaculties
    ensures r.name == dto.name && r.description == dto.description && r.date == dto.date
    ensures venue.Some? ==> r.venue == venue && r.venueName.None?
    ensures venue.None? ==> r.venue.None? && r.venueName == dto.venueName
    ensures VenueExclusive(r)
    ensures dto.imagePath.Some? ==> r.imagePath == dto.imagePath
    ensures dto.imagePath.None? ==> r.imagePath == e.imagePath
  {
    var withFields := e.(name := dto.name, description := dto.description, date := dto.date);
    var withVenue :=
      if venue.Some? then withFields.(venue := venue, venueName := None)
      else withFields.(venue := None, venueName := dto.venueName);
    if dto.imagePath.Some? then withVenue.(imagePath := dto.imagePath) else withVenue
  }

  /** `toResponseDto`: the stored event under `id`, with the slot ids the
      caller supplies. */
  function ToResponseDto(id: Id, e: Event, slotIds: seq<Id>): (r: EventResponse)
    ensures r.id == id && r.clubId == e.club
    ensures r.venueId.None? <==> e.venue.None?
    ensures e.venue.Some? ==> r.venueId == e.venue
    ensures r.slotIds == slotIds
    ensures |r.targetYears| == |e.targetYears|
    ensures forall i :: 0 <= i < |e.targetYears| ==> r.targetYears[i] == e.targetYears[i]
    ensures |r.targetFaculties| == |e.targetFaculties|
    ensures forall i :: 0 <= i < |e.targetFaculties| ==> r.targetFaculties[i] == e.targetFaculties[i]
  {
    EventResponse(id, e.club, e.name, e.description, e.venue, e.venueName, e.date,
                  e.imagePath, slotIds, e.createdAt, e.targetYears, e.targetFaculties)
  }

  /** A freshly mapped event, read back through `toResponseDto`, shows the
      request's fields, the resolved venue and empty audience lists. */
  lemma ToEntityEchoesRequest(dto: EventRequest, club: Id, venue: Option<Id>, id: Id)
    ensures var r := ToResponseDto(id, ToEntity(dto, club, venue), dto.slotIds);
      && r.clubId == club && r.name == dto.name && r.description == dto.description
      && r.venueId == venue && r.venueName == dto.venueName && r.date == dto.date
      && r.imagePath == dto.imagePath && r.slotIds == dto.slotIds
      && r.targetYears == [] && r.targetFaculties == [] && r.createdAt.None?
  {
  }

  /** Applying the same update twice is the same as applying it once. */
  lemma UpdateEntityIdempotent(e: Event, dto: EventUpdate, venue: Option<Id>)
    ensures UpdateEntity(UpdateEntity(e, dto, venue), dto, venue) == UpdateEntity(e, dto, venue)
  {
  }

  /** A later update that carries an image path erases every trace of an
      earlier one: only the identity columns and collections survive. */
  lemma UpdateEntityLastWins(e: Event, d1: EventUpdate, v1: Option<Id>, d2: EventUpdate, v2: Option<Id>)
    requires d2.imagePath.Some?
    ensures UpdateEntity(UpdateEntity(e, d1, v1), d2, v2) == UpdateEntity(e, d2, v2)
  {
  }
}

=== FILE: event_schedule.dfy ===
/** The academic calendar page: stepping between months and laying out a
    month as a Monday-first grid. Dates follow the proleptic Gregorian
    calendar of ECMA-262 section 21.4.1, with the `Date` constructor's rule
    that a year from 0 to 99 means 1900 to 1999. */
module EventSchedule {
  import opened Wrappers

  type MonthIndex = m: int | 0 <= m < 12

  /** The displayed month: `currentMonthIndex` (January is 0) and
      `currentYear`. */
  datatype View = View(month: MonthIndex, year: int)

  const MonthNames: seq<string> := ["January", "February", "March", "April", "May", "June",
                                    "July", "August", "September", "October", "November", "December"]

  /** The months counted from January of year 0: the order navigation
      moves along. */
  function Ordinal(v: View): int {
    12 * v.year + v.month
  }

  /** `navigatePrevMonth`. */
  function PrevMonth(v: View): (r: View)
    ensures Ordinal(r) == Ordinal(v) - 1
  {
    if v.month == 0 then View(11, v.year - 1) else View(v.month - 1, v.year)
  }

  /** `navigateNextMonth`. */
  function NextMonth(v: View): (r: View)
    ensures Ordinal(r) == Ordinal(v) + 1
  {
    if v.month == 11 then View(0, v.year + 1) else View(v.month + 1, v.year)
  }

  /** The label of the "previous" button, `months[(m + 11) % 12]`. */
  function PrevLabel(v: View): (r: string)
    ensures r in MonthNames
  {
    MonthNames[(v.month + 11) % 12]
  }

  /** The label of the "next" button, `months[(m + 1) % 12]`. */
  function NextLabel(v: View): (r: string)
    ensures r in MonthNames
  {
    MonthNames[(v.month + 1) % 12]
  }

  // ---------------------------------------------------------------------
  // The calendar

  /** The year the `Date` constructor uses for `y`. */
  function DateYear(y: int): int {
    if 0 <= y <= 99 then 1900 + y else y
  }

  predicate IsLeap(y: int) {
    y % 4 == 0 && (y % 100 != 0 || y % 400 == 0)
  }

  /** `new Date(y, m + 1, 0).getDate()`: the last day of the month. */
  function DaysInMonth(y: int, m: MonthIndex): (r: nat)
    ensures 28 <= r <= 31
  {
    if m == 1 then (if IsLeap(y) then 29 else 28)
    else if m == 3 || m == 5 || m == 8 || m == 10 then 30
    else 31
  }

  /** The days of year `y` before the first of month `m`. */
  function DaysBeforeMonth(y: int, m: int): nat
    requires 0 <= m <= 12
  {
    if m == 0 then 0 else DaysBeforeMonth(y, m - 1) + DaysInMonth(y, m - 1)
  }

  /** The days from 1 January of year 1 to 1 January of year `y`. */
  function DaysBeforeYear(y: int): int {
    365 * (y - 1) + (y - 1) / 4 - (y - 1) / 100 + (y - 1) / 400
  }

  /** Days counted from 1 January of year 1 (which is day 0). */
  function DayNumber(y: int, m: MonthIndex, d: int): int {
    DaysBeforeYear(y) + DaysBeforeMonth(y, m) + d - 1
  }

  /** `getDay()`: 0 is Sunday; 1 January of year 1 was a Monday. */
  function Weekday(y: int, m: MonthIndex, d: int): (r: int)
    ensures 0 <= r < 7
  {
    (DayNumber(y, m, d) + 1) % 7
  }

  /** `adjustedFirstDay`: the blank cells before the 1st in a Monday-first
      week, so Monday gives none and Sunday six. */
  function Blanks(v: View): (r: nat)
    ensures r < 7
    ensures r == (Weekday(DateYear(v.year), v.month, 1) + 6) % 7
  {
    var first := Weekday(DateYear(v.year), v.month, 1);
    if first == 0 then 6 else first - 1
  }

  /** `generateCalendarDays`: the blank cells, then the day numbers. */
  method GenerateCalendarDays(v: View) returns (days: seq<Option<nat>>)
    ensures |days| == Blanks(v) + DaysInMonth(DateYear(v.year), v.month)
    ensures forall i :: 0 <= i < Blanks(v) ==> days[i] == None
    ensures forall i :: Blanks(v) <= i < |days| ==> days[i] == Some(i - Blanks(v) + 1)
  {
    var total := DaysInMonth(DateYear(v.year), v.month);
    var blanks := Blanks(v);
    days := seq(blanks, _ => None);
    var i := 1;
    while i <= total
      invariant 1 <= i <= total + 1
      invariant |days| == blanks + i - 1
      invariant forall j :: 0 <= j < blanks ==> days[j] == None
      invariant forall j :: blanks <= j < |days| ==> days[j] == Some(j - blanks + 1)
    {
      days := days + [Some(i)];
      i := i + 1;
    }
  }

  // ---------------------------------------------------------------------
  // Properties

  /** Months and years are determined by their ordinal. */
  lemma OrdinalInjective(a: View, b: View)
    ensures Ordinal(a) == Ordinal(b) <==> a == b
  {
  }

  /** Next undoes previous and previous undoes next. */
  lemma NavigationRoundTrip(v: View)
    ensures NextMonth(PrevMonth(v)) == v
    ensures PrevMonth(NextMonth(v)) == v
  {
    OrdinalInjective(NextMonth(PrevMonth(v)), v);
    OrdinalInjective(PrevMonth(NextMonth(v)), v);
  }

  /** The buttons are labelled with the months they move to. */
  lemma LabelsNameTargets(v: View)
    ensures PrevLabel(v) == MonthNames[PrevMonth(v).month]
    ensures NextLabel(v) == MonthNames[NextMonth(v).month]
  {
    if v.month == 0 {
      assert (v.month + 11) % 12 == 11;
    } else {
      assert (v.month + 11) % 12 == v.month - 1;
    }
    if v.month == 11 {
      assert (v.month + 1) % 12 == 0;
    } else {
      assert (v.month + 1) % 12 == v.month + 1;
    }
  }

  /** A year has 365 days, or 366 in a leap year. */
  lemma YearLength(y: int)
    ensures DaysBeforeYear(y + 1) - DaysBeforeYear(y) == DaysBeforeMonth(y, 12)
    ensures DaysBeforeMonth(y, 12) == if IsLeap(y) then 366 else 365
  {
    MonthsTotal(y);
    LeapDays(y);
  }

  /** The twelve months add up to 337 days plus February. */
  lemma MonthsTotal(y: int)
    ensures DaysBeforeMonth(y, 12) == 337 + DaysInMonth(y, 1)
  {
    var feb := DaysInMonth(y, 1);
    assert DaysBeforeMonth(y, 1) == 31;
    assert DaysBeforeMonth(y, 2) == 31 + feb;
    assert DaysBeforeMonth(y, 3) == 62 + feb;
    assert DaysBeforeMonth(y, 4) == 92 + feb;
    assert DaysBeforeMonth(y, 5) == 123 + feb;
    assert DaysBeforeMonth(y, 6) == 153 + feb;
    assert DaysBeforeMonth(y, 7) == 184 + feb;
    assert DaysBeforeMonth(y, 8) == 215 + feb;
    assert DaysBeforeMonth(y, 9) == 245 + feb;
    assert DaysBeforeMonth(y, 10) == 276 + feb;
    assert DaysBeforeMonth(y, 11) == 306 + feb;
    assert DaysBeforeMonth(y, 12) == 337 + feb;
  }

  /** Going from year `y` to `y + 1` adds the leap day exactly in a leap
      year. */
  lemma LeapDays(y: int)
    ensures DaysBeforeYear(y + 1) - DaysBeforeYear(y) == if IsLeap(y) then 366 else 365
  {
    StepDiv4(y);
    StepDiv100(y);
    StepDiv400(y);
  }

  lemma StepDiv4(y: int)
    ensures y / 4 - (y - 1) / 4 == if y % 4 == 0 then 1 else 0
  {
  }

  lemma StepDiv100(y: int)
    ensures y / 100 - (y - 1) / 100 == if y % 100 == 0 then 1 else 0
  {
  }

  lemma StepDiv400(y: int)
    ensures y / 400 - (y - 1) / 400 == if y % 400 == 0 then 1 else 0
  {
  }

  /** The first of the next month falls right after the last of this one. */
  lemma NextFirstFollows(y: int, m: MonthIndex)
    ensures var n := NextMonth(View(m, y));
      DayNumber(n.year, n.month, 1) == DayNumber(y, m, 1) + DaysInMonth(y, m)
  {
    if m == 11 {
      YearLength(y);
    }
  }

  /** The blank cells are the first's day number modulo 7: days are
      counted from a Monday. */
  lemma BlanksFromDayNumber(v: View)
    ensures Blanks(v) == DayNumber(DateYear(v.year), v.month, 1) % 7
  {
    var d := DayNumber(DateYear(v.year), v.month, 1);
    assert Weekday(DateYear(v.year), v.month, 1) == (d + 1) % 7;
    WeekShift(d);
  }

  lemma WeekShift(d: int)
    ensures ((d + 1) % 7 + 6) % 7 == d % 7
  {
  }

  lemma WeekAdd(d: int, k: int)
    ensures (d + k) % 7 == (d % 7 + k) % 7
  {
  }

  /** Consecutive grids line up: the next month's blank cells continue the
      week where this month's last day left it. A year of 99 or -1 is the
      exception, since the `Date` constructor moves 99 to 1999 but leaves
      100 alone, and -1 alone but moves 0 to 1900. */
  lemma GridsContinue(v: View)
    requires v.month == 11 ==> v.year != 99 && v.year != -1
    ensures Blanks(NextMonth(v)) == (Blanks(v) + DaysInMonth(DateYear(v.year), v.month)) % 7
  {
    var y := DateYear(v.year);
    var n := NextMonth(v);
    NextFirstFollows(y, v.month);
    assert DateYear(n.year) == NextMonth(View(v.month, y)).year;
    assert n.month == NextMonth(View(v.month, y)).month;
    BlanksFromDayNumber(v);
    BlanksFromDayNumber(n);
    WeekAdd(DayNumber(y, v.month, 1), DaysInMonth(y, v.month));
  }

  /** The page opens on July 2025, a month that starts on a Tuesday: one
      blank, then 31 days. */
  lemma OpeningMonth()
    ensures Weekday(2025, 6, 1) == 2
    ensures Blanks(View(6, 2025)) == 1
    ensures DaysInMonth(2025, 6) == 31
  {
    assert !IsLeap(2025);
    assert DaysBeforeMonth(2025, 6) == 181;
    assert DaysBeforeYear(2025) == 365 * 2024 + 506 - 20 + 5;
    assert DayNumber(2025, 6, 1) == 739432;
    assert 739433 == 7 * 105633 + 2;
  }
}

=== FILE: event_service.dfy ===
/** `EventServiceImpl`: event creation and update with their slot, year and
    faculty associations, per-(event, user) attendance, the audience
    conflict query and the featured flag. */
module EventService {
  import opened Wrappers
  import opened Entities
  import opened Repository
  import opened EventMapper

  /** The repositories the service reads and writes. `featured` maps an
      event id to the time it was featured. */
  datatype EventDb = EventDb(
    clubs: set<Id>,
    venues: set<Id>,
    users: set<Id>,
    slots: set<Id>,
    events: map<Id, Event>,
    eventSlots: seq<Link<Id>>,
    attendance: seq<Attendance>,
    featured: map<Id, Instant>)

  // ---------------------------------------------------------------------
  // Attendance rows

  /** The row is the (event, user) pair's record. */
  predicate IsRecordOf(a: Attendance, event: Id, user: Id) {
    a.event == event && a.user == user
  }

  predicate HasRecord(rows: seq<Attendance>, event: Id, user: Id) {
    exists i :: 0 <= i < |rows| && IsRecordOf(rows[i], event, user)
  }

  /** The database holds at most one record per (event, user) pair. */
  predicate UniquePairs(rows: seq<Attendance>) {
    forall i, j :: 0 <= i < j < |rows| ==>
      !IsRecordOf(rows[j], rows[i].event, rows[i].user)
  }

  /** `findByEventAndUser`: the pair's record's status, if any. */
  function FindRecord(rows: seq<Attendance>, event: Id, user: Id): (r: Option<AttendanceStatus>)
    ensures r.Some? <==> HasRecord(rows, event, user)
    ensures r.Some? ==> exists i :: 0 <= i < |rows| && rows[i] == Attendance(event, user, r.value)
  {
    if rows == [] then None
    else if IsRecordOf(rows[0], event, user) then
      assert IsRecordOf(rows[0], event, user);
      Some(rows[0].status)
    else
      var r := FindRecord(rows[1..], event, user);
      assert HasRecord(rows[1..], event, user) ==> HasRecord(rows, event, user) by {
        if HasRecord(rows[1..], event, user) {
          var i :| 0 <= i < |rows[1..]| && IsRecordOf(rows[1..][i], event, user);
          assert rows[i + 1] == rows[1..][i];
        }
      }
      assert HasRecord(rows, event, user) ==> HasRecord(rows[1..], event, user) by {
        if HasRecord(rows, event, user) {
          var i :| 0 <= i < |rows| && IsRecordOf(rows[i], event, user);
          assert i > 0 && rows[1..][i - 1] == rows[i];
        }
      }
      assert r.Some? ==> exists i :: 0 <= i < |rows| && rows[i] == Attendance(event, user, r.value) by {
        if r.Some? {
          var i :| 0 <= i < |rows[1..]| && rows[1..][i] == Attendance(event, user, r.value);
          assert rows[i + 1] == rows[1..][i];
        }
      }
      r
  }

  /** `countByEventIdAndStatus`: the event's records with that status. */
  function CountStatus(rows: seq<Attendance>, event: Id, status: AttendanceStatus): nat {
    if rows == [] then 0
    else
      var last := rows[|rows| - 1];
      CountStatus(rows[..|rows| - 1], event, status)
        + (if last.event == event && last.status == status then 1 else 0)
  }

  /** Every row with the pair's key gets the new status; others are kept. */
  function SetStatus(rows: seq<Attendance>, event: Id, user: Id, status: AttendanceStatus): (r: seq<Attendance>)
    ensures |r| == |rows|
    ensures forall i :: 0 <= i < |rows| && IsRecordOf(rows[i], event, user) ==>
      r[i] == Attendance(event, user, status)
    ensures forall i :: 0 <= i < |rows| && !IsRecordOf(rows[i], event, user) ==> r[i] == rows[i]
  {
    seq(|rows|, i requires 0 <= i < |rows| =>
      if IsRecordOf(rows[i], event, user) then rows[i].(status := status) else rows[i])
  }

  /** `deleteByEventAndUser`: drop the pair's rows, keep the rest in order. */
  function DeleteRecord(rows: seq<Attendance>, event: Id, user: Id): (r: seq<Attendance>)
    ensures !HasRecord(r, event, user)
    ensures forall a :: a in r <==> a in rows && !IsRecordOf(a, event, user)
    ensures |r| <= |rows|
  {
    if rows == [] then []
    else
      var rest := DeleteRecord(rows[..|rows| - 1], event, user);
      var last := rows[|rows| - 1];
      assert rows == rows[..|rows| - 1] + [last];
      if IsRecordOf(last, event, user) then rest else rest + [last]
  }

  // ---------------------------------------------------------------------
  // Attendance operations

  /** `markAttendance`. */
  function MarkAttendance(db: EventDb, event: Id, user: Id, status: AttendanceStatus): (r: Result<EventDb>)
    ensures event !in db.events ==> r == Err(NotFound(EventEntity))
    ensures event in db.events && user !in db.users ==> r == Err(NotFound(UserEntity))
    ensures event in db.events && user in db.users && HasRecord(db.attendance, event, user) ==>
      r == Err(AttendanceExists)
    ensures r.Ok? <==> event in db.events && user in db.users && !HasRecord(db.attendance, event, user)
    ensures r.Ok? ==> r.value == db.(attendance := db.attendance + [Attendance(event, user, status)])
  {
    if event !in db.events then Err(NotFound(EventEntity))
    else if user !in db.users then Err(NotFound(UserEntity))
    else if FindRecord(db.attendance, event, user).Some? then Err(AttendanceExists)
    else Ok(db.(attendance := db.attendance + [Attendance(event, user, status)]))
  }

  /** `updateAttendanceStatus`. */
  function UpdateAttendanceStatus(db: EventDb, event: Id, user: Id, status: AttendanceStatus): (r: Result<EventDb>)
    ensures event !in db.events ==> r == Err(NotFound(EventEntity))
    ensures event in db.events && user !in db.users ==> r == Err(NotFound(UserEntity))
    ensures event in db.events && user in db.users && !HasRecord(db.attendance, event, user) ==>
      r == Err(NotFound(AttendanceEntity))
    ensures r.Ok? <==> event in db.events && user in db.users && HasRecord(db.attendance, event, user)
    ensures r.Ok? ==> r.value == db.(attendance := SetStatus(db.attendance, event, user, status))
  {
    if event !in db.events then Err(NotFound(EventEntity))
    else if user !in db.users then Err(NotFound(UserEntity))
    else if FindRecord(db.attendance, event, user).None? then Err(NotFound(AttendanceEntity))
    else Ok(db.(attendance := SetStatus(db.attendance, event, user, status)))
  }

  /** `removeAttendance`: tolerant of a missing record. */
  function RemoveAttendance(db: EventDb, event: Id, user: Id): (r: Result<EventDb>)
    ensures r.Ok? <==> event in db.events && user in db.users
    ensures event !in db.events ==> r == Err(NotFound(EventEntity))
    ensures r.Ok? ==> !HasRecord(r.value.attendance, event, user)
    ensures r.Ok? ==> r.value == db.(attendance := DeleteRecord(db.attendance, event, user))
  {
    if event !in db.events then Err(NotFound(EventEntity))
    else if user !in db.users then Err(NotFound(UserEntity))
    else Ok(db.(attendance := DeleteRecord(db.attendance, event, user)))
  }

  /** `countGoingAttendance` / `countInterestedAttendance`. */
  function CountAttendance(db: EventDb, event: Id, status: AttendanceStatus): (r: Result<nat>)
    ensures r.Ok? <==> event in db.events
    ensures r.Err? ==> r.error == NotFound(EventEntity)
  {
    if event !in db.events then Err(NotFound(EventEntity))
    else Ok(CountStatus(db.attendance, event, status))
  }

  /** `EventAttendanceCountDto`. */
  datatype AttendanceCounts = AttendanceCounts(event: Id, interested: nat, going: nat)

  /** `getEventAttendanceCounts`. */
  function GetEventAttendanceCounts(db: EventDb, event: Id): (r: Result<AttendanceCounts>)
    ensures r.Ok? <==> event in db.events
    ensures r.Err? ==> r.error == NotFound(EventEntity)
    ensures r.Ok? ==> (r.value.event == event
      && Ok(r.value.interested) == CountAttendance(db, event, Interested)
      && Ok(r.value.going) == CountAttendance(db, event, Going))
  {
    if event !in db.events then Err(NotFound(EventEntity))
    else Ok(AttendanceCounts(event, CountStatus(db.attendance, event, Interested),
                             CountStatus(db.attendance, event, Going)))
  }

  /** `UserEventAttendanceDto`. */
  datatype UserAttendance = UserAttendance(event: Id, user: Id, status: Option<AttendanceStatus>, attending: bool)

  /** `getUserEventAttendanceStatus`. */
  function GetUserEventAttendanceStatus(db: EventDb, event: Id, user: Id): (r: Result<UserAttendance>)
    ensures r.Ok? <==> event in db.events && user in db.users
    ensures r.Ok? ==> r.value.event == event && r.value.user == user
    ensures r.Ok? ==> (r.value.attending <==> HasRecord(db.attendance, event, user))
    ensures r.Ok? ==> (r.value.status.None? <==> !r.value.attending)
    ensures r.Ok? && r.value.status.Some? ==>
      Attendance(event, user, r.value.status.value) in db.attendance
  {
    if event !in db.events then Err(NotFound(EventEntity))
    else if user !in db.users then Err(NotFound(UserEntity))
    else
      match FindRecord(db.attendance, event, user)
      case Some(s) => Ok(UserAttendance(event, user, Some(s), true))
      case None => Ok(UserAttendance(event, user, None, false))
  }

  // ---------------------------------------------------------------------
  // Events and their associations

  /** `doAllSlotsExist`. */
  function DoAllSlotsExist(db: EventDb, slotIds: seq<Id>): (r: bool)
    ensures r <==> (forall s :: s in slotIds ==> s in db.slots) && NoDuplicates(slotIds)
  {
    CountByIdInFull(slotIds, db.slots);
    CountByIdIn(slotIds, db.slots) == |slotIds|
  }

  /** `venueId != null ? findById(venueId).orElse(null) : null`: a venue id
      that names no stored venue silently becomes no venue. */
  function ResolveVenue(db: EventDb, venueId: Option<Id>): (r: Option<Id>)
    ensures r.Some? <==> venueId.Some? && venueId.value in db.venues
    ensures r.Some? ==> r == venueId
  {
    if venueId.Some? && venueId.value in db.venues then venueId else None
  }

  /** `createEvent`: the club must exist; an unknown venue id is silently
      dropped; slot links are made for the slot ids that exist. `id` is the
      identity the database assigns and `now` the creation stamp. The
      response echoes the requested slot ids as given. */
  function CreateEvent(db: EventDb, dto: EventRequest, id: Id, now: Instant): (r: Result<(EventDb, EventResponse)>)
    requires id !in db.events
    ensures r.Ok? <==> dto.clubId in db.clubs
    ensures r.Err? ==> r.error == NotFound(ClubEntity)
    ensures r.Ok? ==> r.value.0.events.Keys == db.events.Keys + {id}
    ensures r.Ok? ==> forall o :: o in db.events ==> r.value.0.events[o] == db.events[o]
    ensures r.Ok? ==> var e := r.value.0.events[id];
      && e.club == dto.clubId && e.name == dto.name && e.description == dto.description
      && e.date == dto.date && e.imagePath == dto.imagePath
      && e.venue == ResolveVenue(db, dto.venueId) && e.venueName == dto.venueName
      && e.targetYears == dto.targetYears && e.targetFaculties == dto.targetFaculties
      && e.createdAt == Some(now)
    ensures r.Ok? ==> r.value.0.(events := db.events, eventSlots := db.eventSlots) == db
    ensures r.Ok? ==> r.value.1 == ToResponseDto(id, r.value.0.events[id], dto.slotIds)
  {
    if dto.clubId !in db.clubs then Err(NotFound(ClubEntity))
    else
      var e := ToEntity(dto, dto.clubId, ResolveVenue(db, dto.venueId))
        .(createdAt := Some(now), targetYears := dto.targetYears, targetFaculties := dto.targetFaculties);
      var links := LinksFrom(id, FindAllById(dto.slotIds, db.slots));
      var db' := db.(events := db.events[id := e], eventSlots := db.eventSlots + links);
      Ok((db', ToResponseDto(id, e, dto.slotIds)))
  }

  /** `updateEvent`: base fields through `updateEntity`, then target years,
      target faculties and slot links replaced wholesale. */
  function UpdateEvent(db: EventDb, id: Id, dto: EventUpdate): (r: Result<(EventDb, EventResponse)>)
    ensures r.Ok? <==> id in db.events
    ensures r.Err? ==> r.error == NotFound(EventEntity)
    ensures r.Ok? ==> r.value.0.events.Keys == db.events.Keys
    ensures r.Ok? ==> forall o :: o in db.events && o != id ==> r.value.0.events[o] == db.events[o]
    ensures r.Ok? ==>
      var prev, e, venue := db.events[id], r.value.0.events[id], ResolveVenue(db, dto.venueId);
      && e.club == prev.club && e.createdAt == prev.createdAt
      && e.name == dto.name && e.description == dto.description && e.date == dto.date
      && e.venue == venue
      && e.venueName == (if venue.Some? then None else dto.venueName)
      && e.imagePath == (if dto.imagePath.Some? then dto.imagePath else prev.imagePath)
      && e.targetYears == dto.targetYears && e.targetFaculties == dto.targetFaculties
    ensures r.Ok? ==> r.value.0.(events := db.events, eventSlots := db.eventSlots) == db
    ensures r.Ok? ==> r.value.1 == ToResponseDto(id, r.value.0.events[id], dto.slotIds)
  {
    if id !in db.events then Err(NotFound(EventEntity))
    else
      var e := UpdateEntity(db.events[id], dto, ResolveVenue(db, dto.venueId))
        .(targetYears := dto.targetYears, targetFaculties := dto.targetFaculties);
      var links := LinksFrom(id, FindAllById(dto.slotIds, db.slots));
      var db' := db.(events := db.events[id := e],
                     eventSlots := DropOwner(db.eventSlots, id) + links);
      Ok((db', ToResponseDto(id, e, dto.slotIds)))
  }

  /** `deleteEvent`: its slot links, then (with it) its years and faculties,
      then the event. */
  function DeleteEvent(db: EventDb, id: Id): (r: Result<EventDb>)
    ensures r.Ok? <==> id in db.events
    ensures r.Err? ==> r.error == NotFound(EventEntity)
    ensures r.Ok? ==> r.value.events == db.events - {id}
    ensures r.Ok? ==> Targets(r.value.eventSlots, id) == []
    ensures r.Ok? ==> forall x :: x in db.eventSlots && x.owner != id ==> x in r.value.eventSlots
    ensures r.Ok? ==> forall x :: x in r.value.eventSlots ==> x in db.eventSlots && x.owner != id
    ensures r.Ok? ==> r.value.(events := db.events, eventSlots := db.eventSlots) == db
  {
    if id !in db.events then Err(NotFound(EventEntity))
    else
      TargetsOfDrop(db.eventSlots, id, id);
      Ok(db.(eventSlots := DropOwner(db.eventSlots, id), events := db.events - {id}))
  }

  /** `anyMatch(x -> wanted.contains(x))`. */
  function AnyIn<T(==)>(xs: seq<T>, wanted: seq<T>): (r: bool)
    ensures r <==> exists i :: 0 <= i < |xs| && xs[i] in wanted
  {
    if xs == [] then false
    else if xs[0] in wanted then true
    else
      var r := AnyIn(xs[1..], wanted);
      assert (exists i :: 0 <= i < |xs| && xs[i] in wanted) ==> r by {
        if exists i :: 0 <= i < |xs| && xs[i] in wanted {
          var i :| 0 <= i < |xs| && xs[i] in wanted;
          assert i > 0 && xs[1..][i - 1] == xs[i];
        }
      }
      assert r ==> exists i :: 0 <= i < |xs| && xs[i] in wanted by {
        if r {
          var i :| 0 <= i < |xs[1..]| && xs[1..][i] in wanted;
          assert xs[i + 1] == xs[1..][i];
        }
      }
      r
  }

  /** The conflict filter of `getEventsByFacultiesAndYears`. */
  predicate TargetsOverlap(e: Event, faculties: seq<Faculty>, years: seq<Year>) {
    AnyIn(e.targetFaculties, faculties) && AnyIn(e.targetYears, years)
  }

  /** `getEventsByFacultiesAndYears`, keyed by event id. */
  function GetEventsByFacultiesAndYears(db: EventDb, faculties: seq<Faculty>, years: seq<Year>): (r: map<Id, EventResponse>)
    ensures forall id :: id in r <==> (id in db.events
      && (exists f :: f in db.events[id].targetFaculties && f in faculties)
      && (exists y :: y in db.events[id].targetYears && y in years))
    ensures forall id :: id in r ==> r[id].id == id && r[id].slotIds == Targets(db.eventSlots, id)
  {
    map id | id in db.events && TargetsOverlap(db.events[id], faculties, years)
      :: ToResponseDto(id, db.events[id], Targets(db.eventSlots, id))
  }

  /** `getEventById`: the event with the slot ids of its links, in link
      order. */
  function GetEventById(db: EventDb, id: Id): (r: Result<EventResponse>)
    ensures r.Ok? <==> id in db.events
    ensures r.Err? ==> r.error == NotFound(EventEntity)
    ensures r.Ok? ==> r.value.id == id && r.value.clubId == db.events[id].club
    ensures r.Ok? ==> r.value.slotIds == Targets(db.eventSlots, id)
  {
    if id !in db.events then Err(NotFound(EventEntity))
    else Ok(ToResponseDto(id, db.events[id], Targets(db.eventSlots, id)))
  }

  /** `getAllEvents`, keyed by event id. */
  function GetAllEvents(db: EventDb): (r: map<Id, EventResponse>)
    ensures r.Keys == db.events.Keys
    ensures forall id :: id in r ==> Ok(r[id]) == GetEventById(db, id)
  {
    map id | id in db.events :: ToResponseDto(id, db.events[id], Targets(db.eventSlots, id))
  }

  // ---------------------------------------------------------------------
  // Featured flag

  /** `featureEvent`, stamped at `now`. */
  function FeatureEvent(db: EventDb, event: Id, now: Instant): (r: Result<EventDb>)
    ensures event !in db.events ==> r == Err(NotFound(EventEntity))
    ensures event in db.events && event in db.featured ==> r == Err(AlreadyFeatured)
    ensures r.Ok? <==> event in db.events && event !in db.featured
    ensures r.Ok? ==> r.value == db.(featured := db.featured[event := now])
  {
    if event !in db.events then Err(NotFound(EventEntity))
    else if event in db.featured then Err(AlreadyFeatured)
    else Ok(db.(featured := db.featured[event := now]))
  }

  /** `unfeatureEvent`: checks only the featured table. */
  function UnfeatureEvent(db: EventDb, event: Id): (r: Result<EventDb>)
    ensures r.Ok? <==> event in db.featured
    ensures r.Err? ==> r.error == NotFeatured
    ensures r.Ok? ==> r.value == db.(featured := db.featured - {event})
  {
    if event !in db.featured then Err(NotFeatured)
    else Ok(db.(featured := db.featured - {event}))
  }

  // ---------------------------------------------------------------------
  // Properties

  /** The invariant the service keeps: slot links name stored events and
      stored slots, and each (event, user) pair has at most one record. */
  predicate Consistent(db: EventDb) {
    && (forall x :: x in db.eventSlots ==> x.owner in db.events && x.target in db.slots)
    && UniquePairs(db.attendance)
  }

  lemma {:induction false} CountStatusAppend(rows: seq<Attendance>, a: Attendance, event: Id, status: AttendanceStatus)
    ensures CountStatus(rows + [a], event, status)
      == CountStatus(rows, event, status) + (if a.event == event && a.status == status then 1 else 0)
  {
    assert (rows + [a])[..|rows|] == rows;
  }

  /** The users holding a record with that status for the event. */
  ghost function Attendees(rows: seq<Attendance>, event: Id, status: AttendanceStatus): set<Id> {
    set a | a in rows && a.event == event && a.status == status :: a.user
  }

  /** Dropping the last row keeps the pairs unique, and the last row's pair
      appears nowhere before it. */
  lemma UniquePairsInit(rows: seq<Attendance>)
    requires UniquePairs(rows) && rows != []
    ensures UniquePairs(rows[..|rows| - 1])
    ensures !HasRecord(rows[..|rows| - 1], rows[|rows| - 1].event, rows[|rows| - 1].user)
  {
    var init := rows[..|rows| - 1];
    forall i, j | 0 <= i < j < |init|
      ensures !IsRecordOf(init[j], init[i].event, init[i].user)
    {
      assert init[i] == rows[i] && init[j] == rows[j];
    }
    forall i | 0 <= i < |init|
      ensures !IsRecordOf(init[i], rows[|rows| - 1].event, rows[|rows| - 1].user)
    {
      assert init[i] == rows[i];
    }
  }

  lemma AttendeesSnoc(init: seq<Attendance>, last: Attendance, event: Id, status: AttendanceStatus)
    ensures Attendees(init + [last], event, status)
      == Attendees(init, event, status) + (if last.event == event && last.status == status then {last.user} else {})
  {
  }

  /** A user without a record for the event is not among its attendees. */
  lemma NotAttendee(rows: seq<Attendance>, event: Id, user: Id, status: AttendanceStatus)
    requires !HasRecord(rows, event, user)
    ensures user !in Attendees(rows, event, status)
  {
  }

  /** With one record per pair, the count is the number of distinct users
      holding that status for the event. */
  lemma {:induction false} CountStatusIsAttendees(rows: seq<Attendance>, event: Id, status: AttendanceStatus)
    requires UniquePairs(rows)
    ensures CountStatus(rows, event, status) == |Attendees(rows, event, status)|
  {
    if rows != [] {
      var init := rows[..|rows| - 1];
      var last := rows[|rows| - 1];
      UniquePairsInit(rows);
      CountStatusIsAttendees(init, event, status);
      assert rows == init + [last];
      AttendeesSnoc(init, last, event, status);
      if last.event == event {
        NotAttendee(init, event, last.user, status);
      }
    }
  }

  /** In a consistent database the going and interested counts are the
      numbers of distinct users who marked the event so. */
  lemma CountAttendanceIsAttendees(db: EventDb, event: Id, status: AttendanceStatus)
    requires Consistent(db)
    requires event in db.events
    ensures CountAttendance(db, event, status) == Ok(|Attendees(db.attendance, event, status)|)
  {
    CountStatusIsAttendees(db.attendance, event, status);
  }

  /** A successful mark adds one to its own status's count for the event and
      leaves every other count alone. */
  lemma MarkAttendanceCounts(db: EventDb, event: Id, user: Id, status: AttendanceStatus, e: Id, s: AttendanceStatus)
    requires MarkAttendance(db, event, user, status).Ok?
    ensures var db' := MarkAttendance(db, event, user, status).value;
      CountStatus(db'.attendance, e, s)
        == CountStatus(db.attendance, e, s) + (if e == event && s == status then 1 else 0)
  {
    CountStatusAppend(db.attendance, Attendance(event, user, status), e, s);
  }

  /** Marking the same pair twice fails the second time. */
  lemma MarkTwiceFails(db: EventDb, event: Id, user: Id, s1: AttendanceStatus, s2: AttendanceStatus)
    requires MarkAttendance(db, event, user, s1).Ok?
    ensures MarkAttendance(MarkAttendance(db, event, user, s1).value, event, user, s2) == Err(AttendanceExists)
  {
    var rows := MarkAttendance(db, event, user, s1).value.attendance;
    assert IsRecordOf(rows[|rows| - 1], event, user);
  }

  /** A pair without a record is untouched by deletion. */
  lemma {:induction false} DeleteRecordAbsent(rows: seq<Attendance>, event: Id, user: Id)
    requires !HasRecord(rows, event, user)
    ensures DeleteRecord(rows, event, user) == rows
  {
    if rows != [] {
      var init := rows[..|rows| - 1];
      assert !IsRecordOf(rows[|rows| - 1], event, user);
      assert !HasRecord(init, event, user) by {
        forall i | 0 <= i < |init|
          ensures !IsRecordOf(init[i], event, user)
        {
          assert rows[i] == init[i];
        }
      }
      DeleteRecordAbsent(init, event, user);
    }
  }

  /** Removal is idempotent. */
  lemma RemoveAttendanceIdempotent(db: EventDb, event: Id, user: Id)
    requires RemoveAttendance(db, event, user).Ok?
    ensures var once := RemoveAttendance(db, event, user).value;
      RemoveAttendance(once, event, user) == Ok(once)
  {
    var once := RemoveAttendance(db, event, user).value;
    DeleteRecordAbsent(once.attendance, event, user);
  }

  /** Marking and then removing the same pair restores the original state. */
  lemma MarkThenRemoveRestores(db: EventDb, event: Id, user: Id, status: AttendanceStatus)
    requires MarkAttendance(db, event, user, status).Ok?
    ensures RemoveAttendance(MarkAttendance(db, event, user, status).value, event, user) == Ok(db)
  {
    var a := Attendance(event, user, status);
    var rows := db.attendance + [a];
    assert rows[..|rows| - 1] == db.attendance;
    DeleteRecordAbsent(db.attendance, event, user);
  }

  /** After removal an update of the same pair fails as not found. */
  lemma UpdateAfterRemoveFails(db: EventDb, event: Id, user: Id, status: AttendanceStatus)
    requires RemoveAttendance(db, event, user).Ok?
    ensures UpdateAttendanceStatus(RemoveAttendance(db, event, user).value, event, user, status)
      == Err(NotFound(AttendanceEntity))
  {
  }

  /** With unique pairs, an update moves the one record of the pair from its
      prev status's count to the new status's count. */
  lemma {:induction false} SetStatusCounts(rows: seq<Attendance>, event: Id, user: Id, prev: AttendanceStatus,
                                           status: AttendanceStatus, s: AttendanceStatus)
    requires UniquePairs(rows)
    requires Attendance(event, user, prev) in rows
    ensures CountStatus(SetStatus(rows, event, user, status), event, s)
      == CountStatus(rows, event, s) - (if s == prev then 1 else 0) + (if s == status then 1 else 0)
  {
    var init := rows[..|rows| - 1];
    var last := rows[|rows| - 1];
    var r := SetStatus(rows, event, user, status);
    assert rows == init + [last];
    assert r == SetStatus(init, event, user, status) + [r[|r| - 1]];
    CountStatusAppend(SetStatus(init, event, user, status), r[|r| - 1], event, s);
    CountStatusAppend(init, last, event, s);
    UniqueSplit(rows);
    if last == Attendance(event, user, prev) {
      SetStatusAbsent(init, event, user, status);
    } else {
      var k :| 0 <= k < |rows| && rows[k] == Attendance(event, user, prev);
      assert k < |rows| - 1 && init[k] == rows[k];
      SetStatusCounts(init, event, user, prev, status, s);
    }
  }

  /** In a list with unique pairs the last record's pair occurs nowhere
      before it, and the rows before it have unique pairs too. */
  lemma UniqueSplit(rows: seq<Attendance>)
    requires UniquePairs(rows) && rows != []
    ensures var init := rows[..|rows| - 1];
      && UniquePairs(init)
      && !HasRecord(init, rows[|rows| - 1].event, rows[|rows| - 1].user)
  {
    var init := rows[..|rows| - 1];
    var last := rows[|rows| - 1];
    forall i, j | 0 <= i < j < |init|
      ensures !IsRecordOf(init[j], init[i].event, init[i].user)
    {
      assert init[i] == rows[i] && init[j] == rows[j];
    }
    forall i | 0 <= i < |init|
      ensures !IsRecordOf(init[i], last.event, last.user)
    {
      assert init[i] == rows[i];
      assert !IsRecordOf(last, rows[i].event, rows[i].user);
    }
  }

  lemma SetStatusAbsent(rows: seq<Attendance>, event: Id, user: Id, status: AttendanceStatus)
    requires !HasRecord(rows, event, user)
    ensures SetStatus(rows, event, user, status) == rows
  {
  }

  /** A successful status update moves one record between the two counts. */
  lemma UpdateAttendanceCounts(db: EventDb, event: Id, user: Id, status: AttendanceStatus, s: AttendanceStatus)
    requires Consistent(db)
    requires UpdateAttendanceStatus(db, event, user, status).Ok?
    ensures var prev := FindRecord(db.attendance, event, user).value;
      var db' := UpdateAttendanceStatus(db, event, user, status).value;
      CountStatus(db'.attendance, event, s)
        == CountStatus(db.attendance, event, s) - (if s == prev then 1 else 0) + (if s == status then 1 else 0)
  {
    var prev := FindRecord(db.attendance, event, user).value;
    SetStatusCounts(db.attendance, event, user, prev, status, s);
  }

  /** Every attendance operation keeps each pair's record unique. */
  lemma AttendancePreservesConsistent(db: EventDb, event: Id, user: Id, status: AttendanceStatus)
    requires Consistent(db)
    ensures MarkAttendance(db, event, user, status).Ok? ==>
      Consistent(MarkAttendance(db, event, user, status).value)
    ensures UpdateAttendanceStatus(db, event, user, status).Ok? ==>
      Consistent(UpdateAttendanceStatus(db, event, user, status).value)
    ensures RemoveAttendance(db, event, user).Ok? ==>
      Consistent(RemoveAttendance(db, event, user).value)
  {
    if MarkAttendance(db, event, user, status).Ok? {
      var rows := db.attendance + [Attendance(event, user, status)];
      forall i, j | 0 <= i < j < |rows|
        ensures !IsRecordOf(rows[j], rows[i].event, rows[i].user)
      {
        if j == |rows| - 1 {
          assert rows[i] == db.attendance[i];
        } else {
          assert rows[i] == db.attendance[i] && rows[j] == db.attendance[j];
        }
      }
    }
    if RemoveAttendance(db, event, user).Ok? {
      DeleteKeepsUnique(db.attendance, event, user);
    }
  }

  lemma {:induction false} DeleteKeepsUnique(rows: seq<Attendance>, event: Id, user: Id)
    requires UniquePairs(rows)
    ensures UniquePairs(DeleteRecord(rows, event, user))
  {
    if rows != [] {
      var init := rows[..|rows| - 1];
      var last := rows[|rows| - 1];
      assert UniquePairs(init) by {
        forall i, j | 0 <= i < j < |init|
          ensures !IsRecordOf(init[j], init[i].event, init[i].user)
        {
          assert init[i] == rows[i] && init[j] == rows[j];
        }
      }
      DeleteKeepsUnique(init, event, user);
      var rest := DeleteRecord(init, event, user);
      if !IsRecordOf(last, event, user) {
        var r := rest + [last];
        forall i, j | 0 <= i < j < |r|
          ensures !IsRecordOf(r[j], r[i].event, r[i].user)
        {
          if j == |r| - 1 {
            assert r[i] in init;
            var k :| 0 <= k < |init| && init[k] == r[i];
            assert rows[k] == init[k];
          } else {
            assert r[i] == rest[i] && r[j] == rest[j];
          }
        }
      }
    }
  }

  /** `updateEvent` replaces the event's target years, target faculties and
      slot links wholesale (linking only stored slot ids), and leaves every
      other event's slot links as they were. */
  lemma UpdateEventReplacesAssociations(db: EventDb, id: Id, dto: EventUpdate, other: Id)
    requires UpdateEvent(db, id, dto).Ok?
    ensures var db' := UpdateEvent(db, id, dto).value.0;
      && db'.events[id].targetYears == dto.targetYears
      && db'.events[id].targetFaculties == dto.targetFaculties
      && Targets(db'.eventSlots, id) == FindAllById(dto.slotIds, db.slots)
      && (other != id ==> Targets(db'.eventSlots, other) == Targets(db.eventSlots, other))
      && (other != id && other in db.events ==> db'.events[other] == db.events[other])
  {
    ReplaceTargets(db.eventSlots, id, FindAllById(dto.slotIds, db.slots), other);
    ReplaceTargets(db.eventSlots, id, FindAllById(dto.slotIds, db.slots), id);
  }

  /** A created event targets exactly the requested years and faculties, is
      linked to exactly the stored slots among those requested, and leaves the
      links of the events already stored unchanged. */
  lemma CreateEventAssociations(db: EventDb, dto: EventRequest, id: Id, now: Instant, other: Id)
    requires Consistent(db)
    requires id !in db.events
    requires CreateEvent(db, dto, id, now).Ok?
    ensures var db' := CreateEvent(db, dto, id, now).value.0;
      && db'.events[id].targetYears == dto.targetYears
      && db'.events[id].targetFaculties == dto.targetFaculties
      && db'.events[id].createdAt == Some(now)
      && Targets(db'.eventSlots, id) == FindAllById(dto.slotIds, db.slots)
      && (other != id ==> Targets(db'.eventSlots, other) == Targets(db.eventSlots, other))
  {
    AddTargets(db.eventSlots, id, FindAllById(dto.slotIds, db.slots), other);
    AddTargets(db.eventSlots, id, FindAllById(dto.slotIds, db.slots), id);
  }

  /** Creating, updating and deleting events keep the invariant. */
  lemma EventWritesPreserveConsistent(db: EventDb, dto: EventRequest, upd: EventUpdate, id: Id, now: Instant)
    requires Consistent(db)
    ensures id !in db.events && CreateEvent(db, dto, id, now).Ok? ==>
      Consistent(CreateEvent(db, dto, id, now).value.0)
    ensures UpdateEvent(db, id, upd).Ok? ==> Consistent(UpdateEvent(db, id, upd).value.0)
    ensures DeleteEvent(db, id).Ok? ==> Consistent(DeleteEvent(db, id).value)
  {
  }

  /** A venue id that names no stored venue leaves the created or updated
      event without a venue, keeping the free-text venue name instead. */
  lemma UnknownVenueDropped(db: EventDb, dto: EventRequest, upd: EventUpdate, id: Id, now: Instant)
    ensures (dto.venueId.Some? && dto.venueId.value !in db.venues
             && id !in db.events && CreateEvent(db, dto, id, now).Ok?) ==>
      var e := CreateEvent(db, dto, id, now).value.0.events[id];
      e.venue.None? && e.venueName == dto.venueName
    ensures upd.venueId.Some? && upd.venueId.value !in db.venues && UpdateEvent(db, id, upd).Ok? ==>
      var e := UpdateEvent(db, id, upd).value.0.events[id];
      e.venue.None? && e.venueName == upd.venueName
  {
  }

  /** `doAllSlotsExist` rejects a list that names one slot twice. */
  lemma RepeatedSlotRejected(db: EventDb, slotIds: seq<Id>, i: nat, j: nat)
    requires i < j < |slotIds| && slotIds[i] == slotIds[j]
    ensures !DoAllSlotsExist(db, slotIds)
  {
  }

  /** The audience query returns the events `getAllEvents` lists, unchanged,
      restricted to those whose target faculties and years both meet the
      query. */
  lemma AudienceQueryRestrictsAll(db: EventDb, faculties: seq<Faculty>, years: seq<Year>)
    ensures var q := GetEventsByFacultiesAndYears(db, faculties, years);
      && q.Keys <= GetAllEvents(db).Keys
      && (forall id :: id in q ==> q[id] == GetAllEvents(db)[id])
      && (forall id :: id in GetAllEvents(db) ==>
            (id in q <==> TargetsOverlap(db.events[id], faculties, years)))
  {
  }

  /** Reading a created event back lists the stored slots among those
      requested, which differs from the echo `createEvent` returns when the
      request names an unknown or repeated slot id. */
  lemma CreateThenGet(db: EventDb, dto: EventRequest, id: Id, now: Instant)
    requires Consistent(db)
    requires id !in db.events
    requires CreateEvent(db, dto, id, now).Ok?
    ensures var (db', echo) := CreateEvent(db, dto, id, now).value;
      && GetEventById(db', id).Ok?
      && GetEventById(db', id).value.slotIds == FindAllById(dto.slotIds, db.slots)
      && echo.slotIds == dto.slotIds
  {
    CreateEventAssociations(db, dto, id, now, id);
  }

  /** An empty faculty or year query matches nothing. */
  lemma EmptyQueryMatchesNothing(db: EventDb, faculties: seq<Faculty>, years: seq<Year>)
    requires faculties == [] || years == []
    ensures GetEventsByFacultiesAndYears(db, faculties, years) == map[]
  {
  }

  /** Featuring then unfeaturing an unfeatured event restores the state, and
      featuring twice fails the second time. */
  lemma FeatureRoundTrip(db: EventDb, event: Id, now: Instant, later: Instant)
    requires FeatureEvent(db, event, now).Ok?
    ensures UnfeatureEvent(FeatureEvent(db, event, now).value, event) == Ok(db)
    ensures FeatureEvent(FeatureEvent(db, event, now).value, event, later) == Err(AlreadyFeatured)
  {
    assert db.featured[event := now] - {event} == db.featured;
  }
}

=== FILE: lecturer_management.dfy ===
/** The academic admin's lecturer page: a searchable table and one form
    used both to add a lecturer and to edit one, whose e-mail field shows
    only the part before the staff domain. */
module LecturerManagement {
  import opened Wrappers
  import opened Strings
  import opened Seqs

  /** The staff domain the e-mail field appends. */
  const Suffix: string := "@ucsc.cmb.ac.lk"

  /** A lecturer as the form holds it. `id` is `None` for the blank form's
      `''` and the server's number otherwise. */
  datatype Lecturer = Lecturer(
    id: Option<nat>,
    name: string,
    code: string,
    email: string,
    degree: string,
    faculty: string,
    rank: string)

  /** The page's state: the fetched list, the search box, whether the form
      is open, `editingLecturer` (`null` is `None`) and `formData`. */
  datatype Screen = Screen(
    lecturers: seq<Lecturer>,
    query: string,
    showAddForm: bool,
    editing: Option<nat>,
    form: Lecturer)

  /** What submitting the form sends. */
  datatype Request = Put(id: nat, data: Lecturer) | Post(data: Lecturer)

  /** The form `handleAddLecturer` opens: every text empty, the faculty
      `UCSC` and the rank `LECTURER`. */
  const BlankForm := Lecturer(None, "", "", "", "", "UCSC", "LECTURER")

  // ---------------------------------------------------------------------
  // The e-mail field

  /** `s` ends with `t`. */
  predicate EndsWith(s: string, t: string) {
    |t| <= |s| && s[|s| - |t|..] == t
  }

  /** The field's value: the stored address with its first occurrence of
      the domain removed. */
  function DisplayEmail(stored: string): (r: string)
    ensures !Includes(stored, Suffix) ==> r == stored
    ensures Includes(stored, Suffix) ==> |r| == |stored| - |Suffix|
  {
    RemoveFirst(stored, Suffix)
  }

  /** The field's `onChange`: drop the first occurrence of the domain from
      what was typed, then append the domain. Nothing else in the form
      changes. */
  function ChangeEmail(form: Lecturer, typed: string): (r: Lecturer)
    ensures r.(email := form.email) == form
    ensures EndsWith(r.email, Suffix)
    ensures r.email[..|r.email| - |Suffix|] == RemoveFirst(typed, Suffix)
  {
    form.(email := RemoveFirst(typed, Suffix) + Suffix)
  }

  /** The domain's `@` is its only `@`. */
  lemma SuffixAtOnlyFirst()
    ensures Suffix[0] == '@'
    ensures forall k :: 0 < k < |Suffix| ==> Suffix[k] != '@'
  {
  }

  /** The first occurrence of the domain in `u + Suffix + w` is the one
      right after `u` when `u` has none: no occurrence can start inside
      `u` and run into the appended domain, whose `@` comes first. */
  lemma FirstSuffixAfter(u: string, w: string)
    requires !Includes(u, Suffix)
    ensures IndexOf(u + Suffix + w, Suffix) == Some(|u|)
  {
    var s := u + Suffix + w;
    SuffixAtOnlyFirst();
    assert s[|u|..|u| + |Suffix|] == Suffix;
    assert OccursAt(s, Suffix, |u|);
    forall j | 0 <= j < |u|
      ensures !OccursAt(s, Suffix, j)
    {
      if j + |Suffix| <= |u| {
        assert s[j..j + |Suffix|] == u[j..j + |Suffix|];
        assert !OccursAt(u, Suffix, j);
      } else {
        var k := |u| - j;
        assert s[|u|] == '@';
        assert j + |Suffix| <= |s| ==> s[j..j + |Suffix|][k] == '@';
      }
    }
  }

  /** Re-entering the text the field shows keeps a stored address whose
      part before the domain does not itself contain the domain, and the
      field shows exactly that part. */
  lemma RetypingDisplayKeepsEmail(form: Lecturer, u: string)
    requires !Includes(u, Suffix)
    ensures DisplayEmail(u + Suffix) == u
    ensures var f := form.(email := u + Suffix);
      ChangeEmail(f, DisplayEmail(f.email)) == f
  {
    FirstSuffixAfter(u, []);
    assert u + Suffix + [] == u + Suffix;
    var s := u + Suffix;
    assert s[..|u|] == u && s[|u| + |Suffix|..] == [];
  }

  /** After an edit whose text keeps at most one copy of the domain, the
      field shows what was typed without it, and typing that back changes
      nothing. */
  lemma EditIsStable(form: Lecturer, typed: string)
    requires !Includes(RemoveFirst(typed, Suffix), Suffix)
    ensures var f := ChangeEmail(form, typed);
      && DisplayEmail(f.email) == RemoveFirst(typed, Suffix)
      && ChangeEmail(f, DisplayEmail(f.email)) == f
  {
    RetypingDisplayKeepsEmail(form, RemoveFirst(typed, Suffix));
  }

  /** The condition is needed: typing the domain twice stores it twice, the
      field then shows one copy, and typing that back drops the other. */
  lemma DoubleSuffixDrifts(form: Lecturer)
    ensures var f := ChangeEmail(form, "a" + Suffix + Suffix);
      && f.email == "a" + Suffix + Suffix
      && DisplayEmail(f.email) == "a" + Suffix
      && ChangeEmail(f, DisplayEmail(f.email)).email == "a" + Suffix
  {
    var a := "a";
    assert IndexOf(a, Suffix) == None by {
      assert forall j :: 0 <= j <= |a| ==> !OccursAt(a, Suffix, j);
    }
    FirstSuffixAfter(a, Suffix);
    var typed := a + Suffix + Suffix;
    assert typed[..1] == a && typed[1 + |Suffix|..] == Suffix;
    assert RemoveFirst(typed, Suffix) == a + Suffix;
    FirstSuffixAfter(a, Suffix + Suffix);
    assert a + Suffix + Suffix == a + Suffix + (Suffix + [] );
    var stored := a + Suffix + Suffix;
    assert DisplayEmail(stored) == a + Suffix;
    FirstSuffixAfter(a, []);
    assert a + Suffix + [] == a + Suffix;
    var shown := a + Suffix;
    assert shown[..1] == a && shown[1 + |Suffix|..] == [];
    assert RemoveFirst(shown, Suffix) == a;
  }

  // ---------------------------------------------------------------------
  // Searching

  /** The lecturer's name, e-mail, code or degree contains the query, both
      lowered. */
  predicate Matches(l: Lecturer, query: string) {
    || IncludesIgnoreCase(l.name, query)
    || IncludesIgnoreCase(l.email, query)
    || IncludesIgnoreCase(l.code, query)
    || IncludesIgnoreCase(l.degree, query)
  }

  /** `filteredLecturers`: the matching lecturers, in the fetched order. */
  function FilteredLecturers(s: Screen): (r: seq<Lecturer>)
    ensures |r| <= |s.lecturers|
    ensures forall l :: l in r <==> l in s.lecturers && Matches(l, s.query)
  {
    Filter(s.lecturers, l => Matches(l, s.query))
  }

  /** An empty search box lists every lecturer, in order. */
  lemma EmptyQueryListsAll(s: Screen)
    requires s.query == []
    ensures FilteredLecturers(s) == s.lecturers
  {
    forall x: string
      ensures Includes(ToLower(x), [])
    {
      assert OccursAt(ToLower(x), [], 0);
    }
    FilterKeepsAll(s.lecturers, l => Matches(l, s.query));
  }

  lemma LowerCharIdempotent(c: char)
    ensures LowerChar(LowerChar(c)) == LowerChar(c)
  {
  }

  /** Lowering twice is lowering once. */
  lemma ToLowerIdempotent(q: string)
    ensures ToLower(ToLower(q)) == ToLower(q)
  {
    forall i | 0 <= i < |q|
      ensures ToLower(ToLower(q))[i] == ToLower(q)[i]
    {
      LowerCharIdempotent(q[i]);
    }
  }

  /** The search ignores the query's case: a lowered query lists the same
      lecturers. */
  lemma SearchIgnoresCase(s: Screen)
    ensures FilteredLecturers(s.(query := ToLower(s.query))) == FilteredLecturers(s)
  {
    ToLowerIdempotent(s.query);
    FilterSameTest(s.lecturers, l => Matches(l, ToLower(s.query)), l => Matches(l, s.query));
  }

  // ---------------------------------------------------------------------
  // The form

  /** `handleAddLecturer`: open a blank form for a new lecturer. */
  function HandleAddLecturer(s: Screen): (r: Screen)
    ensures r.lecturers == s.lecturers && r.query == s.query
    ensures r.showAddForm && r.editing.None?
    ensures r.form.id.None? && r.form.name == [] && r.form.code == []
    ensures r.form.email == [] && r.form.degree == []
    ensures r.form.faculty == "UCSC" && r.form.rank == "LECTURER"
  {
    s.(showAddForm := true, editing := None, form := BlankForm)
  }

  /** `handleEditLecturer`: open the form on a copy of the lecturer and
      remember its id. */
  function HandleEditLecturer(s: Screen, l: Lecturer): (r: Screen)
    ensures r.lecturers == s.lecturers && r.query == s.query
    ensures r.showAddForm && r.form == l && r.editing == l.id
  {
    s.(editing := l.id, form := l, showAddForm := true)
  }

  /** `handleSubmit`: a `PUT` to the remembered id when there is one, a
      `POST` otherwise. JavaScript's truth test treats an id of 0 as no id.
      `accepted` is the server's answer to the awaited request: only when
      it resolves does the form close; a rejection throws before the two
      state updates, so the screen stays as it was. */
  function HandleSubmit(s: Screen, accepted: bool): (r: (Request, Screen))
    ensures r.0.data == s.form
    ensures r.0.Put? <==> s.editing.Some? && s.editing.value != 0
    ensures r.0.Put? ==> r.0.id == s.editing.value
    ensures accepted ==> !r.1.showAddForm && r.1.editing.None?
    ensures accepted ==> r.1.lecturers == s.lecturers && r.1.query == s.query && r.1.form == s.form
    ensures !accepted ==> r.1 == s
  {
    var request := if s.editing.Some? && s.editing.value != 0 then Put(s.editing.value, s.form) else Post(s.form);
    if accepted then (request, s.(showAddForm := false, editing := None)) else (request, s)
  }

  /** `handleCancel`: close the form and forget the id; the form data stays
      until the next add or edit replaces it. */
  function HandleCancel(s: Screen): (r: Screen)
    ensures !r.showAddForm && r.editing.None?
    ensures r.lecturers == s.lecturers && r.query == s.query && r.form == s.form
  {
    s.(showAddForm := false, editing := None)
  }

  // ---------------------------------------------------------------------
  // Properties

  /** Editing a stored lecturer and submitting without changes sends that
      lecturer back to its own id. */
  lemma EditThenSubmitUpdates(s: Screen, l: Lecturer, n: nat)
    requires l.id == Some(n) && n > 0
    ensures HandleSubmit(HandleEditLecturer(s, l), true).0 == Put(n, l)
  {
  }

  /** Adding always creates, whatever was being edited before. */
  lemma AddThenSubmitCreates(s: Screen, l: Lecturer)
    ensures HandleSubmit(HandleAddLecturer(HandleEditLecturer(s, l)), true).0 == Post(BlankForm)
    ensures HandleSubmit(HandleAddLecturer(s), true).0 == Post(BlankForm)
  {
  }

  /** A rejected submission can be retried: the same request goes out
      again, and once the server accepts it the form closes exactly as a
      first-time success would have. */
  lemma RejectedSubmitRetries(s: Screen)
    ensures HandleSubmit(HandleSubmit(s, false).1, false) == HandleSubmit(s, false)
    ensures HandleSubmit(HandleSubmit(s, false).1, true) == HandleSubmit(s, true)
  {
  }

  /** Typing a username into a blank form gives a staff address. */
  lemma BlankFormUsername(u: string)
    requires !Includes(u, Suffix)
    ensures ChangeEmail(BlankForm, u).email == u + Suffix
    ensures DisplayEmail(ChangeEmail(BlankForm, u).email) == u
  {
    RetypingDisplayKeepsEmail(BlankForm, u);
  }
}

=== FILE: post_service.dfy ===
/** `PostServiceImpl`: club posts with their ordered media paths, and the
    per-(post, user) likes. */
module PostService {
  import opened Wrappers
  import opened Entities
  import opened Repository

  /** A `post` row. */
  datatype Post = Post(club: Id, description: string)

  /** `PostResponseDto` without the creation stamp and event link, which the
      model does not carry. */
  datatype PostResponse = PostResponse(id: Id, clubId: Id, description: string, mediaPaths: seq<string>)

  /** The repositories: posts by id, media rows (owner = post) in insertion
      order, and likes as (post, user) pairs, unique by the table's key. */
  datatype PostDb = PostDb(
    clubs: set<Id>,
    users: set<Id>,
    posts: map<Id, Post>,
    media: seq<Link<string>>,
    likes: set<(Id, Id)>)

  /** Media rows only belong to stored posts, and likes only to stored posts
      and users. */
  predicate Consistent(db: PostDb) {
    && (forall m :: m in db.media ==> m.owner in db.posts)
    && (forall l :: l in db.likes ==> l.0 in db.posts && l.1 in db.users)
  }

  /** `findAllByPost_Id`, projected on the path. */
  function MediaOf(db: PostDb, post: Id): seq<string> {
    Targets(db.media, post)
  }

  /** The likes on `post` (`countByPost` counts them). */
  function LikesOn(likes: set<(Id, Id)>, post: Id): set<(Id, Id)> {
    set l | l in likes && l.0 == post
  }

  /** `createPost`: the club must exist; the new post under the database
      identity `id` gets one media row per path, in order. */
  function CreatePost(db: PostDb, clubId: Id, description: string, paths: seq<string>, id: Id): (r: Result<PostDb>)
    requires id !in db.posts
    ensures r.Ok? <==> clubId in db.clubs
    ensures r.Err? ==> r.error == NotFound(ClubEntity)
    ensures r.Ok? ==>
      && r.value.posts == db.posts[id := Post(clubId, description)]
      && r.value.likes == db.likes
      && |db.media| <= |r.value.media| && r.value.media[..|db.media|] == db.media
  {
    if clubId !in db.clubs then Err(NotFound(ClubEntity))
    else Ok(db.(posts := db.posts[id := Post(clubId, description)], media := db.media + LinksFrom(id, paths)))
  }

  /** `likePost`: post, then user, then the pair must be new. */
  function LikePost(db: PostDb, post: Id, user: Id): (r: Result<PostDb>)
    ensures post !in db.posts ==> r == Err(NotFound(PostEntity))
    ensures post in db.posts && user !in db.users ==> r == Err(NotFound(UserEntity))
    ensures r.Ok? <==> post in db.posts && user in db.users && (post, user) !in db.likes
    ensures r.Ok? ==> r.value == db.(likes := db.likes + {(post, user)})
  {
    if post !in db.posts then Err(NotFound(PostEntity))
    else if user !in db.users then Err(NotFound(UserEntity))
    else if (post, user) in db.likes then Err(AlreadyLiked)
    else Ok(db.(likes := db.likes + {(post, user)}))
  }

  /** `unlikePost`: post, then user, then the pair must be liked; only that
      like goes. */
  function UnlikePost(db: PostDb, post: Id, user: Id): (r: Result<PostDb>)
    ensures post !in db.posts ==> r == Err(NotFound(PostEntity))
    ensures post in db.posts && user !in db.users ==> r == Err(NotFound(UserEntity))
    ensures r.Ok? <==> post in db.posts && user in db.users && (post, user) in db.likes
    ensures r.Ok? ==> r.value == db.(likes := db.likes - {(post, user)})
  {
    if post !in db.posts then Err(NotFound(PostEntity))
    else if user !in db.users then Err(NotFound(UserEntity))
    else if (post, user) !in db.likes then Err(NotFound(LikeEntity))
    else Ok(db.(likes := db.likes - {(post, user)}))
  }

  /** `getLikeCount`. */
  function LikeCount(db: PostDb, post: Id): (r: Result<nat>)
    ensures r.Ok? <==> post in db.posts
    ensures r.Err? ==> r.error == NotFound(PostEntity)
    ensures r.Ok? ==> r.value == |LikesOn(db.likes, post)|
  {
    if post !in db.posts then Err(NotFound(PostEntity)) else Ok(|LikesOn(db.likes, post)|)
  }

  /** `getPostById`: the post with its media paths in row order. */
  function GetPostById(db: PostDb, id: Id): (r: Result<PostResponse>)
    ensures r.Ok? <==> id in db.posts
    ensures r.Err? ==> r.error == NotFound(PostEntity)
    ensures r.Ok? ==>
      r.value.id == id && r.value.clubId == db.posts[id].club && r.value.description == db.posts[id].description
    ensures r.Ok? ==> forall p :: p in r.value.mediaPaths <==> Link(id, p) in db.media
  {
    if id !in db.posts then Err(NotFound(PostEntity))
    else Ok(PostResponse(id, db.posts[id].club, db.posts[id].description, MediaOf(db, id)))
  }

  /** `getAllPosts`, keyed by post id: each post as `getPostById` shows it. */
  function GetAllPosts(db: PostDb): (r: map<Id, PostResponse>)
    ensures r.Keys == db.posts.Keys
    ensures forall id :: id in r ==> Ok(r[id]) == GetPostById(db, id)
  {
    map id | id in db.posts :: PostResponse(id, db.posts[id].club, db.posts[id].description, MediaOf(db, id))
  }

  /** `getPostsByClubId`, keyed by post id (the newest-first order is not
      modelled): the club's posts, each as `getPostById` shows it. */
  function GetPostsByClubId(db: PostDb, club: Id): (r: map<Id, PostResponse>)
    ensures forall id :: id in r <==> id in db.posts && db.posts[id].club == club
    ensures forall id :: id in r ==> Ok(r[id]) == GetPostById(db, id)
  {
    map id | id in db.posts && db.posts[id].club == club
      :: PostResponse(id, club, db.posts[id].description, MediaOf(db, id))
  }

  /** `updatePost`: new description, and the media replaced wholesale. */
  function UpdatePost(db: PostDb, id: Id, description: string, paths: seq<string>): (r: Result<PostDb>)
    ensures r.Ok? <==> id in db.posts
    ensures r.Err? ==> r.error == NotFound(PostEntity)
    ensures r.Ok? ==>
      && r.value.posts == db.posts[id := db.posts[id].(description := description)]
      && r.value.likes == db.likes
  {
    if id !in db.posts then Err(NotFound(PostEntity))
    else Ok(db.(posts := db.posts[id := db.posts[id].(description := description)],
                media := DropOwner(db.media, id) + LinksFrom(id, paths)))
  }

  /** `deletePost`: the post's media rows, then the post; an unknown id is
      a no-op for both deletes. */
  function DeletePost(db: PostDb, id: Id): (r: PostDb)
    ensures r.posts == db.posts - {id}
    ensures r.likes == db.likes
    ensures forall m :: m in r.media <==> m in db.media && m.owner != id
  {
    db.(posts := db.posts - {id}, media := DropOwner(db.media, id))
  }

  // ---------------------------------------------------------------------
  // Properties

  /** A created post reads back with exactly the given paths, in order, and
      no other post's media changes. */
  lemma CreatePostMedia(db: PostDb, clubId: Id, description: string, paths: seq<string>, id: Id, other: Id)
    requires Consistent(db)
    requires id !in db.posts
    requires CreatePost(db, clubId, description, paths, id).Ok?
    ensures var db' := CreatePost(db, clubId, description, paths, id).value;
      && GetPostById(db', id) == Ok(PostResponse(id, clubId, description, paths))
      && (other != id ==> MediaOf(db', other) == MediaOf(db, other))
  {
    AddTargets(db.media, id, paths, id);
    AddTargets(db.media, id, paths, other);
  }

  /** After an update the post's media is exactly the new list, and no other
      post's media changes. */
  lemma UpdatePostMedia(db: PostDb, id: Id, description: string, paths: seq<string>, other: Id)
    requires UpdatePost(db, id, description, paths).Ok?
    ensures var db' := UpdatePost(db, id, description, paths).value;
      && GetPostById(db', id) == Ok(PostResponse(id, db.posts[id].club, description, paths))
      && (other != id ==> MediaOf(db', other) == MediaOf(db, other))
  {
    ReplaceTargets(db.media, id, paths, id);
    ReplaceTargets(db.media, id, paths, other);
  }

  /** Deleting a post leaves it no media, leaves every other post's media as
      it was, and makes the post unreadable. */
  lemma DeletePostMedia(db: PostDb, id: Id, other: Id)
    ensures MediaOf(DeletePost(db, id), id) == []
    ensures other != id ==> MediaOf(DeletePost(db, id), other) == MediaOf(db, other)
    ensures GetPostById(DeletePost(db, id), id) == Err(NotFound(PostEntity))
  {
    TargetsOfDrop(db.media, id, id);
    TargetsOfDrop(db.media, id, other);
  }

  /** A like adds one to its post's count and leaves other posts' counts;
      an unlike takes it back off, so like then unlike restores the state. */
  lemma LikeCounts(db: PostDb, post: Id, user: Id, other: Id)
    requires LikePost(db, post, user).Ok?
    ensures var db' := LikePost(db, post, user).value;
      && LikeCount(db', post) == Ok(|LikesOn(db.likes, post)| + 1)
      && (other != post ==> LikesOn(db'.likes, other) == LikesOn(db.likes, other))
      && UnlikePost(db', post, user) == Ok(db)
      && LikePost(db', post, user) == Err(AlreadyLiked)
  {
    var db' := LikePost(db, post, user).value;
    assert LikesOn(db'.likes, post) == LikesOn(db.likes, post) + {(post, user)};
    assert db.likes + {(post, user)} - {(post, user)} == db.likes;
  }

  /** An unlike takes one off its post's count. */
  lemma UnlikeCounts(db: PostDb, post: Id, user: Id)
    requires UnlikePost(db, post, user).Ok?
    ensures LikeCount(UnlikePost(db, post, user).value, post) == Ok(|LikesOn(db.likes, post)| - 1)
    ensures UnlikePost(UnlikePost(db, post, user).value, post, user) == Err(NotFound(LikeEntity))
  {
    var db' := UnlikePost(db, post, user).value;
    assert LikesOn(db.likes, post) == LikesOn(db'.likes, post) + {(post, user)};
  }

  /** The writes keep media and likes attached to stored rows, except that
      deleting a liked post is refused by the like table's foreign key, which
      the model leaves out; so `DeletePost` keeps it only for unliked posts. */
  lemma WritesPreserveConsistent(db: PostDb, clubId: Id, description: string, paths: seq<string>,
                                 id: Id, user: Id)
    requires Consistent(db)
    ensures id !in db.posts && CreatePost(db, clubId, description, paths, id).Ok? ==>
      Consistent(CreatePost(db, clubId, description, paths, id).value)
    ensures UpdatePost(db, id, description, paths).Ok? ==>
      Consistent(UpdatePost(db, id, description, paths).value)
    ensures LikePost(db, id, user).Ok? ==> Consistent(LikePost(db, id, user).value)
    ensures UnlikePost(db, id, user).Ok? ==> Consistent(UnlikePost(db, id, user).value)
    ensures LikesOn(db.likes, id) == {} ==> Consistent(DeletePost(db, id))
  {
    if LikesOn(db.likes, id) == {} {
      forall l | l in db.likes
        ensures l.0 != id
      {
        assert l !in LikesOn(db.likes, id);
      }
    }
  }

  /** A created post is listed under its club with exactly the given paths,
      and every club's listing is the part of `getAllPosts` with that club. */
  lemma CreatedPostListed(db: PostDb, clubId: Id, description: string, paths: seq<string>, id: Id, club: Id)
    requires Consistent(db)
    requires id !in db.posts
    requires CreatePost(db, clubId, description, paths, id).Ok?
    ensures var db' := CreatePost(db, clubId, description, paths, id).value;
      && id in GetPostsByClubId(db', clubId)
      && GetPostsByClubId(db', clubId)[id] == PostResponse(id, clubId, description, paths)
      && (forall p :: p in GetPostsByClubId(db', club) ==>
            p in GetAllPosts(db') && GetAllPosts(db')[p] == GetPostsByClubId(db', club)[p])
  {
    CreatePostMedia(db, clubId, description, paths, id, id);
  }
}

=== FILE: regexp.dfy ===
/** The fragment of ECMAScript regular expressions (ECMA-262 section 22.2)
    that the frontend validators use, as an anchored matcher. A pattern
    `^p1 p2 ... pn$` is a sequence of pieces; `test` succeeds when some way
    of giving each piece its share of the input makes every piece match,
    which is what the backtracking of section 22.2.2 computes for patterns
    without captures or back-references. The matcher reads characters
    (Unicode scalar values), where a pattern without the `u` flag reads
    UTF-16 code units. */
module RegExp {
  import opened Wrappers
  import opened Strings

  datatype Piece =
      /** A literal, escapes resolved (`\.` is `.`). */
    | Lit(text: string)
      /** `[class]{lo,hi}`, or `[class]{lo,}` when `hi` is `None`. */
    | Repeat(cls: char -> bool, lo: nat, hi: Option<nat>)
      /** `(?=.*[class])`: looking ahead without consuming, some character
          of the class follows a run of non-line-terminators. */
    | AheadSome(cls: char -> bool)

  /** Every character of `t` is in the class. */
  predicate AllIn(t: string, cls: char -> bool) {
    forall i :: 0 <= i < |t| ==> cls(t[i])
  }

  /** A prefix is in the class exactly when each of its positions is. */
  lemma AllInPrefix(s: string, a: nat, cls: char -> bool)
    requires a <= |s|
    ensures AllIn(s[..a], cls) <==> forall i :: 0 <= i < a ==> cls(s[i])
  {
    assert forall i :: 0 <= i < a ==> s[..a][i] == s[i];
  }

  /** `/^pattern$/.test(s)`. */
  predicate Test(pattern: seq<Piece>, s: string) {
    MatchFrom(pattern, s)
  }

  /** The pieces match the whole of `s`. */
  predicate MatchFrom(ps: seq<Piece>, s: string)
    decreases |ps|, 1, 0
  {
    if ps == [] then s == []
    else
      match ps[0]
      case Lit(t) => |t| <= |s| && s[..|t|] == t && MatchFrom(ps[1..], s[|t|..])
      case Repeat(cls, lo, hi) => RepeatFrom(cls, hi, ps[1..], s, lo)
      case AheadSome(cls) => DotStarThen(s, cls) && MatchFrom(ps[1..], s)
  }

  /** A repetition that has taken at least `k` characters: either it stops
      at `k` and the rest matches what follows, or it takes one more. */
  predicate RepeatFrom(cls: char -> bool, hi: Option<nat>, rest: seq<Piece>, s: string, k: nat)
    decreases |rest| + 1, 0, |s| - k
  {
    && k <= |s|
    && (hi.None? || k <= hi.value)
    && AllIn(s[..k], cls)
    && (MatchFrom(rest, s[k..]) || RepeatFrom(cls, hi, rest, s, k + 1))
  }

  /** `.*[class]` at the start of `s`: scan over characters that are not
      line terminators until one of the class is found. */
  predicate DotStarThen(s: string, cls: char -> bool) {
    |s| > 0 && (cls(s[0]) || (!IsLineTerminator(s[0]) && DotStarThen(s[1..], cls)))
  }

  // ---------------------------------------------------------------------
  // What the matcher means

  /** The scan finds a class member exactly when one occurs before any line
      terminator. */
  lemma {:induction false} DotStarThenMeaning(s: string, cls: char -> bool)
    ensures DotStarThen(s, cls) <==>
      exists j :: 0 <= j < |s| && cls(s[j]) && forall i :: 0 <= i < j ==> !IsLineTerminator(s[i])
  {
    if |s| > 0 {
      DotStarThenMeaning(s[1..], cls);
      if DotStarThen(s, cls) && !cls(s[0]) {
        var j :| 0 <= j < |s[1..]| && cls(s[1..][j]) && forall i :: 0 <= i < j ==> !IsLineTerminator(s[1..][i]);
        assert cls(s[j + 1]);
        forall i | 0 <= i < j + 1
          ensures !IsLineTerminator(s[i])
        {
          if i > 0 {
            assert s[i] == s[1..][i - 1];
          }
        }
      }
      if !DotStarThen(s, cls) {
        forall j | 0 <= j < |s| && cls(s[j])
          ensures exists i :: 0 <= i < j && IsLineTerminator(s[i])
        {
          assert j != 0;
          assert s[1..][j - 1] == s[j];
          if !IsLineTerminator(s[0]) {
            var i :| 0 <= i < j - 1 && IsLineTerminator(s[1..][i]);
            assert s[i + 1] == s[1..][i];
          } else {
            assert IsLineTerminator(s[0]);
          }
        }
      }
    }
  }

  /** On a string without line terminators the lookahead only asks that
      some character is in the class. */
  lemma AheadWithoutTerminators(s: string, cls: char -> bool)
    requires forall i :: 0 <= i < |s| ==> !IsLineTerminator(s[i])
    ensures DotStarThen(s, cls) <==> exists j :: 0 <= j < |s| && cls(s[j])
  {
    DotStarThenMeaning(s, cls);
  }

  /** A repetition that has taken `k` characters succeeds exactly when some
      count from `k` up to its bound leaves a suffix the rest matches. */
  lemma {:induction false} RepeatFromMeaning(cls: char -> bool, hi: Option<nat>, rest: seq<Piece>, s: string, k: nat)
    ensures RepeatFrom(cls, hi, rest, s, k) <==>
      exists j :: k <= j <= |s| && (hi.None? || j <= hi.value) && AllIn(s[..j], cls) && MatchFrom(rest, s[j..])
    decreases |s| - k
  {
    if k <= |s| && (hi.None? || k <= hi.value) && AllIn(s[..k], cls) {
      RepeatFromMeaning(cls, hi, rest, s, k + 1);
    } else {
      forall j | k <= j <= |s| && AllIn(s[..j], cls)
        ensures hi.Some? && j > hi.value
      {
        assert forall i :: 0 <= i < k ==> s[..k][i] == s[..j][i];
      }
    }
  }

  /** A literal first: the input starts with it and the rest matches the
      remainder. */
  lemma LitFirst(t: string, rest: seq<Piece>, s: string)
    ensures MatchFrom([Lit(t)] + rest, s) <==> |t| <= |s| && s[..|t|] == t && MatchFrom(rest, s[|t|..])
  {
    assert ([Lit(t)] + rest)[1..] == rest;
  }

  /** A repetition first: some allowed count leaves a suffix the rest
      matches. */
  lemma RepeatFirst(cls: char -> bool, lo: nat, hi: Option<nat>, rest: seq<Piece>, s: string)
    ensures MatchFrom([Repeat(cls, lo, hi)] + rest, s) <==>
      exists j :: lo <= j <= |s| && (hi.None? || j <= hi.value) && AllIn(s[..j], cls) && MatchFrom(rest, s[j..])
  {
    assert ([Repeat(cls, lo, hi)] + rest)[1..] == rest;
    RepeatFromMeaning(cls, hi, rest, s, lo);
  }

  /** A repetition of exactly `n`: the first `n` characters are in the
      class and the rest matches what follows them. */
  lemma ExactFirst(cls: char -> bool, n: nat, rest: seq<Piece>, s: string)
    ensures MatchFrom([Repeat(cls, n, Some(n))] + rest, s) <==>
      n <= |s| && AllIn(s[..n], cls) && MatchFrom(rest, s[n..])
  {
    RepeatFirst(cls, n, Some(n), rest, s);
  }

  /** A pattern that is one repetition accepts exactly the strings of the
      class with an allowed length. */
  lemma RepeatOnly(cls: char -> bool, lo: nat, hi: Option<nat>, s: string)
    ensures MatchFrom([Repeat(cls, lo, hi)], s) <==> lo <= |s| && (hi.None? || |s| <= hi.value) && AllIn(s, cls)
  {
    assert [Repeat(cls, lo, hi)] == [Repeat(cls, lo, hi)] + [];
    RepeatFirst(cls, lo, hi, [], s);
    if lo <= |s| && (hi.None? || |s| <= hi.value) && AllIn(s, cls) {
      assert s[..|s|] == s && s[|s|..] == [];
    }
  }

  /** A lookahead first: the whole input passes the lookahead and the rest
      matches all of it. */
  lemma AheadFirst(cls: char -> bool, rest: seq<Piece>, s: string)
    ensures MatchFrom([AheadSome(cls)] + rest, s) <==> DotStarThen(s, cls) && MatchFrom(rest, s)
  {
    assert ([AheadSome(cls)] + rest)[1..] == rest;
  }
}

=== FILE: repository.dfy ===
/** The Spring Data repository queries the services depend on, by their
    meaning over the stored ids. */
module Repository {
  import opened Entities

  predicate NoDuplicates<T(==)>(s: seq<T>) {
    forall i, j :: 0 <= i < j < |s| ==> s[i] != s[j]
  }

  function ToSet<T>(s: seq<T>): set<T> {
    set x | x in s
  }

  /** `findAllById(ids)`: every stored id that the list names, once, in the
      order of its first mention; unknown ids are dropped silently. */
  function FindAllById(ids: seq<Id>, stored: set<Id>): (r: seq<Id>)
    ensures forall x :: x in r <==> x in ids && x in stored
    ensures NoDuplicates(r)
    ensures |r| <= |ids|
  {
    if ids == [] then []
    else
      var prefix := FindAllById(ids[..|ids| - 1], stored);
      var last := ids[|ids| - 1];
      assert ids == ids[..|ids| - 1] + [last];
      if last in stored && last !in prefix then prefix + [last] else prefix
  }

  /** `countByIdIn(ids)`: the number of stored rows whose id is in the list,
      so an id named twice is counted once. */
  function CountByIdIn(ids: seq<Id>, stored: set<Id>): nat {
    |StoredAmong(ids, stored)|
  }

  /** The stored ids the list names. */
  function StoredAmong(ids: seq<Id>, stored: set<Id>): set<Id> {
    set x | x in ids && x in stored
  }

  /** A sequence has at least as many positions as distinct elements, and
      exactly as many when no element repeats. */
  lemma {:induction false} DistinctCount<T>(s: seq<T>)
    ensures |ToSet(s)| <= |s|
    ensures |ToSet(s)| == |s| <==> NoDuplicates(s)
  {
    if s != [] {
      var init := s[..|s| - 1];
      var last := s[|s| - 1];
      assert s == init + [last];
      DistinctCount(init);
      assert ToSet(s) == ToSet(init) + {last};
      if last in init {
        assert ToSet(s) == ToSet(init);
        var k :| 0 <= k < |init| && init[k] == last;
        assert s[k] == s[|s| - 1];
      } else {
        assert |ToSet(s)| == |ToSet(init)| + 1;
        if NoDuplicates(init) {
          forall i, j | 0 <= i < j < |s|
            ensures s[i] != s[j]
          {
            if j == |s| - 1 {
              assert s[i] == init[i];
            } else {
              assert s[i] == init[i] && s[j] == init[j];
            }
          }
        } else {
          var i, j :| 0 <= i < j < |init| && init[i] == init[j];
          assert s[i] == s[j];
        }
      }
    }
  }

  /** `countByIdIn(ids)` equals the list's length exactly when every id in
      the list is stored and no id is listed twice. */
  lemma CountByIdInFull(ids: seq<Id>, stored: set<Id>)
    ensures CountByIdIn(ids, stored) == |ids| <==>
      (forall x :: x in ids ==> x in stored) && NoDuplicates(ids)
  {
    var found := StoredAmong(ids, stored);
    var all := ToSet(ids);
    DistinctCount(ids);
    assert all == found + (all - found);
    if exists x :: x in ids && x !in stored {
      var x :| x in ids && x !in stored;
      assert x in all - found;
      assert |found| < |all|;
    } else {
      assert found == all;
    }
  }

  // ---------------------------------------------------------------------
  // Child and join rows

  /** A child or join row: `owner` is the id of the parent row, `target`
      what the row carries or points at. */
  datatype Link<V> = Link(owner: Id, target: V)

  /** `findAllBy<Owner>Id`: the owner's targets, in row order. */
  function Targets<V(==,!new)>(rows: seq<Link<V>>, owner: Id): (r: seq<V>)
    ensures forall v :: v in r <==> Link(owner, v) in rows
    ensures |r| <= |rows|
  {
    if rows == [] then []
    else
      var rest := Targets(rows[..|rows| - 1], owner);
      var last := rows[|rows| - 1];
      assert rows == rows[..|rows| - 1] + [last];
      if last.owner == owner then rest + [last.target] else rest
  }

  /** `deleteAllBy<Owner>Id`: every row of the owner goes, the others stay
      in order. */
  function DropOwner<V(!new)>(rows: seq<Link<V>>, owner: Id): (r: seq<Link<V>>)
    ensures forall x :: x in r <==> x in rows && x.owner != owner
  {
    if rows == [] then []
    else
      var rest := DropOwner(rows[..|rows| - 1], owner);
      var last := rows[|rows| - 1];
      assert rows == rows[..|rows| - 1] + [last];
      if last.owner == owner then rest else rest + [last]
  }

  /** One row per target, all owned by `owner`, in list order. */
  function LinksFrom<V>(owner: Id, targets: seq<V>): (r: seq<Link<V>>)
    ensures |r| == |targets|
    ensures forall i :: 0 <= i < |r| ==> r[i] == Link(owner, targets[i])
  {
    seq(|targets|, i requires 0 <= i < |targets| => Link(owner, targets[i]))
  }

  lemma {:induction false} TargetsAppend<V(!new)>(a: seq<Link<V>>, b: seq<Link<V>>, owner: Id)
    ensures Targets(a + b, owner) == Targets(a, owner) + Targets(b, owner)
  {
    if b != [] {
      var init := b[..|b| - 1];
      assert a + b == (a + init) + [b[|b| - 1]];
      assert (a + b)[..|a + b| - 1] == a + init;
      TargetsAppend(a, init, owner);
    } else {
      assert a + b == a;
    }
  }

  /** Reading back freshly made rows gives the targets in order, and nothing
      for any other owner. */
  lemma {:induction false} TargetsOfLinks<V(!new)>(owner: Id, other: Id, targets: seq<V>)
    ensures Targets(LinksFrom(owner, targets), other) == if other == owner then targets else []
  {
    if targets != [] {
      var init := targets[..|targets| - 1];
      assert LinksFrom(owner, targets)[..|targets| - 1] == LinksFrom(owner, init);
      TargetsOfLinks(owner, other, init);
      assert targets == init + [targets[|targets| - 1]];
    }
  }

  /** Dropping one owner's rows leaves every other owner's targets as they
      were, and leaves that owner none. */
  lemma {:induction false} TargetsOfDrop<V(!new)>(rows: seq<Link<V>>, owner: Id, other: Id)
    ensures Targets(DropOwner(rows, owner), other) == if other == owner then [] else Targets(rows, other)
  {
    if rows != [] {
      var init := rows[..|rows| - 1];
      var last := rows[|rows| - 1];
      TargetsOfDrop(init, owner, other);
      if last.owner != owner {
        TargetsAppend(DropOwner(init, owner), [last], other);
        assert [last][..0] == [];
      }
    }
  }

  /** An owner with no rows has no targets. */
  lemma {:induction false} TargetsNone<V(!new)>(rows: seq<Link<V>>, owner: Id)
    requires forall x :: x in rows ==> x.owner != owner
    ensures Targets(rows, owner) == []
  {
    if rows != [] {
      TargetsNone(rows[..|rows| - 1], owner);
    }
  }

  /** Replacing an owner's rows (drop, then append fresh ones) makes its
      targets exactly the new list and leaves every other owner's alone. */
  lemma ReplaceTargets<V(!new)>(rows: seq<Link<V>>, owner: Id, targets: seq<V>, other: Id)
    ensures Targets(DropOwner(rows, owner) + LinksFrom(owner, targets), other)
      == if other == owner then targets else Targets(rows, other)
  {
    TargetsAppend(DropOwner(rows, owner), LinksFrom(owner, targets), other);
    TargetsOfLinks(owner, other, targets);
    TargetsOfDrop(rows, owner, other);
  }

  /** Appending fresh rows for an owner that had none makes its targets
      exactly the new list and leaves every other owner's alone. */
  lemma AddTargets<V(!new)>(rows: seq<Link<V>>, owner: Id, targets: seq<V>, other: Id)
    requires forall x :: x in rows ==> x.owner != owner
    ensures Targets(rows + LinksFrom(owner, targets), other)
      == if other == owner then targets else Targets(rows, other)
  {
    TargetsAppend(rows, LinksFrom(owner, targets), other);
    TargetsOfLinks(owner, other, targets);
    if other == owner {
      TargetsNone(rows, owner);
    }
  }
}

=== FILE: seqs.dfy ===
/** Filtering a list, as `Array.prototype.filter` and Java's
    `stream().filter(...).toList()` do it. */
module Seqs {
  /** The kept items, in their order. */
  function Filter<T(!new)>(s: seq<T>, keep: T -> bool): (r: seq<T>)
    ensures |r| <= |s|
    ensures forall x :: x in r <==> x in s && keep(x)
  {
    if s == [] then []
    else
      var rest := Filter(s[..|s| - 1], keep);
      var last := s[|s| - 1];
      assert s == s[..|s| - 1] + [last];
      if keep(last) then rest + [last] else rest
  }

  /** A filter that keeps every item of the list returns the list. */
  lemma {:induction false} FilterKeepsAll<T(!new)>(s: seq<T>, keep: T -> bool)
    requires forall i :: 0 <= i < |s| ==> keep(s[i])
    ensures Filter(s, keep) == s
  {
    if s != [] {
      FilterKeepsAll(s[..|s| - 1], keep);
      assert s == s[..|s| - 1] + [s[|s| - 1]];
    }
  }

  /** Filters that agree on every item return the same list. */
  lemma {:induction false} FilterSameTest<T(!new)>(s: seq<T>, p: T -> bool, q: T -> bool)
    requires forall i :: 0 <= i < |s| ==> (p(s[i]) <==> q(s[i]))
    ensures Filter(s, p) == Filter(s, q)
  {
    if s != [] {
      FilterSameTest(s[..|s| - 1], p, q);
    }
  }

  /** A stricter filter keeps no more items. */
  lemma {:induction false} FilterMonotone<T(!new)>(s: seq<T>, p: T -> bool, q: T -> bool)
    requires forall x :: p(x) ==> q(x)
    ensures |Filter(s, p)| <= |Filter(s, q)|
  {
    if s != [] {
      FilterMonotone(s[..|s| - 1], p, q);
    }
  }

  /** Two disjoint filters that together cover a third split its items. */
  lemma {:induction false} FilterSplit<T(!new)>(s: seq<T>, p: T -> bool, q: T -> bool, both: T -> bool)
    requires forall x :: both(x) <==> p(x) || q(x)
    requires forall x :: !(p(x) && q(x))
    ensures |Filter(s, p)| + |Filter(s, q)| == |Filter(s, both)|
  {
    if s != [] {
      FilterSplit(s[..|s| - 1], p, q, both);
    }
  }

  /** The positions of the list whose item the test keeps. */
  function Positions<T>(s: seq<T>, keep: T -> bool): set<nat> {
    set i: nat | i < |s| && keep(s[i])
  }

  /** A filter keeps one item per kept position. */
  lemma {:induction false} FilterCountsPositions<T(!new)>(s: seq<T>, keep: T -> bool)
    ensures |Filter(s, keep)| == |Positions(s, keep)|
  {
    if s != [] {
      FilterCountsPositions(s[..|s| - 1], keep);
      PositionsSnoc(s, keep);
    }
  }

  /** The last item adds its position exactly when the test keeps it. */
  lemma PositionsSnoc<T>(s: seq<T>, keep: T -> bool)
    requires s != []
    ensures |Positions(s, keep)| == |Positions(s[..|s| - 1], keep)| + (if keep(s[|s| - 1]) then 1 else 0)
  {
    var init := s[..|s| - 1];
    var last := |s| - 1;
    var p, q := Positions(s, keep), Positions(init, keep);
    var extra: set<nat> := if keep(s[last]) then {last} else {};
    forall i | i in p
      ensures i in q + extra
    {
      if i < last {
        assert s[i] == init[i];
      }
    }
    forall i | i in q + extra
      ensures i in p
    {
      if i < last {
        assert s[i] == init[i];
      }
    }
    assert p == q + extra;
    assert last !in q;
  }
}

=== FILE: signup_form.dfy ===
/** The three step validators of the mobile sign-up screen. Each keeps an
    error flag that is the negation of its pattern's `test`. */
module SignupForm {
  import opened Wrappers
  import opened Strings
  import opened RegExp

  /** The university address domain. */
  const StudentDomain: string := "@stu.ucsc.cmb.ac.lk"

  predicate IsNameChar(c: char) {
    IsUpperAscii(c) || IsLowerAscii(c) || c == ' '
  }

  /** `[\W_]`: neither an ASCII letter nor an ASCII digit. */
  predicate IsSpecial(c: char) {
    !IsUpperAscii(c) && !IsLowerAscii(c) && !IsDigit(c)
  }

  predicate NotTerminator(c: char) {
    !IsLineTerminator(c)
  }

  /** `/^[a-zA-Z ]{2,30}$/`. */
  function NamePattern(): seq<Piece> {
    [Repeat(IsNameChar, 2, Some(30))]
  }

  /** `/^\d{4}[a-z]{2}\d{3}@stu\.ucsc\.cmb\.ac\.lk$/`. */
  function EmailPattern(): seq<Piece> {
    [Repeat(IsDigit, 4, Some(4)), Repeat(IsLowerAscii, 2, Some(2)), Repeat(IsDigit, 3, Some(3)), Lit(StudentDomain)]
  }

  /** `/^(?=.*[a-z])(?=.*[A-Z])(?=.*\d)(?=.*[\W_]).{8,}$/`. */
  function PasswordPattern(): seq<Piece> {
    [AheadSome(IsLowerAscii), AheadSome(IsUpperAscii), AheadSome(IsDigit), AheadSome(IsSpecial),
     Repeat(NotTerminator, 8, None)]
  }

  /** `/^[0-9]{10}$/`. */
  function ContactPattern(): seq<Piece> {
    [Repeat(IsDigit, 10, Some(10))]
  }

  // ---------------------------------------------------------------------
  // The rules in plain words

  /** Two to thirty ASCII letters and spaces. */
  predicate IsValidName(s: string) {
    2 <= |s| <= 30 && forall i :: 0 <= i < |s| ==> IsNameChar(s[i])
  }

  /** Four digits, two lower-case letters, three digits, then the domain. */
  predicate IsValidEmail(s: string) {
    && |s| == 9 + |StudentDomain|
    && (forall i :: 0 <= i < 4 ==> IsDigit(s[i]))
    && (forall i :: 4 <= i < 6 ==> IsLowerAscii(s[i]))
    && (forall i :: 6 <= i < 9 ==> IsDigit(s[i]))
    && s[9..] == StudentDomain
  }

  /** At least eight characters, no line terminator, and at least one
      lower-case letter, upper-case letter, digit and other character. */
  predicate IsStrongPassword(s: string) {
    && |s| >= 8
    && (forall i :: 0 <= i < |s| ==> !IsLineTerminator(s[i]))
    && (exists i :: 0 <= i < |s| && IsLowerAscii(s[i]))
    && (exists i :: 0 <= i < |s| && IsUpperAscii(s[i]))
    && (exists i :: 0 <= i < |s| && IsDigit(s[i]))
    && (exists i :: 0 <= i < |s| && IsSpecial(s[i]))
  }

  /** Exactly ten ASCII digits. */
  predicate IsValidContact(s: string) {
    |s| == 10 && AllDigits(s)
  }

  // ---------------------------------------------------------------------
  // Each pattern accepts exactly what its rule describes

  lemma NamePatternMeaning(s: string)
    ensures Test(NamePattern(), s) <==> IsValidName(s)
  {
    RepeatOnly(IsNameChar, 2, Some(30), s);
  }

  lemma ContactPatternMeaning(s: string)
    ensures Test(ContactPattern(), s) <==> IsValidContact(s)
  {
    RepeatOnly(IsDigit, 10, Some(10), s);
  }

  lemma EmailPatternMeaning(s: string)
    ensures Test(EmailPattern(), s) <==> IsValidEmail(s)
  {
    var p := EmailPattern();
    var tail := [Repeat(IsLowerAscii, 2, Some(2)), Repeat(IsDigit, 3, Some(3)), Lit(StudentDomain)];
    var tail2 := [Repeat(IsDigit, 3, Some(3)), Lit(StudentDomain)];
    var tail3 := [Lit(StudentDomain)];
    assert p == [Repeat(IsDigit, 4, Some(4))] + tail;
    assert tail == [Repeat(IsLowerAscii, 2, Some(2))] + tail2;
    assert tail2 == [Repeat(IsDigit, 3, Some(3))] + tail3;
    assert tail3 == [Lit(StudentDomain)] + [];
    ExactFirst(IsDigit, 4, tail, s);
    if 4 <= |s| {
      var s1 := s[4..];
      ExactFirst(IsLowerAscii, 2, tail2, s1);
      if 2 <= |s1| {
        var s2 := s1[2..];
        ExactFirst(IsDigit, 3, tail3, s2);
        if 3 <= |s2| {
          var s3 := s2[3..];
          LitFirst(StudentDomain, [], s3);
          assert s3 == s[9..];
          assert forall i :: 0 <= i < 2 ==> s1[..2][i] == s[4 + i];
          assert forall i :: 0 <= i < 3 ==> s2[..3][i] == s[6 + i];
          assert forall i :: 0 <= i < 4 ==> s[..4][i] == s[i];
          if IsValidEmail(s) {
            assert s3[..|StudentDomain|] == s3 && s3[|StudentDomain|..] == [];
          }
        }
      }
    }
  }

  lemma PasswordPatternMeaning(s: string)
    ensures Test(PasswordPattern(), s) <==> IsStrongPassword(s)
  {
    var body := [Repeat(NotTerminator, 8, None)];
    var p3 := [AheadSome(IsSpecial)] + body;
    var p2 := [AheadSome(IsDigit)] + p3;
    var p1 := [AheadSome(IsUpperAscii)] + p2;
    assert PasswordPattern() == [AheadSome(IsLowerAscii)] + p1;
    AheadFirst(IsLowerAscii, p1, s);
    AheadFirst(IsUpperAscii, p2, s);
    AheadFirst(IsDigit, p3, s);
    AheadFirst(IsSpecial, body, s);
    RepeatOnly(NotTerminator, 8, None, s);
    if forall i :: 0 <= i < |s| ==> !IsLineTerminator(s[i]) {
      AheadWithoutTerminators(s, IsLowerAscii);
      AheadWithoutTerminators(s, IsUpperAscii);
      AheadWithoutTerminators(s, IsDigit);
      AheadWithoutTerminators(s, IsSpecial);
    }
  }

  // ---------------------------------------------------------------------
  // The validators

  /** `validateStep1`: the error flag is set exactly for an invalid name. */
  function ValidateStep1(name: string): (error: bool)
    ensures error <==> !IsValidName(name)
  {
    NamePatternMeaning(name);
    !Test(NamePattern(), name)
  }

  /** `validateStep2`: the error is cleared only for a valid address, a
      strong password and a matching confirmation. */
  function ValidateStep2(email: string, password: string, confirmPassword: string): (error: bool)
    ensures !error <==> IsValidEmail(email) && IsStrongPassword(password) && password == confirmPassword
  {
    EmailPatternMeaning(email);
    PasswordPatternMeaning(password);
    !(Test(EmailPattern(), email) && Test(PasswordPattern(), password) && password == confirmPassword)
  }

  /** `validateStep3`: the error flag is set exactly for an invalid contact
      number. */
  function ValidateStep3(contact: string): (error: bool)
    ensures error <==> !IsValidContact(contact)
  {
    ContactPatternMeaning(contact);
    !Test(ContactPattern(), contact)
  }

  // ---------------------------------------------------------------------
  // Properties

  /** Worked examples of the address rule: a well-formed index number
      passes, and the staff domain or an upper-case letter does not. */
  lemma EmailExamples()
    ensures IsValidEmail("2021cs123" + StudentDomain)
    ensures !IsValidEmail("2021cs123@ucsc.cmb.ac.lk")
    ensures !IsValidEmail("2021CS123" + StudentDomain)
  {
    var good := "2021cs123" + StudentDomain;
    assert good[..9] == "2021cs123";
    assert forall i :: 0 <= i < 9 ==> good[i] == good[..9][i];
    assert good[9..] == StudentDomain;
    var upper := "2021CS123" + StudentDomain;
    assert upper[4] == 'C';
  }

  /** An underscore is enough for the special-character rule, and a
      password of only letters and digits is refused however long. */
  lemma PasswordExamples()
    ensures IsStrongPassword("abc_DEF1")
    ensures !IsStrongPassword("abcdEFGH1234")
  {
    var s := "abc_DEF1";
    assert IsLowerAscii(s[0]) && IsUpperAscii(s[4]) && IsDigit(s[7]) && IsSpecial(s[3]);
    var t := "abcdEFGH1234";
    assert forall i :: 0 <= i < |t| ==> !IsSpecial(t[i]);
  }
}

=== FILE: slot_initializer.dfy ===
/** `SlotInitializer`: at start-up the slot table is topped up with the
    half-hour slots from 08:00 to 19:00 that it does not hold yet. A slot
    row is compared by its start and end only; its id plays no part. */
module SlotInitializer {
  import opened Entities
  import opened Repository

  /** The first start time, 08:00, the bound the loop stops at, 19:00, and
      the length of a slot, in minutes. */
  const DayStart: TimeOfDay := 480
  const DayEnd: TimeOfDay := 1140
  const SlotLength := 30
  const SlotCount := 22

  /** The half-hour slots in order of start time. */
  function StandardSlots(): (r: seq<Slot>)
    ensures |r| == SlotCount
    ensures r[0] == Slot(8 * 60, 8 * 60 + 30)
    ensures r[|r| - 1] == Slot(18 * 60 + 30, 19 * 60)
    ensures forall k :: 0 <= k < |r| ==> r[k].start == DayStart + SlotLength * k
    ensures forall k :: 0 <= k < |r| ==> r[k].end == r[k].start + SlotLength
    ensures forall k :: 0 < k < |r| ==> r[k].start == r[k - 1].end
    ensures forall k :: 0 <= k < |r| ==> DayStart <= r[k].start < DayEnd
  {
    seq(SlotCount, k requires 0 <= k < SlotCount => Slot(DayStart + SlotLength * k, DayStart + SlotLength * (k + 1)))
  }

  /** The reference meaning of the start-up run: each candidate in turn is
      appended unless an equal slot is already there. */
  function AddMissing(stored: seq<Slot>, todo: seq<Slot>): (r: seq<Slot>)
    ensures |stored| <= |r| && r[..|stored|] == stored
    decreases |todo|
  {
    if todo == [] then stored
    else AddMissing(if todo[0] in stored then stored else stored + [todo[0]], todo[1..])
  }

  /** The run ends up holding what was stored and every candidate, and
      nothing else. */
  lemma {:induction false} AddMissingContents(stored: seq<Slot>, todo: seq<Slot>)
    ensures forall s :: s in AddMissing(stored, todo) <==> s in stored || s in todo
    decreases |todo|
  {
    if todo != [] {
      var next := if todo[0] in stored then stored else stored + [todo[0]];
      AddMissingContents(next, todo[1..]);
      assert todo == [todo[0]] + todo[1..];
    }
  }

  /** `loadSlots`: walk the start time from 08:00 in half-hour steps while it
      is before 19:00, saving each slot the table lacks. */
  method LoadSlots(stored: seq<Slot>) returns (r: seq<Slot>)
    ensures r == AddMissing(stored, StandardSlots())
    ensures forall k :: 0 <= k < SlotCount ==> StandardSlots()[k] in r
    ensures |stored| <= |r| && r[..|stored|] == stored
    ensures forall s :: s in r ==> s in stored || s in StandardSlots()
  {
    var start: int := DayStart;
    r := stored;
    ghost var all := StandardSlots();
    ghost var k := 0;
    while start < DayEnd
      invariant 0 <= k <= |all| && start == DayStart + SlotLength * k
      invariant r == AddMissing(stored, all[..k])
      decreases DayEnd - start
    {
      var slotEnd := start + SlotLength;
      var slot := Slot(start, slotEnd);
      var present := slot in r;
      if !present {
        r := r + [slot];
      }
      assert all[..k + 1] == all[..k] + [slot];
      AddMissingSnoc(stored, all[..k], slot);
      start := slotEnd;
      k := k + 1;
    }
    assert all[..k] == all;
    RunCoversStandard(stored);
  }

  /** Running over one more candidate is one more step of the run. */
  lemma {:induction false} AddMissingSnoc(stored: seq<Slot>, todo: seq<Slot>, x: Slot)
    ensures var p := AddMissing(stored, todo);
      AddMissing(stored, todo + [x]) == if x in p then p else p + [x]
    decreases |todo|
  {
    if todo != [] {
      var next := if todo[0] in stored then stored else stored + [todo[0]];
      assert (todo + [x])[0] == todo[0];
      assert (todo + [x])[1..] == todo[1..] + [x];
      AddMissingSnoc(next, todo[1..], x);
    }
  }

  /** The reference run keeps the table as a prefix, holds every standard
      slot afterwards, and adds nothing else. */
  lemma RunCoversStandard(stored: seq<Slot>)
    ensures var r := AddMissing(stored, StandardSlots());
      && (forall k :: 0 <= k < SlotCount ==> StandardSlots()[k] in r)
      && |stored| <= |r| && r[..|stored|] == stored
      && (forall s :: s in r ==> s in stored || s in StandardSlots())
  {
    AddMissingContents(stored, StandardSlots());
  }

  // ---------------------------------------------------------------------
  // Properties

  /** Candidates that are all present add nothing. */
  lemma {:induction false} AddMissingPresent(stored: seq<Slot>, todo: seq<Slot>)
    requires forall s :: s in todo ==> s in stored
    ensures AddMissing(stored, todo) == stored
    decreases |todo|
  {
    if todo != [] {
      assert todo[0] in todo;
      forall s | s in todo[1..]
        ensures s in stored
      {
        assert s in todo;
      }
      AddMissingPresent(stored, todo[1..]);
    }
  }

  /** A second start-up run saves nothing. */
  lemma LoadSlotsIdempotent(stored: seq<Slot>)
    ensures AddMissing(AddMissing(stored, StandardSlots()), StandardSlots()) == AddMissing(stored, StandardSlots())
  {
    AddMissingContents(stored, StandardSlots());
    AddMissingPresent(AddMissing(stored, StandardSlots()), StandardSlots());
  }

  /** A table without repeated slots stays without them: a slot is only
      saved when no equal one exists. */
  lemma {:induction false} AddMissingKeepsUnique(stored: seq<Slot>, todo: seq<Slot>)
    requires NoDuplicates(stored)
    ensures NoDuplicates(AddMissing(stored, todo))
    decreases |todo|
  {
    if todo != [] {
      var next := if todo[0] in stored then stored else stored + [todo[0]];
      if todo[0] !in stored {
        forall i, j | 0 <= i < j < |next|
          ensures next[i] != next[j]
        {
          assert next[i] == stored[i];
        }
      }
      AddMissingKeepsUnique(next, todo[1..]);
    }
  }

  /** On an empty table the run saves exactly the standard slots, in order. */
  lemma {:induction false} AddMissingDistinct(stored: seq<Slot>, todo: seq<Slot>)
    requires NoDuplicates(todo)
    requires forall s :: s in todo ==> s !in stored
    ensures AddMissing(stored, todo) == stored + todo
    decreases |todo|
  {
    if todo != [] {
      forall s | s in todo[1..]
        ensures s !in stored + [todo[0]]
      {
        var i :| 0 <= i < |todo[1..]| && todo[1..][i] == s;
        assert todo[i + 1] == s && todo[0] != todo[i + 1];
        assert s in todo;
      }
      forall i, j | 0 <= i < j < |todo[1..]|
        ensures todo[1..][i] != todo[1..][j]
      {
        assert todo[1..][i] == todo[i + 1] && todo[1..][j] == todo[j + 1];
      }
      AddMissingDistinct(stored + [todo[0]], todo[1..]);
      assert stored + [todo[0]] + todo[1..] == stored + todo;
    }
  }

  lemma FreshTableGetsStandardSlots()
    ensures AddMissing([], StandardSlots()) == StandardSlots()
  {
    var all := StandardSlots();
    forall i, j | 0 <= i < j < |all|
      ensures all[i] != all[j]
    {
      assert all[i].start < all[j].start;
    }
    AddMissingDistinct([], all);
  }
}

=== FILE: strings.dfy ===
/** The few ECMAScript string operations the frontend components rely on
    (ECMA-262 sections 22.1.3 and 22.2). A `string` here is a sequence of
    Unicode scalar values, one `char` each; JavaScript stores UTF-16 code
    units, so where the code reads `length` the model counts code units with
    `Utf16Length`. */
module Strings {
  import opened Wrappers

  /** `q` occurs in `s` starting at position `j`. */
  predicate OccursAt(s: string, q: string, j: nat) {
    j + |q| <= |s| && s[j..j + |q|] == q
  }

  /** The first position at or after `from` where `q` occurs in `s`. */
  function IndexFrom(s: string, q: string, from: nat): (r: Option<nat>)
    requires from <= |s|
    ensures r.Some? ==> from <= r.value && OccursAt(s, q, r.value)
    ensures r.Some? ==> forall j :: from <= j < r.value ==> !OccursAt(s, q, j)
    ensures r.None? ==> forall j :: from <= j <= |s| ==> !OccursAt(s, q, j)
    decreases |s| - from
  {
    if OccursAt(s, q, from) then Some(from)
    else if from == |s| then None
    else IndexFrom(s, q, from + 1)
  }

  /** `s.indexOf(q)`, with `None` for JavaScript's -1: the first occurrence. */
  function IndexOf(s: string, q: string): (r: Option<nat>)
    ensures r.Some? ==> OccursAt(s, q, r.value)
    ensures r.Some? ==> forall j :: 0 <= j < r.value ==> !OccursAt(s, q, j)
    ensures r.None? <==> forall j :: 0 <= j <= |s| ==> !OccursAt(s, q, j)
  {
    IndexFrom(s, q, 0)
  }

  /** `s.includes(q)`. */
  predicate Includes(s: string, q: string) {
    IndexOf(s, q).Some?
  }

  /** `includes` holds exactly when some position holds an occurrence. */
  lemma IncludesMeansOccurs(s: string, q: string)
    ensures Includes(s, q) <==> exists j :: 0 <= j <= |s| && OccursAt(s, q, j)
  {
  }

  /** `s.replace(pat, "")` with a string pattern: only the FIRST occurrence
      of `pat` is removed. */
  function RemoveFirst(s: string, pat: string): (r: string)
    ensures IndexOf(s, pat).None? ==> r == s
    ensures IndexOf(s, pat).Some? ==>
      var i := IndexOf(s, pat).value;
      r == s[..i] + s[i + |pat|..] && |r| == |s| - |pat|
  {
    match IndexOf(s, pat)
    case None => s
    case Some(i) => s[..i] + s[i + |pat|..]
  }

  predicate IsUpperAscii(c: char) {
    'A' <= c <= 'Z'
  }

  predicate IsLowerAscii(c: char) {
    'a' <= c <= 'z'
  }

  predicate IsDigit(c: char) {
    '0' <= c <= '9'
  }

  /** The decimal digit for `d`. */
  function DigitChar(d: nat): (c: char)
    requires d < 10
    ensures IsDigit(c) && c as int - '0' as int == d
  {
    ('0' as int + d) as char
  }

  predicate AllDigits(s: string) {
    forall i :: 0 <= i < |s| ==> IsDigit(s[i])
  }

  /** `String.prototype.toLowerCase` restricted to the ASCII letters. */
  function LowerChar(c: char): (r: char)
    ensures IsUpperAscii(c) ==> IsLowerAscii(r)
    ensures !IsUpperAscii(c) ==> r == c
  {
    if IsUpperAscii(c) then (c as int + 32) as char else c
  }

  function ToLower(s: string): (r: string)
    ensures |r| == |s|
    ensures forall i :: 0 <= i < |s| ==> r[i] == LowerChar(s[i])
  {
    seq(|s|, i requires 0 <= i < |s| => LowerChar(s[i]))
  }

  /** `includes` after lowering both sides: a case-insensitive search. */
  predicate IncludesIgnoreCase(s: string, q: string) {
    Includes(ToLower(s), ToLower(q))
  }

  /** The characters matched by `\s` and removed by `trim`: WhiteSpace and
      LineTerminator of ECMA-262 sections 12.2 and 12.3 (Zs listed in full). */
  predicate IsJsSpace(c: char) {
    c == '\t' || c == '\U{000B}' || c == '\U{000C}' || c == ' '
    || c == '\U{00A0}' || c == '\U{FEFF}' || c == '\U{1680}'
    || ('\U{2000}' <= c <= '\U{200A}')
    || c == '\U{202F}' || c == '\U{205F}' || c == '\U{3000}'
    || IsLineTerminator(c)
  }

  /** LineTerminator (ECMA-262 section 12.3): what `.` does not match. */
  predicate IsLineTerminator(c: char) {
    c == '\n' || c == '\r' || c == '\U{2028}' || c == '\U{2029}'
  }

  function TrimStart(s: string): (r: string)
    ensures |r| <= |s| && r == s[|s| - |r|..]
    ensures forall i :: 0 <= i < |s| - |r| ==> IsJsSpace(s[i])
    ensures |r| > 0 ==> !IsJsSpace(r[0])
  {
    if |s| > 0 && IsJsSpace(s[0]) then TrimStart(s[1..]) else s
  }

  function TrimEnd(s: string): (r: string)
    ensures |r| <= |s| && r == s[..|r|]
    ensures forall i :: |r| <= i < |s| ==> IsJsSpace(s[i])
    ensures |r| > 0 ==> !IsJsSpace(r[|r| - 1])
  {
    if |s| > 0 && IsJsSpace(s[|s| - 1]) then TrimEnd(s[..|s| - 1]) else s
  }

  /** `s.trim()`. */
  function Trim(s: string): string {
    TrimEnd(TrimStart(s))
  }

  /** A string trims to the empty string exactly when every character of it
      is white space or a line terminator. */
  lemma TrimEmptyIffAllSpace(s: string)
    ensures Trim(s) == [] <==> forall i :: 0 <= i < |s| ==> IsJsSpace(s[i])
  {
    var t := TrimStart(s);
    if Trim(s) == [] {
      assert |t| == 0;
    } else {
      var r := Trim(s);
      assert !IsJsSpace(r[0]);
      assert r[0] == t[0] == s[|s| - |t|];
    }
  }

  // ---------------------------------------------------------------------
  // UTF-16 lengths

  /** The UTF-16 code units a character takes (section 6.1.4 of ECMA-262):
      two for a character outside the Basic Multilingual Plane. */
  function Utf16Width(c: char): nat {
    if c as int >= 0x1_0000 then 2 else 1
  }

  /** `s.length`: the number of UTF-16 code units of `s`. */
  function Utf16Length(s: string): (n: nat)
    ensures |s| <= n <= 2 * |s|
  {
    if s == [] then 0 else Utf16Length(s[..|s| - 1]) + Utf16Width(s[|s| - 1])
  }

  /** A string within the Basic Multilingual Plane has one code unit per
      character; one beyond it has more code units than characters. */
  lemma {:induction false} Utf16LengthBmp(s: string)
    ensures Utf16Length(s) == |s| <==> forall i :: 0 <= i < |s| ==> s[i] as int < 0x1_0000
  {
    if s != [] {
      var init := s[..|s| - 1];
      Utf16LengthBmp(init);
      assert forall i :: 0 <= i < |init| ==> init[i] == s[i];
    }
  }
}

=== FILE: student_service.dfy ===
/** `StudentServiceImpl`: student profiles, a user's upcoming and past
    events from the attendance table, and the user's subscribed clubs. */
module StudentService {
  import opened Wrappers
  import opened Entities
  import opened Repository
  import opened Seqs
  import opened SubscriptionService

  /** A `student` row. */
  datatype Student = Student(
    id: Id,
    name: string,
    academicYear: Year,
    contactNumber: string,
    pictureUrl: Option<string>,
    user: Id)

  /** `StudentResponseDto` without the user's name, e-mail and role, which
      live in the user table. */
  datatype StudentResponse = StudentResponse(
    id: Id,
    name: string,
    academicYear: Year,
    contactNumber: string,
    pictureUrl: Option<string>,
    userId: Id)

  /** An attendance row as `findAll` loads it, with its event's date. */
  datatype AttendanceView = AttendanceView(row: Attendance, date: Date)

  datatype StudentDb = StudentDb(
    users: set<Id>,
    students: seq<Student>,
    attendance: seq<AttendanceView>,
    subscriptions: seq<Link<Id>>)

  /** `EventAttendanceStatus.valueOf`: the constant's exact name, or the
      `IllegalArgumentException` it throws for any other string. */
  function ParseStatus(name: string): (r: Result<AttendanceStatus>)
    ensures r == Ok(Going) <==> name == "GOING"
    ensures r == Ok(Interested) <==> name == "INTERESTED"
    ensures r.Err? ==> r.error == UnknownStatus
  {
    if name == "GOING" then Ok(Going)
    else if name == "INTERESTED" then Ok(Interested)
    else Err(UnknownStatus)
  }

  /** The constant's name, as `name()` prints it. */
  function StatusName(s: AttendanceStatus): string {
    match s
    case Going => "GOING"
    case Interested => "INTERESTED"
  }

  /** `valueOf` inverts `name()`. */
  lemma ParseStatusName(s: AttendanceStatus)
    ensures ParseStatus(StatusName(s)) == Ok(s)
  {
  }

  // ---------------------------------------------------------------------
  // Stream filters

  /** `map(EventAttendance::getEvent)`, by event id. */
  function EventsOf(vs: seq<AttendanceView>): (r: seq<Id>)
    ensures |r| == |vs| && forall i :: 0 <= i < |vs| ==> r[i] == vs[i].row.event
  {
    seq(|vs|, i requires 0 <= i < |vs| => vs[i].row.event)
  }

  lemma EventsOfMembers(vs: seq<AttendanceView>)
    ensures forall e :: e in EventsOf(vs) <==> exists v :: v in vs && v.row.event == e
  {
    var r := EventsOf(vs);
    forall e | e in r
      ensures exists v :: v in vs && v.row.event == e
    {
      var i :| 0 <= i < |r| && r[i] == e;
      assert vs[i] in vs;
    }
    forall e | exists v :: v in vs && v.row.event == e
      ensures e in r
    {
      var v :| v in vs && v.row.event == e;
      var i :| 0 <= i < |vs| && vs[i] == v;
      assert r[i] == e;
    }
  }

  /** The upcoming filter: the user's rows with the status dated after
      yesterday. */
  predicate IsUpcoming(v: AttendanceView, user: Id, status: AttendanceStatus, today: Date) {
    v.row.user == user && v.row.status == status && v.date > today - 1
  }

  /** The past filter: the user's rows dated before today, any status. */
  predicate IsPast(v: AttendanceView, user: Id, today: Date) {
    v.row.user == user && v.date < today
  }

  predicate IsPastWithStatus(v: AttendanceView, user: Id, status: AttendanceStatus, today: Date) {
    v.row.user == user && v.row.status == status && v.date < today
  }

  /** Positions of the user's rows with the status dated today or later. */
  function UpcomingRows(db: StudentDb, user: Id, status: AttendanceStatus, today: Date): set<nat> {
    set i: nat | i < |db.attendance| && IsUpcoming(db.attendance[i], user, status, today)
  }

  /** Positions of the user's rows with the status dated before today. */
  function PastRows(db: StudentDb, user: Id, status: AttendanceStatus, today: Date): set<nat> {
    set i: nat | i < |db.attendance| && IsPastWithStatus(db.attendance[i], user, status, today)
  }

  /** Positions of the user's rows with the status, whatever their date. */
  function StatusRows(db: StudentDb, user: Id, status: AttendanceStatus): set<nat> {
    set i: nat | i < |db.attendance| && db.attendance[i].row.user == user && db.attendance[i].row.status == status
  }

  // ---------------------------------------------------------------------
  // The service

  function FindStudent(rows: seq<Student>, keep: Student -> bool): (r: Option<Student>)
    ensures r.None? <==> forall i :: 0 <= i < |rows| ==> !keep(rows[i])
    ensures r.Some? ==> r.value in rows && keep(r.value)
  {
    if rows == [] then None
    else if keep(rows[0]) then Some(rows[0])
    else
      var r := FindStudent(rows[1..], keep);
      assert forall i :: 1 <= i < |rows| ==> rows[i] == rows[1..][i - 1];
      r
  }

  function ToResponse(s: Student): StudentResponse {
    StudentResponse(s.id, s.name, s.academicYear, s.contactNumber, s.pictureUrl, s.user)
  }

  /** `getStudentById`. */
  function GetStudentById(db: StudentDb, id: Id): (r: Result<StudentResponse>)
    ensures r.Ok? <==> exists i :: 0 <= i < |db.students| && db.students[i].id == id
    ensures r.Err? ==> r.error == NotFound(StudentEntity)
    ensures r.Ok? ==> r.value.id == id && exists s :: s in db.students && r.value == ToResponse(s)
  {
    match FindStudent(db.students, (s: Student) => s.id == id)
    case None => Err(NotFound(StudentEntity))
    case Some(s) => Ok(ToResponse(s))
  }

  /** `getStudentByUserId`. */
  function GetStudentByUserId(db: StudentDb, user: Id): (r: Result<StudentResponse>)
    ensures r.Ok? <==> exists i :: 0 <= i < |db.students| && db.students[i].user == user
    ensures r.Err? ==> r.error == NotFound(StudentEntity)
    ensures r.Ok? ==> r.value.userId == user && exists s :: s in db.students && r.value == ToResponse(s)
  {
    match FindStudent(db.students, (s: Student) => s.user == user)
    case None => Err(NotFound(StudentEntity))
    case Some(s) => Ok(ToResponse(s))
  }

  /** `getAllStudents`: every student row, in the order `findAll` reads
      the table. */
  function GetAllStudents(db: StudentDb): (r: seq<StudentResponse>)
    ensures |r| == |db.students|
    ensures forall i :: 0 <= i < |r| ==>
      && r[i].id == db.students[i].id
      && r[i].userId == db.students[i].user
      && r[i].name == db.students[i].name
      && r[i].academicYear == db.students[i].academicYear
      && r[i].contactNumber == db.students[i].contactNumber
      && r[i].pictureUrl == db.students[i].pictureUrl
  {
    seq(|db.students|, i requires 0 <= i < |db.students| => ToResponse(db.students[i]))
  }

  /** `getUpcomingEventsByAttendanceStatus`: the user must exist, then the
      status name must parse. */
  function GetUpcomingEvents(db: StudentDb, user: Id, status: string, today: Date): (r: Result<seq<Id>>)
    ensures user !in db.users ==> r == Err(NotFound(UserEntity))
    ensures r.Ok? <==> user in db.users && ParseStatus(status).Ok?
    ensures r.Ok? ==> forall e :: e in r.value <==>
      exists v :: v in db.attendance && v.row.event == e
        && v.row.user == user && v.row.status == ParseStatus(status).value && v.date >= today
    ensures r.Ok? ==> |r.value| == |UpcomingRows(db, user, ParseStatus(status).value, today)|
  {
    if user !in db.users then Err(NotFound(UserEntity))
    else
      var st :- ParseStatus(status);
      var keep := v => IsUpcoming(v, user, st, today);
      var kept := Filter(db.attendance, keep);
      FilterCountsPositions(db.attendance, keep);
      assert Positions(db.attendance, keep) == UpcomingRows(db, user, st, today);
      EventsOfMembers(kept);
      var r := EventsOf(kept);
      Ok(r)
  }

  /** `getPastEventsForUser`: no check that the user exists. */
  function GetPastEvents(db: StudentDb, user: Id, today: Date): (r: seq<Id>)
    ensures forall e :: e in r <==>
      exists v :: v in db.attendance && v.row.event == e && v.row.user == user && v.date < today
  {
    var kept := Filter(db.attendance, v => IsPast(v, user, today));
    EventsOfMembers(kept);
    var r := EventsOf(kept);
    r
  }

  /** `countPastEventsByAttendanceStatus`: the status name must parse; no
      check that the user exists. */
  function CountPastEvents(db: StudentDb, user: Id, status: string, today: Date): (r: Result<nat>)
    ensures r.Ok? <==> ParseStatus(status).Ok?
    ensures r.Err? ==> r.error == UnknownStatus
    ensures r.Ok? ==> r.value == |PastRows(db, user, ParseStatus(status).value, today)|
    ensures r.Ok? ==> r.value <= |GetPastEvents(db, user, today)|
  {
    var st :- ParseStatus(status);
    var keep := v => IsPastWithStatus(v, user, st, today);
    FilterMonotone(db.attendance, keep, v => IsPast(v, user, today));
    FilterCountsPositions(db.attendance, keep);
    assert Positions(db.attendance, keep) == PastRows(db, user, st, today);
    Ok(|Filter(db.attendance, keep)|)
  }

  /** `countSubscribedClubs`. */
  function CountSubscribedClubs(db: StudentDb, user: Id): (r: Result<nat>)
    ensures r.Ok? <==> user in db.users
    ensures r.Err? ==> r.error == NotFound(UserEntity)
  {
    if user !in db.users then Err(NotFound(UserEntity)) else Ok(|Targets(db.subscriptions, user)|)
  }

  // ---------------------------------------------------------------------
  // Properties

  /** "After yesterday" on day numbers is "today or later": an event dated
      today is upcoming. */
  lemma UpcomingIncludesToday(v: AttendanceView, user: Id, status: AttendanceStatus, today: Date)
    requires v.row.user == user && v.row.status == status
    ensures IsUpcoming(v, user, status, today) <==> v.date >= today
  {
  }

  /** For a stored user and a valid status name, the upcoming list and the
      past count split the user's rows with that status: each row is either
      dated today or later, or before today. */
  lemma UpcomingPastPartition(db: StudentDb, user: Id, status: string, today: Date)
    requires user in db.users && ParseStatus(status).Ok?
    ensures |GetUpcomingEvents(db, user, status, today).value| + CountPastEvents(db, user, status, today).value
         == |StatusRows(db, user, ParseStatus(status).value)|
  {
    var st := ParseStatus(status).value;
    var up, past := UpcomingRows(db, user, st, today), PastRows(db, user, st, today);
    assert up * past == {};
    assert up + past == StatusRows(db, user, st);
  }

  /** The subscribed-club count is the length of the subscribed-club list. */
  lemma CountMatchesList(db: StudentDb, user: Id)
    ensures CountSubscribedClubs(db, user).Ok? <==> GetSubscribedClubs(db.users, db.subscriptions, user).Ok?
    ensures CountSubscribedClubs(db, user).Ok? ==>
      CountSubscribedClubs(db, user).value == |GetSubscribedClubs(db.users, db.subscriptions, user).value|
  {
  }

  /** Whatever either lookup finds is one of the students the full listing
      shows. */
  lemma LookupsInListing(db: StudentDb, id: Id, user: Id)
    ensures GetStudentById(db, id).Ok? ==> GetStudentById(db, id).value in GetAllStudents(db)
    ensures GetStudentByUserId(db, user).Ok? ==> GetStudentByUserId(db, user).value in GetAllStudents(db)
  {
    var all := GetAllStudents(db);
    if GetStudentById(db, id).Ok? {
      var s :| s in db.students && GetStudentById(db, id).value == ToResponse(s);
      var i :| 0 <= i < |db.students| && db.students[i] == s;
      assert all[i] == ToResponse(s);
    }
    if GetStudentByUserId(db, user).Ok? {
      var s :| s in db.students && GetStudentByUserId(db, user).value == ToResponse(s);
      var i :| 0 <= i < |db.students| && db.students[i] == s;
      assert all[i] == ToResponse(s);
    }
  }
}

=== FILE: subscription_service.dfy ===
/** `SubscriptionServiceImpl`: users following clubs. A subscription row is
    a link owned by the user that points at the club. */
module SubscriptionService {
  import opened Wrappers
  import opened Entities
  import opened Repository

  datatype SubscriptionDb = SubscriptionDb(
    users: set<Id>,
    clubs: set<Id>,
    subscriptions: seq<Link<Id>>)

  /** The table has no unique key; `subscribe` is what keeps each
      (user, club) pair to one row. */
  predicate Consistent(db: SubscriptionDb) {
    NoDuplicates(db.subscriptions)
  }

  /** `deleteByUserAndClub`: every row of the pair goes, the rest stay in
      order. */
  function DeletePair(rows: seq<Link<Id>>, user: Id, club: Id): (r: seq<Link<Id>>)
    ensures forall l :: l in r <==> l in rows && l != Link(user, club)
    ensures |r| <= |rows|
  {
    if rows == [] then []
    else
      var rest := DeletePair(rows[..|rows| - 1], user, club);
      var last := rows[|rows| - 1];
      assert rows == rows[..|rows| - 1] + [last];
      if last == Link(user, club) then rest else rest + [last]
  }

  /** `countByClub`: the number of rows for the club. */
  function CountRows(rows: seq<Link<Id>>, club: Id): nat {
    if rows == [] then 0
    else CountRows(rows[..|rows| - 1], club) + (if rows[|rows| - 1].target == club then 1 else 0)
  }

  /** The distinct users subscribed to the club. */
  function Subscribers(rows: seq<Link<Id>>, club: Id): set<Id> {
    set l | l in rows && l.target == club :: l.owner
  }

  /** `subscribe`: user, then club, must exist; a pair already subscribed is
      left as it is. */
  function Subscribe(db: SubscriptionDb, user: Id, club: Id): (r: Result<SubscriptionDb>)
    ensures user !in db.users ==> r == Err(NotFound(UserEntity))
    ensures user in db.users && club !in db.clubs ==> r == Err(NotFound(ClubEntity))
    ensures r.Ok? <==> user in db.users && club in db.clubs
    ensures r.Ok? ==> forall l :: l in r.value.subscriptions <==> l in db.subscriptions || l == Link(user, club)
    ensures r.Ok? && Link(user, club) in db.subscriptions ==> r.value == db
  {
    if user !in db.users then Err(NotFound(UserEntity))
    else if club !in db.clubs then Err(NotFound(ClubEntity))
    else if Link(user, club) in db.subscriptions then Ok(db)
    else Ok(db.(subscriptions := db.subscriptions + [Link(user, club)]))
  }

  /** `unsubscribe`: user, then club, must exist; an absent pair is not an
      error. */
  function Unsubscribe(db: SubscriptionDb, user: Id, club: Id): (r: Result<SubscriptionDb>)
    ensures user !in db.users ==> r == Err(NotFound(UserEntity))
    ensures user in db.users && club !in db.clubs ==> r == Err(NotFound(ClubEntity))
    ensures r.Ok? <==> user in db.users && club in db.clubs
    ensures r.Ok? ==> forall l :: l in r.value.subscriptions <==> l in db.subscriptions && l != Link(user, club)
  {
    if user !in db.users then Err(NotFound(UserEntity))
    else if club !in db.clubs then Err(NotFound(ClubEntity))
    else Ok(db.(subscriptions := DeletePair(db.subscriptions, user, club)))
  }

  /** `getSubscribedClubs`, which the subscription service and the student
      service both implement the same way: the user must exist, then the
      user's clubs in row order. */
  function GetSubscribedClubs(users: set<Id>, subscriptions: seq<Link<Id>>, user: Id): (r: Result<seq<Id>>)
    ensures r.Ok? <==> user in users
    ensures r.Err? ==> r.error == NotFound(UserEntity)
    ensures r.Ok? ==> forall c :: c in r.value <==> Link(user, c) in subscriptions
  {
    if user !in users then Err(NotFound(UserEntity)) else Ok(Targets(subscriptions, user))
  }

  /** `countSubscriptionsForClub`. */
  function CountSubscriptionsForClub(db: SubscriptionDb, club: Id): (r: Result<nat>)
    ensures r.Ok? <==> club in db.clubs
    ensures r.Err? ==> r.error == NotFound(ClubEntity)
  {
    if club !in db.clubs then Err(NotFound(ClubEntity)) else Ok(CountRows(db.subscriptions, club))
  }

  // ---------------------------------------------------------------------
  // Properties

  lemma {:induction false} NoDuplicatesPrefix<T>(rows: seq<T>)
    requires |rows| > 0 && NoDuplicates(rows)
    ensures NoDuplicates(rows[..|rows| - 1])
    ensures rows[|rows| - 1] !in rows[..|rows| - 1]
  {
    var init := rows[..|rows| - 1];
    forall i, j | 0 <= i < j < |init|
      ensures init[i] != init[j]
    {
      assert init[i] == rows[i] && init[j] == rows[j];
    }
    forall i | 0 <= i < |init|
      ensures init[i] != rows[|rows| - 1]
    {
      assert init[i] == rows[i];
    }
  }

  /** With one row per pair, the club's row count is its number of distinct
      subscribers. */
  lemma {:induction false} CountIsSubscribers(rows: seq<Link<Id>>, club: Id)
    requires NoDuplicates(rows)
    ensures CountRows(rows, club) == |Subscribers(rows, club)|
  {
    if rows != [] {
      var init := rows[..|rows| - 1];
      var last := rows[|rows| - 1];
      NoDuplicatesPrefix(rows);
      CountIsSubscribers(init, club);
      assert rows == init + [last];
      if last.target == club {
        assert Subscribers(rows, club) == Subscribers(init, club) + {last.owner};
        assert last.owner !in Subscribers(init, club);
      } else {
        assert Subscribers(rows, club) == Subscribers(init, club);
      }
    }
  }

  lemma {:induction false} DeletePairKeepsUnique(rows: seq<Link<Id>>, user: Id, club: Id)
    requires NoDuplicates(rows)
    ensures NoDuplicates(DeletePair(rows, user, club))
  {
    if rows != [] {
      var init := rows[..|rows| - 1];
      var last := rows[|rows| - 1];
      NoDuplicatesPrefix(rows);
      DeletePairKeepsUnique(init, user, club);
      var rest := DeletePair(init, user, club);
      if last != Link(user, club) {
        var r := rest + [last];
        forall i, j | 0 <= i < j < |r|
          ensures r[i] != r[j]
        {
          if j < |rest| {
            assert r[i] == rest[i] && r[j] == rest[j];
          } else {
            assert r[i] == rest[i] && rest[i] in init;
          }
        }
      }
    }
  }

  /** On a consistent table the club's count is its number of distinct
      subscribers. */
  lemma CountDistinctSubscribers(db: SubscriptionDb, club: Id)
    requires Consistent(db) && club in db.clubs
    ensures CountSubscriptionsForClub(db, club) == Ok(|Subscribers(db.subscriptions, club)|)
  {
    CountIsSubscribers(db.subscriptions, club);
  }

  /** Both writes keep one row per pair. */
  lemma WritesPreserveConsistent(db: SubscriptionDb, user: Id, club: Id)
    requires Consistent(db)
    ensures Subscribe(db, user, club).Ok? ==> Consistent(Subscribe(db, user, club).value)
    ensures Unsubscribe(db, user, club).Ok? ==> Consistent(Unsubscribe(db, user, club).value)
  {
    if Subscribe(db, user, club).Ok? && Link(user, club) !in db.subscriptions {
      var rows := db.subscriptions + [Link(user, club)];
      forall i, j | 0 <= i < j < |rows|
        ensures rows[i] != rows[j]
      {
        assert rows[i] == db.subscriptions[i];
      }
    }
    if Unsubscribe(db, user, club).Ok? {
      DeletePairKeepsUnique(db.subscriptions, user, club);
    }
  }

  /** Subscribing twice is the same as subscribing once. */
  lemma SubscribeIdempotent(db: SubscriptionDb, user: Id, club: Id)
    requires Subscribe(db, user, club).Ok?
    ensures Subscribe(Subscribe(db, user, club).value, user, club) == Subscribe(db, user, club)
  {
  }

  /** A subscription raises the club's count by one exactly when the pair
      was new, and no other club's count moves. */
  lemma SubscribeCount(db: SubscriptionDb, user: Id, club: Id, other: Id)
    requires Consistent(db)
    requires Subscribe(db, user, club).Ok?
    ensures var db' := Subscribe(db, user, club).value;
      && |Subscribers(db'.subscriptions, club)|
           == |Subscribers(db.subscriptions, club)| + (if Link(user, club) in db.subscriptions then 0 else 1)
      && (other != club ==> Subscribers(db'.subscriptions, other) == Subscribers(db.subscriptions, other))
  {
    var db' := Subscribe(db, user, club).value;
    WritesPreserveConsistent(db, user, club);
    if Link(user, club) !in db.subscriptions {
      assert Subscribers(db'.subscriptions, club) == Subscribers(db.subscriptions, club) + {user};
    }
  }

  /** After unsubscribing, the club is no longer among the user's clubs and
      its subscribers are the others that were there. */
  lemma UnsubscribeRemoves(db: SubscriptionDb, user: Id, club: Id)
    requires Unsubscribe(db, user, club).Ok?
    ensures var db' := Unsubscribe(db, user, club).value;
      && club !in GetSubscribedClubs(db'.users, db'.subscriptions, user).value
      && Subscribers(db'.subscriptions, club) == Subscribers(db.subscriptions, club) - {user}
  {
  }

  /** Subscribing to a new club and then unsubscribing restores the rows. */
  lemma SubscribeThenUnsubscribe(db: SubscriptionDb, user: Id, club: Id)
    requires Subscribe(db, user, club).Ok?
    requires Link(user, club) !in db.subscriptions
    ensures Unsubscribe(Subscribe(db, user, club).value, user, club) == Ok(db)
  {
    DeletePairAbsent(db.subscriptions, user, club);
    var rows := db.subscriptions + [Link(user, club)];
    assert rows[..|rows| - 1] == db.subscriptions;
  }

  lemma {:induction false} DeletePairAbsent(rows: seq<Link<Id>>, user: Id, club: Id)
    requires Link(user, club) !in rows
    ensures DeletePair(rows, user, club) == rows
  {
    if rows != [] {
      DeletePairAbsent(rows[..|rows| - 1], user, club);
    }
  }
}

=== FILE: user_profile.dfy ===
/** The academic administrator's profile page: the edit form and the
    change-password form, their validators and their submit handlers. The
    two forms share one `errors` object, keyed by field name. */
module UserProfile {
  import opened Wrappers
  import opened Strings
  import opened RegExp

  datatype Profile = Profile(
    name: string,
    email: string,
    phone: string,
    location: string,
    bio: string,
    joinDate: string,
    avatar: string)

  /** The edit form's fields. */
  datatype EditData = EditData(name: string, email: string, phone: string, location: string, bio: string)

  datatype PasswordData = PasswordData(currentPassword: string, newPassword: string, confirmPassword: string)

  /** The component's state that the handlers touch. */
  datatype ProfileState = ProfileState(
    user: Profile,
    editData: EditData,
    passwordData: PasswordData,
    editOpen: bool,
    passwordOpen: bool,
    errors: map<string, string>)

  const NameRequired := "Name is required"
  const EmailRequired := "Email is required"
  const EmailInvalid := "Please enter a valid email address"
  const PhoneRequired := "Phone number is required"
  const CurrentRequired := "Current password is required"
  const NewRequired := "New password is required"
  const NewTooShort := "Password must be at least 8 characters long"
  const ConfirmRequired := "Please confirm your new password"
  const ConfirmMismatch := "Passwords do not match"

  // ---------------------------------------------------------------------
  // The address pattern

  /** `[^\s@]`. */
  predicate NotSpaceOrAt(c: char) {
    !IsJsSpace(c) && c != '@'
  }

  /** `/^[^\s@]+@[^\s@]+\.[^\s@]+$/`. */
  function AddressPattern(): seq<Piece> {
    [Repeat(NotSpaceOrAt, 1, None), Lit("@"), Repeat(NotSpaceOrAt, 1, None), Lit("."), Repeat(NotSpaceOrAt, 1, None)]
  }

  /** A domain: no white space or '@', and a '.' with text on both sides. */
  predicate IsDomainShape(u: string) {
    && (forall i :: 0 <= i < |u| ==> NotSpaceOrAt(u[i]))
    && exists d :: 0 < d < |u| - 1 && u[d] == '.'
  }

  /** `local@domain`: a non-empty local part without white space or '@',
      the one '@', then a domain. */
  predicate IsAddressShape(s: string) {
    exists a :: 0 < a < |s| && s[a] == '@' && (forall i :: 0 <= i < a ==> NotSpaceOrAt(s[i])) && IsDomainShape(s[a + 1..])
  }

  function DomainPattern(): seq<Piece> {
    [Repeat(NotSpaceOrAt, 1, None), Lit("."), Repeat(NotSpaceOrAt, 1, None)]
  }

  lemma DomainPatternMeaning(u: string)
    ensures MatchFrom(DomainPattern(), u) <==> IsDomainShape(u)
  {
    if MatchFrom(DomainPattern(), u) {
      DomainPatternSound(u);
    }
    if IsDomainShape(u) {
      DomainPatternComplete(u);
    }
  }

  lemma DomainPatternSound(u: string)
    requires MatchFrom(DomainPattern(), u)
    ensures IsDomainShape(u)
  {
    var last := [Repeat(NotSpaceOrAt, 1, None)];
    var dotted := [Lit(".")] + last;
    assert DomainPattern() == [Repeat(NotSpaceOrAt, 1, None)] + dotted;
    RepeatFirst(NotSpaceOrAt, 1, None, dotted, u);
    var j :| 1 <= j <= |u| && AllIn(u[..j], NotSpaceOrAt) && MatchFrom(dotted, u[j..]);
    LitFirst(".", last, u[j..]);
    var w := u[j..][1..];
    RepeatOnly(NotSpaceOrAt, 1, None, w);
    assert u[j..][..1][0] == u[j];
    forall i | 0 <= i < |u|
      ensures NotSpaceOrAt(u[i])
    {
      if i < j {
        assert u[..j][i] == u[i];
      } else if i > j {
        assert w[i - j - 1] == u[i];
      }
    }
  }

  lemma DomainPatternComplete(u: string)
    requires IsDomainShape(u)
    ensures MatchFrom(DomainPattern(), u)
  {
    var last := [Repeat(NotSpaceOrAt, 1, None)];
    var dotted := [Lit(".")] + last;
    assert DomainPattern() == [Repeat(NotSpaceOrAt, 1, None)] + dotted;
    var d :| 0 < d < |u| - 1 && u[d] == '.';
    var w := u[d..][1..];
    RepeatOnly(NotSpaceOrAt, 1, None, w);
    forall i | 0 <= i < |w|
      ensures NotSpaceOrAt(w[i])
    {
      assert w[i] == u[d + 1 + i];
    }
    LitFirst(".", last, u[d..]);
    AllInPrefix(u, d, NotSpaceOrAt);
    RepeatFirst(NotSpaceOrAt, 1, None, dotted, u);
  }

  lemma AddressPatternMeaning(s: string)
    ensures Test(AddressPattern(), s) <==> IsAddressShape(s)
  {
    if Test(AddressPattern(), s) {
      AddressPatternSound(s);
    }
    if IsAddressShape(s) {
      AddressPatternComplete(s);
    }
  }

  lemma AddressPatternSound(s: string)
    requires Test(AddressPattern(), s)
    ensures IsAddressShape(s)
  {
    var rest := [Lit("@")] + DomainPattern();
    assert AddressPattern() == [Repeat(NotSpaceOrAt, 1, None)] + rest;
    RepeatFirst(NotSpaceOrAt, 1, None, rest, s);
    var a :| 1 <= a <= |s| && AllIn(s[..a], NotSpaceOrAt) && MatchFrom(rest, s[a..]);
    LitFirst("@", DomainPattern(), s[a..]);
    assert s[a..][1..] == s[a + 1..];
    DomainPatternMeaning(s[a + 1..]);
    AllInPrefix(s, a, NotSpaceOrAt);
    assert s[a..][..1][0] == s[a];
    assert IsDomainShape(s[a + 1..]);
  }

  lemma AddressPatternComplete(s: string)
    requires IsAddressShape(s)
    ensures Test(AddressPattern(), s)
  {
    var rest := [Lit("@")] + DomainPattern();
    assert AddressPattern() == [Repeat(NotSpaceOrAt, 1, None)] + rest;
    var a :| 0 < a < |s| && s[a] == '@' && (forall i :: 0 <= i < a ==> NotSpaceOrAt(s[i])) && IsDomainShape(s[a + 1..]);
    DomainPatternMeaning(s[a + 1..]);
    assert s[a..][1..] == s[a + 1..];
    LitFirst("@", DomainPattern(), s[a..]);
    AllInPrefix(s, a, NotSpaceOrAt);
    RepeatFirst(NotSpaceOrAt, 1, None, rest, s);
  }

  // ---------------------------------------------------------------------
  // The validators

  /** `!x.trim()`: the field is empty or only white space. */
  predicate Blank(s: string) {
    Trim(s) == []
  }

  /** The errors object a validator fills: one entry per failed check,
      under that check's field name. */
  function ErrorsOf(k1: string, v1: Option<string>, k2: string, v2: Option<string>,
                    k3: string, v3: Option<string>): (m: map<string, string>)
    requires k1 != k2 && k1 != k3 && k2 != k3
    ensures m.Keys <= {k1, k2, k3}
    ensures (k1 in m <==> v1.Some?) && (v1.Some? ==> m[k1] == v1.value)
    ensures (k2 in m <==> v2.Some?) && (v2.Some? ==> m[k2] == v2.value)
    ensures (k3 in m <==> v3.Some?) && (v3.Some? ==> m[k3] == v3.value)
  {
    var m1: map<string, string> := if v1.Some? then map[k1 := v1.value] else map[];
    var m2 := if v2.Some? then m1[k2 := v2.value] else m1;
    if v3.Some? then m2[k3 := v3.value] else m2
  }

  /** `validateEditForm`: the errors it records; the form is valid when it
      records none. Location and bio are never looked at. */
  function ValidateEditForm(d: EditData): (errors: map<string, string>)
    ensures errors.Keys <= {"name", "email", "phone"}
    ensures "name" in errors <==> forall i :: 0 <= i < |d.name| ==> IsJsSpace(d.name[i])
    ensures "name" in errors ==> errors["name"] == NameRequired
    ensures "phone" in errors <==> forall i :: 0 <= i < |d.phone| ==> IsJsSpace(d.phone[i])
    ensures "phone" in errors ==> errors["phone"] == PhoneRequired
    ensures "email" in errors <==> Blank(d.email) || !IsAddressShape(d.email)
    ensures "email" in errors ==> errors["email"] == (if Blank(d.email) then EmailRequired else EmailInvalid)
  {
    TrimEmptyIffAllSpace(d.name);
    TrimEmptyIffAllSpace(d.phone);
    AddressPatternMeaning(d.email);
    var name := if Blank(d.name) then Some(NameRequired) else None;
    var email := if Blank(d.email) then Some(EmailRequired)
                 else if !Test(AddressPattern(), d.email) then Some(EmailInvalid)
                 else None;
    var phone := if Blank(d.phone) then Some(PhoneRequired) else None;
    ErrorsOf("name", name, "email", email, "phone", phone)
  }

  /** `validatePasswordForm`; only emptiness is checked for the current
      password, and `length` counts UTF-16 code units. */
  function ValidatePasswordForm(p: PasswordData): (errors: map<string, string>)
    ensures errors.Keys <= {"currentPassword", "newPassword", "confirmPassword"}
    ensures "currentPassword" in errors <==> p.currentPassword == []
    ensures "newPassword" in errors <==> Utf16Length(p.newPassword) < 8
    ensures "newPassword" in errors ==>
      errors["newPassword"] == (if p.newPassword == [] then NewRequired else NewTooShort)
    ensures "confirmPassword" in errors <==> p.confirmPassword == [] || p.confirmPassword != p.newPassword
    ensures "confirmPassword" in errors ==>
      errors["confirmPassword"] == (if p.confirmPassword == [] then ConfirmRequired else ConfirmMismatch)
  {
    var current := if p.currentPassword == [] then Some(CurrentRequired) else None;
    var next := if p.newPassword == [] then Some(NewRequired)
                else if Utf16Length(p.newPassword) < 8 then Some(NewTooShort)
                else None;
    var confirm := if p.confirmPassword == [] then Some(ConfirmRequired)
                   else if p.newPassword != p.confirmPassword then Some(ConfirmMismatch)
                   else None;
    ErrorsOf("currentPassword", current, "newPassword", next, "confirmPassword", confirm)
  }

  /** `handleEditSubmit`: on a valid form the edits are merged into the
      user, the dialog closes and the errors clear; otherwise the errors are
      shown and nothing else changes. */
  function HandleEditSubmit(st: ProfileState): (r: ProfileState)
    ensures |ValidateEditForm(st.editData)| == 0 ==>
      && r.user.name == st.editData.name && r.user.email == st.editData.email
      && r.user.phone == st.editData.phone && r.user.location == st.editData.location
      && r.user.bio == st.editData.bio
      && r.user.joinDate == st.user.joinDate && r.user.avatar == st.user.avatar
      && !r.editOpen && r.errors == map[]
    ensures |ValidateEditForm(st.editData)| != 0 ==> r == st.(errors := ValidateEditForm(st.editData))
    ensures r.passwordData == st.passwordData && r.editData == st.editData
  {
    var errors := ValidateEditForm(st.editData);
    if |errors| == 0 then
      var d := st.editData;
      st.(user := st.user.(name := d.name, email := d.email, phone := d.phone, location := d.location, bio := d.bio),
          editOpen := false, errors := map[])
    else st.(errors := errors)
  }

  /** `handlePasswordSubmit`: a valid form closes the dialog and clears the
      three fields and the errors; otherwise the errors are shown. */
  function HandlePasswordSubmit(st: ProfileState): (r: ProfileState)
    ensures |ValidatePasswordForm(st.passwordData)| == 0 ==>
      r == st.(passwordOpen := false, passwordData := PasswordData("", "", ""), errors := map[])
    ensures |ValidatePasswordForm(st.passwordData)| != 0 ==> r == st.(errors := ValidatePasswordForm(st.passwordData))
    ensures r.user == st.user
  {
    var errors := ValidatePasswordForm(st.passwordData);
    if |errors| == 0 then st.(passwordOpen := false, passwordData := PasswordData("", "", ""), errors := map[])
    else st.(errors := errors)
  }

  // ---------------------------------------------------------------------
  // Properties

  /** An address of the right shape starts with a character that is not
      white space, so it is never blank. */
  lemma AddressNotBlank(s: string)
    requires IsAddressShape(s)
    ensures !Blank(s)
  {
    var a :| 0 < a < |s| && s[a] == '@' && (forall i :: 0 <= i < a ==> NotSpaceOrAt(s[i])) && IsDomainShape(s[a + 1..]);
    assert NotSpaceOrAt(s[0]);
    TrimEmptyIffAllSpace(s);
  }

  /** The edit form passes exactly when name and phone have a non-space
      character and the address has the `local@domain.tld` shape. */
  lemma EditFormValidIff(d: EditData)
    ensures |ValidateEditForm(d)| == 0 <==>
      && (exists i :: 0 <= i < |d.name| && !IsJsSpace(d.name[i]))
      && (exists i :: 0 <= i < |d.phone| && !IsJsSpace(d.phone[i]))
      && IsAddressShape(d.email)
  {
    var e := ValidateEditForm(d);
    if IsAddressShape(d.email) {
      AddressNotBlank(d.email);
    }
    NoErrorsIff(e, "name", "email", "phone");
  }

  /** An error map over three fields is empty exactly when none of them
      has an entry. */
  lemma NoErrorsIff(e: map<string, string>, f1: string, f2: string, f3: string)
    requires e.Keys <= {f1, f2, f3}
    ensures |e| == 0 <==> f1 !in e && f2 !in e && f3 !in e
  {
    if |e| != 0 {
      var k :| k in e;
    }
  }

  /** The password form passes exactly when a current password is given,
      the new one has at least eight UTF-16 code units, and the confirmation
      repeats it. */
  lemma PasswordFormValidIff(p: PasswordData)
    ensures |ValidatePasswordForm(p)| == 0 <==>
      p.currentPassword != [] && Utf16Length(p.newPassword) >= 8 && p.confirmPassword == p.newPassword
  {
    NoErrorsIff(ValidatePasswordForm(p), "currentPassword", "newPassword", "confirmPassword");
  }

  /** Submitting the same valid edits again changes nothing more. */
  lemma EditSubmitIdempotent(st: ProfileState)
    requires |ValidateEditForm(st.editData)| == 0
    ensures HandleEditSubmit(HandleEditSubmit(st)).user == HandleEditSubmit(st).user
  {
  }

  /** After a successful password change the cleared form is refused, so a
      second submit cannot change it again. */
  lemma PasswordSubmitClears(st: ProfileState)
    requires |ValidatePasswordForm(st.passwordData)| == 0
    ensures var st' := HandlePasswordSubmit(st);
      && st'.passwordData == PasswordData("", "", "")
      && HandlePasswordSubmit(st').errors["currentPassword"] == CurrentRequired
      && HandlePasswordSubmit(st').errors["newPassword"] == NewRequired
      && HandlePasswordSubmit(st').errors["confirmPassword"] == ConfirmRequired
  {
  }

  /** An address with white space before it is refused as invalid, not as
      missing: the pattern is tested on the untrimmed text. */
  lemma PaddedAddressRefused(d: EditData)
    requires |d.email| > 1 && IsJsSpace(d.email[0]) && !IsJsSpace(d.email[1])
    ensures ValidateEditForm(d)["email"] == EmailInvalid
  {
    assert !Blank(d.email) by {
      TrimEmptyIffAllSpace(d.email);
    }
    forall a | 0 < a < |d.email|
      ensures !(d.email[a] == '@' && forall i :: 0 <= i < a ==> NotSpaceOrAt(d.email[i]))
    {
      assert !NotSpaceOrAt(d.email[0]);
    }
  }

  /** A character outside the Basic Multilingual Plane is two code units to
      `length`: seven characters with one emoji pass the eight-unit rule. */
  lemma AstralCharacterCountsTwice()
    ensures var s := "Ab1!\U{1F600}xy";
      && |s| == 7 && Utf16Length(s) == 8
      && "newPassword" !in ValidatePasswordForm(PasswordData("x", s, s))
  {
    var s := "Ab1!\U{1F600}xy";
    var a := s[..4];
    Utf16LengthBmp(a);
    assert Utf16Length(a) == 4;
    assert s[..5][..4] == a && s[..6][..5] == s[..5] && s[..6] == s[..|s| - 1];
    assert Utf16Length(s[..5]) == 6;
    assert Utf16Length(s[..6]) == 7;
  }
}

=== FILE: venue_booking_service.dfy ===
/** `VenueBookingServiceImpl`: a club's request to book a venue for some
    time slots, and the listing of all requests with their slot times. */
module VenueBookingService {
  import opened Wrappers
  import opened Entities
  import opened Repository
  import opened Strings

  /** `VenueBookingStatus`, constant by constant; only `PENDING` is ever
      assigned, and no modelled operation moves between the others. */
  datatype BookingStatus = Pending | ClerkApproved | ClerkRejected | HallCoordinatorApproved
    | DeputyDirectorApproved | SarApproved | CaretakerAssigned | FullyApproved

  /** A `venue_booking` row without the signature columns of the approval
      chain. */
  datatype Booking = Booking(
    club: Id,
    venue: Id,
    requestedDate: Date,
    reason: string,
    applicantName: string,
    registrationNumber: string,
    contactNumber: string,
    formSignedDate: Instant,
    status: BookingStatus)

  /** `VenueBookingRequestDto`. */
  datatype BookingRequest = BookingRequest(
    clubId: Id,
    venueId: Id,
    requestedDate: Date,
    reason: string,
    applicantName: string,
    registrationNumber: string,
    contactNumber: string,
    slotIds: seq<Id>)

  /** `VenueBookingResponseDto`. */
  datatype BookingResponse = BookingResponse(
    id: Id,
    clubName: string,
    venueName: string,
    requestedDate: Date,
    reason: string,
    applicantName: string,
    registrationNumber: string,
    contactNumber: string,
    status: BookingStatus,
    slotTimes: seq<string>)

  /** Clubs and venues by id with their names, slots by id, bookings by id,
      and the booking-slot rows (owner = booking). */
  datatype BookingDb = BookingDb(
    clubs: map<Id, string>,
    venues: map<Id, string>,
    slots: map<Id, Slot>,
    bookings: map<Id, Booking>,
    bookingSlots: seq<Link<Id>>)

  /** The foreign keys the database enforces: a booking names a stored club
      and venue, and a booking-slot row a stored booking and slot. */
  predicate Consistent(db: BookingDb) {
    && (forall b :: b in db.bookings ==> db.bookings[b].club in db.clubs && db.bookings[b].venue in db.venues)
    && (forall l :: l in db.bookingSlots ==> l.owner in db.bookings && l.target in db.slots)
  }

  // ---------------------------------------------------------------------
  // `LocalTime.toString()` to the minute, and the slot text

  function TwoDigits(n: nat): (r: string)
    requires n < 100
    ensures |r| == 2 && AllDigits(r)
  {
    [DigitChar(n / 10), DigitChar(n % 10)]
  }

  function DigitValue(c: char): int {
    c as int - '0' as int
  }

  /** "HH:mm". */
  function FormatTime(t: TimeOfDay): (r: string)
    ensures |r| == 5 && r[2] == ':'
    ensures IsDigit(r[0]) && IsDigit(r[1]) && IsDigit(r[3]) && IsDigit(r[4])
  {
    TwoDigits(t / 60) + ":" + TwoDigits(t % 60)
  }

  /** Reads "HH:mm" back as minutes since midnight. */
  function ParseTime(s: string): Option<int>
  {
    if |s| == 5 && s[2] == ':' && IsDigit(s[0]) && IsDigit(s[1]) && IsDigit(s[3]) && IsDigit(s[4])
    then Some((DigitValue(s[0]) * 10 + DigitValue(s[1])) * 60 + DigitValue(s[3]) * 10 + DigitValue(s[4]))
    else None
  }

  /** `start + " - " + end`. */
  function SlotLabel(s: Slot): (r: string)
    ensures |r| == 13 && r[..5] == FormatTime(s.start) && r[5..8] == " - " && r[8..] == FormatTime(s.end)
  {
    FormatTime(s.start) + " - " + FormatTime(s.end)
  }

  /** Splits a text back into its two times. */
  function ParseSlotLabel(text: string): Option<Slot>
  {
    if |text| != 13 || text[5..8] != " - " then None
    else
      match (ParseTime(text[..5]), ParseTime(text[8..]))
      case (Some(a), Some(b)) => if 0 <= a < 1440 && 0 <= b < 1440 then Some(Slot(a, b)) else None
      case _ => None
  }

  /** Every time of day prints as a string that reads back as that time. */
  lemma FormatTimeRoundTrip(t: TimeOfDay)
    ensures ParseTime(FormatTime(t)) == Some(t)
  {
    var h, m := t / 60, t % 60;
    var r := FormatTime(t);
    assert DigitValue(r[0]) == h / 10 && DigitValue(r[1]) == h % 10;
    assert DigitValue(r[3]) == m / 10 && DigitValue(r[4]) == m % 10;
  }

  /** A slot's text reads back as the slot, so distinct slots get distinct
      labels. */
  lemma SlotLabelRoundTrip(s: Slot)
    ensures ParseSlotLabel(SlotLabel(s)) == Some(s)
  {
    var text := SlotLabel(s);
    FormatTimeRoundTrip(s.start);
    FormatTimeRoundTrip(s.end);
    assert text[..5] == FormatTime(s.start) && text[8..] == FormatTime(s.end);
  }

  lemma SlotLabelInjective(a: Slot, b: Slot)
    ensures SlotLabel(a) == SlotLabel(b) <==> a == b
  {
    if SlotLabel(a) == SlotLabel(b) {
      SlotLabelRoundTrip(a);
      SlotLabelRoundTrip(b);
    }
  }

  // ---------------------------------------------------------------------
  // The service

  /** `createVenueBooking`: club, then venue, must exist before anything is
      saved; the request is stored as pending, signed at `now`, under the
      database identity `id`, and linked to each stored slot among the
      requested ids (unknown ids are skipped). */
  function CreateVenueBooking(db: BookingDb, dto: BookingRequest, id: Id, now: Instant): (r: Result<BookingDb>)
    requires id !in db.bookings
    ensures dto.clubId !in db.clubs ==> r == Err(NotFound(ClubEntity))
    ensures dto.clubId in db.clubs && dto.venueId !in db.venues ==> r == Err(NotFound(VenueEntity))
    ensures r.Ok? <==> dto.clubId in db.clubs && dto.venueId in db.venues
    ensures r.Ok? ==>
      && r.value.bookings.Keys == db.bookings.Keys + {id}
      && (forall b :: b in db.bookings ==> r.value.bookings[b] == db.bookings[b])
      && var b := r.value.bookings[id];
      && b.status == Pending && b.formSignedDate == now
      && b.club == dto.clubId && b.venue == dto.venueId
      && b.requestedDate == dto.requestedDate && b.reason == dto.reason
      && b.applicantName == dto.applicantName && b.registrationNumber == dto.registrationNumber
      && b.contactNumber == dto.contactNumber
  {
    if dto.clubId !in db.clubs then Err(NotFound(ClubEntity))
    else if dto.venueId !in db.venues then Err(NotFound(VenueEntity))
    else
      var booking := Booking(dto.clubId, dto.venueId, dto.requestedDate, dto.reason, dto.applicantName,
                             dto.registrationNumber, dto.contactNumber, now, Pending);
      var links := LinksFrom(id, FindAllById(dto.slotIds, db.slots.Keys));
      Ok(db.(bookings := db.bookings[id := booking], bookingSlots := db.bookingSlots + links))
  }

  lemma LinkedSlotsStored(db: BookingDb, booking: Id)
    requires Consistent(db)
    ensures forall i :: 0 <= i < |Targets(db.bookingSlots, booking)| ==> Targets(db.bookingSlots, booking)[i] in db.slots
  {
    var ids := Targets(db.bookingSlots, booking);
    forall i | 0 <= i < |ids|
      ensures ids[i] in db.slots
    {
      assert ids[i] in ids;
      assert Link(booking, ids[i]) in db.bookingSlots;
    }
  }

  /** The labels of the booking's slots, in link order. */
  function SlotTimes(db: BookingDb, booking: Id): (r: seq<string>)
    requires Consistent(db)
    ensures |r| == |Targets(db.bookingSlots, booking)|
  {
    var ids := Targets(db.bookingSlots, booking);
    LinkedSlotsStored(db, booking);
    seq(|ids|, i requires 0 <= i < |ids| => SlotLabel(db.slots[ids[i]]))
  }

  /** `getAllBookings`, keyed by booking id. The joins follow the foreign
      keys the database guarantees. */
  function GetAllBookings(db: BookingDb): (r: map<Id, BookingResponse>)
    requires Consistent(db)
    ensures r.Keys == db.bookings.Keys
    ensures forall b :: b in r ==>
      && r[b].id == b
      && r[b].clubName == db.clubs[db.bookings[b].club]
      && r[b].venueName == db.venues[db.bookings[b].venue]
      && r[b].status == db.bookings[b].status
      && r[b].requestedDate == db.bookings[b].requestedDate
      && r[b].reason == db.bookings[b].reason
      && r[b].applicantName == db.bookings[b].applicantName
      && r[b].registrationNumber == db.bookings[b].registrationNumber
      && r[b].contactNumber == db.bookings[b].contactNumber
      && |r[b].slotTimes| == |Targets(db.bookingSlots, b)|
      && (forall i :: 0 <= i < |r[b].slotTimes| ==>
            && Targets(db.bookingSlots, b)[i] in db.slots
            && ParseSlotLabel(r[b].slotTimes[i]) == Some(db.slots[Targets(db.bookingSlots, b)[i]]))
  {
    forall b, i | b in db.bookings && 0 <= i < |Targets(db.bookingSlots, b)|
      ensures Targets(db.bookingSlots, b)[i] in db.slots
      ensures ParseSlotLabel(SlotTimes(db, b)[i]) == Some(db.slots[Targets(db.bookingSlots, b)[i]])
    {
      LinkedSlotsStored(db, b);
      SlotLabelRoundTrip(db.slots[Targets(db.bookingSlots, b)[i]]);
    }
    map b | b in db.bookings ::
      var x := db.bookings[b];
      BookingResponse(b, db.clubs[x.club], db.venues[x.venue], x.requestedDate, x.reason, x.applicantName,
                      x.registrationNumber, x.contactNumber, x.status, SlotTimes(db, b))
  }

  // ---------------------------------------------------------------------
  // Properties

  /** A new booking lists exactly the stored slots among those requested,
      once each and in the order first requested, and keeps the database
      consistent. */
  lemma CreateBookingSlots(db: BookingDb, dto: BookingRequest, id: Id, now: Instant)
    requires Consistent(db)
    requires id !in db.bookings
    requires CreateVenueBooking(db, dto, id, now).Ok?
    ensures var db' := CreateVenueBooking(db, dto, id, now).value;
      && Consistent(db')
      && Targets(db'.bookingSlots, id) == FindAllById(dto.slotIds, db.slots.Keys)
      && |GetAllBookings(db')[id].slotTimes| == |FindAllById(dto.slotIds, db.slots.Keys)|
      && GetAllBookings(db')[id].status == Pending
  {
    var db' := CreateVenueBooking(db, dto, id, now).value;
    var found := FindAllById(dto.slotIds, db.slots.Keys);
    var links := LinksFrom(id, found);
    assert db'.bookingSlots == db.bookingSlots + links;
    forall l | l in db'.bookingSlots
      ensures l.owner in db'.bookings && l.target in db'.slots
    {
      if l !in db.bookingSlots {
        var i :| 0 <= i < |links| && links[i] == l;
        assert found[i] in found;
      }
    }
    assert Consistent(db');
    AddTargets(db.bookingSlots, id, found, id);
  }
}

=== FILE: wrappers.dfy ===
/** Failure-carrying result types shared by every service of the model.
    The services throw `RuntimeException`s with a message; the model returns
    `Err` with one constructor per distinct message instead. */
module Wrappers {

  /** A nullable value: `None` stands for Java's `null`. */
  datatype Option<+T> = None | Some(value: T)

  /** The entity a "not found" failure is about. */
  datatype Entity =
    | EventEntity | UserEntity | ClubEntity | VenueEntity | PostEntity
    | CommentEntity | ParentCommentEntity | StudentEntity | AttendanceEntity
    | LikeEntity

  /** One constructor per kind of exception the modelled code throws. */
  datatype Error =
    | NotFound(entity: Entity)
    /** a (event, user) attendance record already exists */
    | AttendanceExists
    | AlreadyFeatured
    | NotFeatured
    | AlreadyLiked
    /** the database's unique-email constraint rejected the insert */
    | DuplicateEmail
    /** login of an account whose `enabled` flag is false */
    | NotVerified
    /** the credential collaborator rejected the password */
    | BadCredentials
    | CodeExpired
    | InvalidCode
    | AlreadyVerified
    /** `EventAttendanceStatus.valueOf` on a string that names no constant */
    | UnknownStatus
    /** a `NullPointerException` from dereferencing a null column */
    | NullReference

  datatype Result<+T> = Ok(value: T) | Err(error: Error) {
    predicate IsFailure() {
      Err?
    }

    function PropagateFailure<U>(): Result<U>
      requires Err?
    {
      Err(error)
    }

    function Extract(): T
      requires Ok?
    {
      value
    }
  }
}
